=== FILE: README.md ===
# ncmake core in Dafny

This project models the core of ncmake. ncmake is a TypeScript driver for the CMake command-line tool. Its parts:

- **The `CMake` driver object.** It assembles the configure, build and clean argument vectors. It sequences configure, ensureConfigured, build, clean, reconfigure, rebuild and compile, and checks that the cmake executable is available. It also reads the list of supported generators from `cmake --help`.
- **The `Toolset` resolver.** It picks the C and C++ compilers, the generator, the Visual Studio platform and the compiler and linker flags. It does this once per object, over memoised probes of the host.
- **The host environment.** Platform and architecture tests, the home directory, and the four process-wide tool probes (ninja, g++, make, clang++).
- **The target options.** The target architecture: the `arch` option when set, the host's otherwise.
- **The line utilities.** Marker-driven line transformation (`transformLines`), the line split and newline/tab normalisation used when files are read and written, the three-way split of lines around a marked section (`readLinesSection`), and the text the file writers produce.

## Modules

- `Wrappers`: `Option`, `Result` and `Outcome` (a step that either passes or fails with an error).
- `Strings`: the JavaScript string operations the core uses, over `seq<char>`: `trim`, `indexOf`, `replace` with a string pattern, `split`, `join`, and a global one-character `replace`.
- `OptionBag` and `Errors`: the options bag with JavaScript truthiness, and the errors the core throws.
- `Environment`: the host, with its platform and architecture tests. The memoised probes are modelled twice: as a function over a `ProbeState` value, and as the class `Probes`, whose `Get` is proved to follow that function.
- `TargetOptions`: the architecture override and its tests.
- `Generators`: the static `CMake.isAvailable` and `CMake.getGenerators`, including the `cmake --help` parser. The parser is a loop proved against a recursive specification.
- `Toolset`: the decision procedure as functions over `ToolsetState`, and the class `Toolset`, whose methods update its fields and are proved to follow those functions.
- `CMakeCommands`: the configure, build and clean argument vectors.
- `CMake`: the driver. The process runner, the file system and the working directory form the class `World`. The class `CMake` holds the driver's fields. Every command of `CMake` is proved equal to a specification function over a `Driver` value, and the sequencing properties are proved about those functions.
- `TransformFile`, `ReadFile`, `WriteFile`: the line utilities. `transformLines` and `readLinesSection` are loops proved against specification functions. `readLines` rewrites an array in place.

## Modelling choices

- **Effects become inputs.**
  - File contents are inputs; reading and writing files is not modelled.
  - `which`, `fs.lstat` and the capability and help queries are fields of `Environment.Host` or parameters.
  - A spawned process's success is an oracle: `outcome(n)` is the result of the `n`-th run. `World` keeps the trace of every argv it was given, with its command kind and working directory.
  - Whether `CMakeLists.txt` and `CMakeCache.txt` exist, and whether `process.chdir` into the work directory succeeds, are booleans.
  - `World` assumes a successful configure leaves the cache file and a successful clean removes it.
- **Fields the constructor never binds are inputs.** The `CMake` constructor (src/cmake.ts:36-38) binds only the options. `m_path`, `m_projectRoot`, `m_workDir`, `m_buildDir` and `m_config` form `CMakeCommands.Layout`. The extra arguments, the toolset, the probes and the first value of `m_isAvailable` are constructor parameters. `m_targetOptions` is never bound either, yet `getConfigureCommand` reads its `arch` (src/cmake.ts:92); the model assumes it is `new TargetOptions(options)` over the driver's own options, so its arch is `options.arch`, else the host's arch (`TargetOptions.Arch`). Configure runs `m_path`; build and clean run the `path` getter. These are two separate inputs, as in the source.
- **Version and platform inputs.** `selectedVs` in `getTopSupportedVisualStudioGenerator` is never bound, so the Visual Studio major version is an input (`Host.vsMajor`). `Environment.cmakeJsVersion` is the input `Host.version`.
- **Probe records are truthy.** The probe getters return a record `{value, writable}`, which is always truthy. So every `!Environment.isXAvailable` test in the toolset is false, and every positive test passes. The model keeps this. The "compiler toolset is not available" error (`Toolset.PosixNeverFails`) and the final "Unix Makefiles" fallbacks can never be reached.
- **Dictionaries are entry sequences.** Dictionaries (transformation variables, file sections) are sequences of entries in key order.
- **Sequential async code.** The `await`ed asynchronous steps are modelled in order. The un-awaited `initializePosix()` inside `initialize` is treated as if it finished before `initialize` returns.

## Model

| member | source | states |
|---|---|---|
| OptionBag.OrDefault | src/cmake.ts:25-27 | `v \|\| d` is the option when it is truthy (set and non-empty) and the default otherwise |
| Strings.TrimStart | src/readfile.ts:52-53 | the result is a suffix of the input that starts with no JavaScript whitespace |
| Strings.TrimStartDrops | src/readfile.ts:52-53 | every character trimStart drops is whitespace, so the suffix it keeps is the longest that starts with no whitespace |
| Strings.TrimEnd | src/readfile.ts:52-53 | the result is a prefix of the input that ends with no JavaScript whitespace |
| Strings.TrimEndDrops | src/readfile.ts:52-53 | every character trimEnd drops is whitespace, so the prefix it keeps is the longest that ends with no whitespace |
| Strings.Trim | src/readfile.ts:52-53 | `trim` never lengthens its input |
| Strings.TrimSlice | src/readfile.ts:52-53 | `trim` keeps one contiguous slice of its input, starting where the leading whitespace ends, and a non-empty result neither starts nor ends with whitespace |
| Strings.TrimSurroundings | src/readfile.ts:52-53 | everything before and after the slice `trim` keeps is whitespace |
| Strings.IndexOf | src/tranformfile.ts:78 | the result is -1 exactly when the pattern occurs nowhere, and otherwise the first index where it occurs |
| Strings.IndexOfFrom | src/tranformfile.ts:78 | the first occurrence at or after a start index, or -1 when none follows |
| Strings.ReplaceFirst | src/tranformfile.ts:95-109 | a string-pattern `replace` leaves text without the pattern alone and otherwise replaces exactly the first occurrence |
| Strings.Split | src/readfile.ts:40 | `split` always yields at least one piece |
| Strings.SplitJoin | src/readfile.ts:40 | joining the pieces of `split` with the same non-empty separator gives the text back |
| Strings.SplitPiecesFree | src/readfile.ts:40 | no piece of `split` contains the separator |
| Strings.SplitNoSeparator | src/readfile.ts:40 | text without the separator splits into itself |
| Strings.SplitAfterLine | src/readfile.ts:40 | a piece free of the separator, then the separator, splits off as the first piece |
| Strings.SplitJoinChar | src/writefile.ts:4-6 | splitting text joined on a one-character separator gives the separator-free lines back |
| Strings.ReplaceCharAppend | src/writefile.ts:33-36 | a global one-character replace distributes over concatenation |
| Strings.ReplaceCharAbsent | src/writefile.ts:33-36 | a global replace of an absent character changes nothing |
| Strings.ReplaceCharRemoves | src/writefile.ts:33-36 | after a global replace the character no longer occurs, if the replacement does not hold it |
| Strings.ReplaceCharKeeps | src/writefile.ts:33-36 | a global replace introduces no character that is in neither the text nor the replacement |
| Environment.PlatformsExclusive | src/environment.ts:39-49 | isWin, isLinux and isOSX are equalities on one string: at most one holds; isPosix is exactly not isWin |
| Environment.ArchesExclusive | src/environment.ts:55-65 | at most one of isX86, isX64 and isArm holds; "arm64" satisfies none |
| Environment.HomeVariable | src/environment.ts:70-72 | USERPROFILE exactly on win32, HOME exactly elsewhere |
| Environment.Home | src/environment.ts:70-72 | home is set exactly when the platform's variable is set, and is its value |
| Environment.ProbePreservesValid | src/environment.ts:82-100 | a probe keeps cache and lookup log consistent, and answers the non-null record `{value: lookup succeeded, writable: true}` |
| Environment.ProbeMemoised | src/environment.ts:82-100 | a second call for the same tool returns the same record and changes nothing |
| Environment.ProbesLookUpOnce | src/environment.ts:25-28 | after any sequence of probe calls the caches stay consistent, no executable has been looked up twice, and every probed tool is cached |
| Environment.CacheGrows | src/environment.ts:82-100 | a cached record stays cached through later probe calls |
| Environment.Probes.constructor | src/environment.ts:25-28 | all four caches start out null and nothing has been looked up |
| Environment.Probes.Get | src/environment.ts:82-161 | a getter call follows the memoised probe function, and returns `{value, writable: true}` |
| TargetOptions.Arch | src/targetOptions.ts:10-12 | the `arch` option when truthy, the host architecture otherwise |
| TargetOptions.TargetArchTests | src/targetOptions.ts:14-24 | the target tests follow the override when it is set: "ia32"/"x86", "x64", "arm"; at most one holds and "arm64" satisfies none |
| Generators.IsAvailable | src/cmake.ts:351-367 | with `cmakePath` set: true exactly when the path exists and is not a directory; otherwise true exactly when `which("cmake")` succeeds; never throws |
| Generators.GeneratorName | src/cmake.ts:393-399 | the trimmed text before the first "=", with exactly one trailing " [arch]" removed when present |
| Generators.HeaderFromFinds | src/cmake.ts:403-405 | the header search stops at a line that trims to "Generators" (or at the end), and no line it passes over trims to "Generators" |
| Generators.HeaderIndexStep | src/cmake.ts:391-405 | while `on` is still false, the current line is the header exactly when it trims to "Generators" |
| Generators.NothingBeforeHeader | src/cmake.ts:390-406 | no line up to and including the "Generators" header contributes a name; without a header nothing does |
| Generators.CollectedFromQualifyingLines | src/cmake.ts:392-402 | every collected name is the name of a qualifying line after the header: two "="-parts with a non-empty head, or one part followed by a line starting with "=" |
| Generators.ScanLine | src/cmake.ts:392-406 | one call of the forEach callback keeps `on` true exactly for the lines after the header, and the names equal to those of the qualifying lines so far |
| Generators.ParseHelpText | src/cmake.ts:387-406 | the line loop computes exactly the recursive specification of the parse; newline style is chosen once for the whole text; no header means no names |
| Generators.GetGenerators | src/cmake.ts:369-413 | fails with "not installed" exactly when cmake is unavailable; the capability list when that query answers; the parsed help text otherwise |
| Toolset.FirstVsFrom | src/toolset.ts:252-275 | the answer is an accepted generator from the list, no earlier one is accepted, and None means none is |
| Toolset.VsPlatform | src/toolset.ts:203-222 | ia32/x86 map to Win32, x64 to x64, arm to ARM, arm64 to ARM64; every other arch leaves the platform unset |
| Toolset.InitializeIdempotent | src/toolset.ts:65-75 | a successful call leaves the toolset initialised and every later call changes nothing (no flags appended twice); a failed call leaves it uninitialised |
| Toolset.PosixNeverFails | src/toolset.ts:78-105 | on POSIX hosts initialisation never fails: the not-available error cannot be raised, because the probe records are truthy |
| Toolset.PosixGenerator | src/toolset.ts:107-166 | a set generator is kept; otherwise macOS takes Xcode when preferred, then Unix Makefiles when make is preferred, then Ninja |
| Toolset.PosixCompilers | src/toolset.ts:78-105 | set compiler paths are never overwritten; unset ones take clang++/clang with preferClang, else g++/gcc with preferGnu, else stay unset |
| Toolset.StepsKeepFlags | src/toolset.ts:77-166 | the compiler step never fails, and neither the compiler step nor the generator step touches the flag lists |
| Toolset.PosixFlagsAppended | src/toolset.ts:169-180 | the macOS compatibility flags, then `-DBUILDING_NODE_EXTENSION` last, after the user's compiler flags; `-undefined dynamic_lookup` on macOS |
| Toolset.WindowsChoice | src/toolset.ts:188-243 | Windows takes the first accepted Visual Studio generator and, from version 16, maps the platform from the target arch; the delay-load flag is always appended, then SAFESEH:NO exactly for x86; no generator means "no Visual C++" and no change |
| Toolset.InitializedHasGenerator | src/toolset.ts:65-75 | a successful initialisation of a fresh toolset always selects a generator |
| Toolset.Toolset.constructor | src/toolset.ts:22-35 | generator and platform start unset whatever the options say; compiler paths, make path and flag lists start as the options give them, flags defaulting to [] (the flag arrays are held as values, see Left out) |
| Toolset.Toolset.Initialize | src/toolset.ts:65-75 | the fields and probe caches afterwards, and the outcome, are the specification's: the platform's procedure, only once |
| Toolset.Toolset.InitializePosix | src/toolset.ts:77-186 | compiler choice, then generator choice, then flags, each updating the fields as specified |
| Toolset.Toolset.SelectCompiler | src/toolset.ts:78-105 | the compiler step updates the paths and probe caches as the specification's compiler step does |
| Toolset.Toolset.SelectGenerator | src/toolset.ts:107-166 | the generator step updates the generator and the probe caches as `GeneratorStep` does: a set generator is kept, then Xcode on macOS when preferred, then Unix Makefiles when make is preferred, else Ninja; nothing else changes |
| Toolset.Toolset.InitializeWin | src/toolset.ts:188-243 | the Windows procedure updates generator, platform and linker flags, or throws "no Visual C++" leaving them as they were |
| Toolset.Toolset.TopSupportedVisualStudioGenerator | src/toolset.ts:245-276 | the loop returns the first accepted generator in list order (Win64 suffixes checked before version 16), None when nothing matches, and the query's error when it fails |
| CMakeCommands.XcodeArch | src/cmake.ts:91-97 | "x64" is spelled "x86_64"; every other arch passes verbatim |
| CMakeCommands.Entry | src/cmake.ts:128-142 | a conditional define is present exactly when its condition holds, with that key and value |
| CMakeCommands.RenderDefines | src/cmake.ts:154 | one argument per define |
| CMakeCommands.Path | src/cmake.ts:25-27 | the `cmakePath` option when truthy, "cmake" otherwise |
| CMakeCommands.KeyNameHasNoEquals | src/cmake.ts:58-75 | no define key contains "=" |
| CMakeCommands.ParseRendered | src/cmake.ts:154 | `-DNAME=VALUE` reads back as NAME and VALUE when NAME has no "=" |
| CMakeCommands.RenderParse | src/cmake.ts:154 | rendering a define without quoting loses nothing: key and value read back |
| CMakeCommands.DistinctKeysAppend | src/cmake.ts:58-142 | two define lists with distinct keys and no key in common concatenate to a list with distinct keys |
| CMakeCommands.AlwaysPresentDefines | src/cmake.ts:58-75 | the version, build-type and MSVC-runtime defines are always present, with those values only |
| CMakeCommands.OutputDirectoryDefine | src/cmake.ts:63-71 | runtime output directory = workDir on Windows; elsewhere library output directory = workDir when it ends with the config, buildDir otherwise |
| CMakeCommands.OsxArchitecturesDefine | src/cmake.ts:91-97 | CMAKE_OSX_ARCHITECTURES appears exactly on macOS with a target arch, x64 rewritten |
| CMakeCommands.StaticKeys | src/cmake.ts:58-97 | the fixed defines name each key once and no toolset key; the third of them, and no other, is an output-directory define |
| CMakeCommands.CompilerDefines | src/cmake.ts:128-133 | the compiler defines appear exactly when the toolset's paths are set, with those paths |
| CMakeCommands.FlagDefines | src/cmake.ts:134-139 | the flag defines appear exactly when their lists are non-empty, joined by single spaces |
| CMakeCommands.MakeProgramDefine | src/cmake.ts:140-142 | the make program define appears exactly when the make path is set |
| CMakeCommands.ToolsetKeys | src/cmake.ts:128-142 | the toolset defines name only toolset keys, each once |
| CMakeCommands.EntryAppend | src/cmake.ts:87-142 | pushing an optional define with a key not yet in the list keeps the keys distinct and adds at most that define |
| CMakeCommands.ConfigureDefinesTable | src/cmake.ts:58-142 | the whole define list names each key once and carries exactly one output-directory define |
| CMakeCommands.GeneratorArgsShape | src/cmake.ts:119-127 | one two-element pair per set field among generator, platform and toolset name: "-G" and the generator first, "-A" and the platform right after it (first when there is no generator), "-T" and the toolset name last |
| CMakeCommands.ConfigureArgvOrder | src/cmake.ts:50-157 | configure argv = m_path, project root, "--no-warn-unused-cli"; then the "-G", "-A" and "-T" pairs for the set fields, each at its position in that order; then every define in order, each parsing back to its key and value; then the extra arguments |
| CMakeCommands.BuildArgvOrder | src/cmake.ts:268-277 | build argv = path, "--build", workDir, "--config", config, then "--target" and "--parallel" when set, then the extra arguments |
| CMakeCommands.CleanArgv | src/cmake.ts:288-290 | clean argv = path, "-E", "remove_directory", workDir, then the extra arguments |
| CMake.CountAppend | src/cmake.ts:322-325 | run counts add up over concatenated traces |
| CMake.AvailabilityMemoised | src/cmake.ts:29-34 | the availability getter probes at most once: a second check after the first returns the same and changes nothing |
| CMake.ConfigureVerifiesFirst | src/cmake.ts:44-48 | when cmake is not found, configure, build and clean throw that error before doing anything else |
| CMake.ConfigureRunsOnce | src/cmake.ts:222-257 | configure runs at most one process: the configure argv in workDir, only after the toolset initialised, CMakeLists.txt exists and chdir worked; a missing CMakeLists.txt names the project root; the cwd is restored; success leaves the cache file |
| CMake.EnsureConfiguredOnce | src/cmake.ts:259-266 | ensureConfigured does nothing when the cache file exists, and after it succeeds a second call does nothing |
| CMake.GrowsTrans | src/cmake.ts:299-320 | trace growth bounds compose |
| CMake.RunGrows | src/cmake.ts:322-325 | a run appends exactly one invocation to the trace |
| CMake.ConfigureGrows | src/cmake.ts:222-257 | configure appends at most one run, and no clean |
| CMake.BuildGrows | src/cmake.ts:279-286 | a build appends at most two runs (configure, build), never a clean |
| CMake.CleanGrows | src/cmake.ts:292-297 | clean appends at most one run |
| CMake.ResetAndAbort | src/cmake.ts:299-309 | reconfigure, rebuild and compile empty the extra arguments first; reconfigure and rebuild stop at a failed clean |
| CMake.CompileFallsBackOnce | src/cmake.ts:311-320 | compile cleans at most once and runs at most five processes; a passing build is the whole result |
| CMake.CleanRunsOnce | src/cmake.ts:292-297 | a clean checks availability, then runs exactly the clean argv in the current directory; when cmake is not found only the memoised answer changes; success removes the cache file |
| CMake.BuildConfiguresFirst | src/cmake.ts:279-286 | a passing build ends with a successful build run of the build argv in the current directory; without a cache file the first run is the configure, and a passing build ran exactly the configure and the build |
| CMake.ResetThenRuns | src/cmake.ts:299-309 | after a passing clean, reconfigure's next and only run is the configure argv without extra arguments; rebuild's next run is a configure, and a passing rebuild ran exactly that configure and then the build argv |
| CMake.RebuildCleansOnce | src/cmake.ts:305-309 | when cmake is known to be available, a rebuild's first run is the clean, it cleans exactly once, and a passing rebuild ran clean, configure and build in that order |
| CMake.CompileCleansOnceAfterFailedBuild | src/cmake.ts:311-320 | when the first build fails, compile's result is the rebuild's; cmake not found means nothing runs and compile fails with that error; otherwise the clean is compile's next run, exactly one clean follows the build, and a passing compile then ran configure and build |
| CMake.UnassignedAvailabilityAlwaysFails | src/cmake.ts:19-48 | with `m_isAvailable` never assigned, every command throws "CMake executable is not found" and runs nothing |
| CMake.NullAvailabilityProbes | src/cmake.ts:29-34 | with the field null, the first check probes, memoises, and passes exactly when cmake is available |
| CMake.World.constructor | src/cmake.ts:322-325 | the world starts with an empty trace and the given files and directory |
| CMake.World.Run | src/cmake.ts:322-325 | a run appends its invocation, takes the oracle's outcome, and updates the cache file |
| CMake.World.EnterWorkDir | src/cmake.ts:243-244 | chdir into the work directory succeeds or leaves the state unchanged |
| CMake.World.Chdir | src/cmake.ts:253-256 | chdir back sets the working directory |
| CMake.CMake.constructor | src/cmake.ts:36-38 | the driver keeps its options and inputs; the availability field starts as given: `Undefined` as written, `Null` as intended (see Findings) |
| CMake.CMake.IsAvailableGetter | src/cmake.ts:29-34 | the getter follows the availability specification and changes no other field |
| CMake.CMake.VerifyIfAvailable | src/cmake.ts:44-48 | throws "not found" exactly as the specification says |
| CMake.CMake.Run | src/cmake.ts:322-325 | one run, as specified |
| CMake.CMake.GetConfigureCommand | src/cmake.ts:50-157 | initialises the toolset, then returns the configure argv built from the initialised toolset, or the toolset's error |
| CMake.CMake.Configure | src/cmake.ts:222-257 | new driver state and outcome equal ConfigureSpec's |
| CMake.CMake.EnsureConfigured | src/cmake.ts:259-266 | new driver state and outcome equal EnsureConfiguredSpec's |
| CMake.CMake.Build | src/cmake.ts:279-286 | new driver state and outcome equal BuildSpec's |
| CMake.CMake.Clean | src/cmake.ts:292-297 | new driver state and outcome equal CleanSpec's |
| CMake.CMake.Reconfigure | src/cmake.ts:299-303 | new driver state and outcome equal ReconfigureSpec's |
| CMake.CMake.Rebuild | src/cmake.ts:305-309 | new driver state and outcome equal RebuildSpec's |
| CMake.CMake.Compile | src/cmake.ts:311-320 | new driver state and outcome equal CompileSpec's |
| TransformFile.SplitFileLines | src/tranformfile.ts:22-25 | at least one line, and no line holds "\n" |
| TransformFile.SplitFileLinesSingle | src/tranformfile.ts:22-25 | text without "\n" is one line |
| TransformFile.SplitFileLinesAfter | src/tranformfile.ts:22-25 | a first line ending in "\n" or "\r\n" splits off |
| TransformFile.SplitFileLinesJoin | src/tranformfile.ts:22-25 | splitting undoes joining on "\r\n" (or "\n") for lines without line breaks |
| TransformFile.SplitFileLinesUnix | src/tranformfile.ts:22-25 | text without "\r" splits exactly as on "\n" |
| TransformFile.MapVarsToOps | src/tranformfile.ts:38-45 | same keys in the same order; strings and arrays become the given operation with that parameter; replace variables pass unchanged |
| TransformFile.TransformLines | src/tranformfile.ts:48-133 | the nested loops compute the specification: transformations in key order, each over the previous output |
| TransformFile.TransformPass | src/tranformfile.ts:76-128 | one round of the outer loop maps every line through the switch, in order |
| TransformFile.TransformLine | src/tranformfile.ts:78-127 | the switch on the operation; a line without the marked name is kept exactly when non-matching lines are kept |
| TransformFile.PassSame | src/tranformfile.ts:76-128 | a pass over the first n lines looks only at those lines |
| TransformFile.PassAppendUpTo | src/tranformfile.ts:76-128 | a pass over a + b[..j] is the pass over a followed by the pass over b[..j] |
| TransformFile.PassAppend | src/tranformfile.ts:76-128 | a pass distributes over concatenation of line lists |
| TransformFile.TransformIsLineByLine | src/tranformfile.ts:61-127 | a transformation works line by line; an unmarked line survives exactly when no transformation returns matches |
| TransformFile.MatchingLineOutputs | src/tranformfile.ts:79-121 | for each operation, what a matching line becomes (delete/print drop; replace emits; portions cut or replace the first occurrence, an empty array replacing it with "undefined"; returning ops and unknown keep) |
| TransformFile.ApplyAllAppend | src/tranformfile.ts:68-131 | applying ts1 + ts2 is applying ts2 to the result of ts1 |
| TransformFile.ApplyAllPrefix | src/tranformfile.ts:68-131 | the first k transformations alone decide the result after k rounds |
| TransformFile.TransformSequential | src/tranformfile.ts:51-131 | no transformations returns the lines; otherwise they run in key order, each over the previous output |
| TransformFile.PassSingle | src/tranformfile.ts:76-128 | a pass over one line is that line's output |
| TransformFile.UnmarkedLineKept | src/tranformfile.ts:61-127 | a line mentioning no marked name passes every transformation untouched when non-matching lines are kept |
| TransformFile.TemplateLines | src/tranformfile.ts:185-188 | template conversion leaves lines without `$name$` alone and, for a one-variable template, replaces the first `$name$` with its value |
| TransformFile.TemplateLineUnmarked | src/tranformfile.ts:185-188 | a line that mentions no `$name$` of a string-or-array template comes out unchanged |
| TransformFile.TemplateLineReplaced | src/tranformfile.ts:185-188 | for a one-variable template, the first `$name$` of a line is replaced by the value |
| TransformFile.TransformedFileReadsBack | src/tranformfile.ts:158-164 | with no variables the lines are unchanged; the written file splits back into the transformed lines when they hold no line break or tab |
| ReadFile.StripBom | src/readfile.ts:3-7 | at most one character is removed, and only a leading U+FEFF when stripping is asked for |
| ReadFile.StripBomOnce | src/readfile.ts:5 | a second U+FEFF survives; without stripping the text is unchanged |
| ReadFile.DropCr | src/readfile.ts:43-45 | at most one trailing "\r" is removed, exactly when the line ends with one |
| ReadFile.CrLine | src/readfile.ts:43-45 | a line without "\n" or a trailing "\r", written with a "\r", reads back as itself |
| ReadFile.ReadLinesSpec | src/readfile.ts:38-48 | one line per "\n"-piece, each without one trailing "\r" |
| ReadFile.ReadLines | src/readfile.ts:38-48 | the array rewritten in place holds exactly the specified lines |
| ReadFile.ReadLinesCons | src/readfile.ts:38-48 | a first line ending in "\n" reads as that line without "\r", then the rest |
| ReadFile.ReadLinesCrlf | src/readfile.ts:38-48 | text written with "\r\n" line ends reads back as its lines |
| ReadFile.ReadLinesAgreesWithSplitFileLines | src/readfile.ts:38-48 | on such text readLines and splitFileLines agree |
| ReadFile.FirstTrimmedFinds | src/readfile.ts:63-93 | the marker search stops at a line whose trim equals the marker (or at the end), and no line it passes over matches |
| ReadFile.MarkersFound | src/readfile.ts:63-93 | the start line is the first to match the trimmed start marker; the end line is the first later line to match the trimmed end marker |
| ReadFile.EndIndex | src/readfile.ts:68-74 | the end line lies strictly after the start line, or is the end |
| ReadFile.SectionBegin | src/readfile.ts:79-85 | the section begins within the lines |
| ReadFile.SectionEnd | src/readfile.ts:68-74 | the after part begins no earlier than the section |
| ReadFile.Sections | src/readfile.ts:51-100 | before ++ section ++ after is the input, in order |
| ReadFile.ReadLinesSection | src/readfile.ts:51-100 | the three-state loop computes exactly the specified three parts |
| ReadFile.PushLine | src/readfile.ts:64-92 | one iteration keeps the loop's phase and the three lists equal to the first i+1 lines dealt at the cut positions |
| ReadFile.DealSlices | src/readfile.ts:64-92 | dealing the first i lines puts each line in exactly one list, chosen by its position: the three lists are the matching slices of the prefix |
| ReadFile.DealAll | src/readfile.ts:95-99 | after the last line the three lists are the three slices |
| ReadFile.Boundaries | src/readfile.ts:68-88 | in the before phase only the start line matches the start marker; in the section only the end line matches the end marker |
| ReadFile.Place | src/readfile.ts:64-92 | the phase change and the list chosen for each line by the branches agree with the cut positions |
| ReadFile.SectionStart | src/readfile.ts:79-88 | the section opens at the first line trimming to the trimmed start marker; without one everything is before; the start line goes to section with the include flag, to before without |
| ReadFile.SectionClose | src/readfile.ts:68-77 | the section closes at the first later line trimming to the end marker; without one after is empty; the end line goes to section with the include flag, to after without |
| WriteFile.JoinLinesForFile | src/writefile.ts:33-36 | the result holds no tab, and text without "\n" and tabs is unchanged |
| WriteFile.JoinLinesForFileByCharacter | src/tranformfile.ts:30-33 | the normalisation works character by character: "\n" becomes "\r\n", a tab four spaces, every other character itself |
| WriteFile.JoinAppend | src/writefile.ts:4-6 | joining one more line adds one separator and that line |
| WriteFile.WriteFileContentShape | src/writefile.ts:4-10 | the text is the lines joined by the EOL with no trailing terminator; with "\n" it splits back into the lines |
| WriteFile.WriteFileLinesContent | src/writefile.ts:38-50 | the text written by the line writers holds no tab |
| WriteFile.WriteFileLinesCrlf | src/writefile.ts:38-50 | lines without "\n" and tabs are written joined by "\r\n" |
| WriteFile.FlattenAppend | src/writefile.ts:12-31 | flattening distributes over concatenation of section lists |
| WriteFile.FlattenKeepsSections | src/writefile.ts:12-31 | each section's lines sit, in order, right after those of the sections before it; nothing dropped or reordered |
| WriteFile.FlattenSections | src/writefile.ts:14-18 | the loop collects exactly the flattened sections |
| WriteFile.WriteFileSectionsContent | src/writefile.ts:12-21 | the section writers write the flattened lines joined by the EOL |

## Left out

- Reading and writing files, `fs.ensureDir`, `fs.lstat`, `fs.lstatSync`, `which`, `process.chdir` and process spawning are not modelled as effects. Their results are inputs, and `World` stands in for the runner and the file system.
- Logging, the `silent` option and all console messages are not modelled.
- `readLinesSections` (src/readfile.ts:102-174) is not part of this model. It depends on `indexOf` truthiness over a callback-driven list of markers.
- `loadJsonFile` and the asynchronous `readFile` wrapper are not part of this model. They are JSON parsing and I/O.
- The JSON parsing of `cmake -E capabilities` is left out. Its answer, a list of generator names or none, is the input `Host.capabilities`.
- `TransformFile.MatchingLineOutput`: `String.prototype.replace` gives special meaning to `$&`, `$1` and similar in the replacement string. The model inserts the replacement literally.
- The callbacks and the `Promise` plumbing of `writeFileLinesAsync`, `appendFileLinesAsync`, `transformFileToFileAsync` and `convertTemplateFileAsync` are left out. The text they write is modelled by the synchronous forms. Appending writes the same text at the end of the file, so it is not modelled separately.
- The commented-out code in src/cmake.ts (the include, source and library strings) is not modelled.
- `CMakeCommands.GeneratorArgs`: the `-T` argument is built from `m_toolset.toolset`. `Toolset` has no such getter, so it is always undefined and `CMake.CMake.GetConfigureCommand` never emits `-T`. `CMakeCommands.ConfigureArgvOrder` states the general case, with the toolset name as a parameter.
- `Toolset.Toolset.constructor`: when the options carry `compilerFlags` or `linkerFlags`, the source stores those very arrays, so the pushes of `initialize` (src/toolset.ts:174-180, 234-241) also grow the caller's options. The model holds options as an immutable value and the flag lists as the toolset's own fields. It does not capture that aliasing, nor a second toolset made from the same options starting with the flags the first one pushed. `Options` is a record that always exists, so null or undefined options are not represented either; in the source they pass the `options || {}` guard at src/toolset.ts:23, and line 24 hands the raw value to `TargetOptions`, but the direct reads of `options.cCompilerPath` and the other fields at lines 28-32 throw a TypeError.
- `CMake.World.Run`: the effect of the commands on disk is reduced to two facts. A successful configure leaves `CMakeCache.txt` and a successful clean removes it.
- Concurrency between the un-awaited `initializePosix()` and the rest of `initialize` is not modelled. The steps run in order.
- The `getGenerators` instance method (src/cmake.ts:40-42) only forwards to the static `getGenerators` with the driver's options and log, so it has no model of its own; the static form is `Generators.GetGenerators`.

## Findings

| source | as written | input that shows it | evidently intended | confidence | as-written member | corrected member |
|---|---|---|---|---|---|---|
| src/cmake.ts:19-38 | `m_isAvailable` is declared but never assigned, so it holds `undefined`. The getter tests `=== null`, which is false, and returns `undefined` without probing. `verifyIfAvailable` therefore always throws | any driver on a host where cmake is installed: `configure()`, `build()`, `clean()` and `compile()` all throw "CMake executable is not found" and run no process | the constructor sets `m_isAvailable = null`, so the first check probes `CMake.isAvailable` and memoises the answer | not executed | CMake.UnassignedAvailabilityAlwaysFails | CMake.NullAvailabilityProbes |

=== FILE: cmake.dfy ===
/** The CMake driver object: configure, ensureConfigured, build, clean,
    reconfigure, rebuild and compile. The spawned processes and the
    filesystem are the `World`: the runner's outcomes are an oracle indexed
    by the number of runs so far, and every run is recorded in a trace. The
    sequencing is stated by functions over a value `Driver`; the classes
    `World` and `CMake` update their fields in place and are proved to follow
    them. */
module CMake {
  import opened Wrappers
  import opened OptionBag
  import opened Errors
  import opened Environment
  import opened Generators
  import opened Toolset
  import opened CMakeCommands

  /** What the `m_isAvailable` field holds: never assigned, null, or a
      memoised answer. */
  datatype Slot = Undefined | Null | Known(available: bool)

  datatype Command = ConfigureRun | BuildRun | CleanRun

  /** One call of the process runner: which command, its argv, and the
      working directory it ran in. */
  datatype Invocation = Invocation(command: Command, argv: seq<string>, cwd: string)

  /** The runner's trace, whether `<workDir>/CMakeCache.txt` exists, and the
      process's working directory. */
  datatype WorldState = WorldState(trace: seq<Invocation>, cacheFile: bool, cwd: string)

  /** Everything fixed for the lifetime of one driver object. `tsOpts` are
      the options the toolset object was made with. */
  datatype Env = Env(
    opts: Options,
    tsOpts: Options,
    host: Host,
    layout: Layout,
    which: Tool -> WhichResult,
    listsFile: bool,        // <projectRoot>/CMakeLists.txt exists
    canEnterWorkDir: bool,  // process.chdir(workDir) does not throw
    outcome: nat -> bool)   // whether the n-th run succeeds

  /** The driver's own fields, the toolset's, the probe caches, and the world. */
  datatype Driver = Driver(extraArgs: seq<string>, slot: Slot, ts: ToolsetState, probes: ProbeState, world: WorldState)

  datatype Res = Res(s: Driver, out: Outcome<Error>)

  /** One run: the outcome the oracle gives the next run, and its effect on
      the cache file — a successful configure writes CMakeCache.txt into the
      work directory, a successful clean removes the work directory. */
  function RunWorld(w: WorldState, outcome: nat -> bool, c: Command, argv: seq<string>): (WorldState, bool) {
    var ok := outcome(|w.trace|);
    var cache := if ok && c == ConfigureRun then true else if ok && c == CleanRun then false else w.cacheFile;
    (WorldState(w.trace + [Invocation(c, argv, w.cwd)], cache, w.cwd), ok)
  }

  function RunSpec(e: Env, s: Driver, c: Command, argv: seq<string>): Res {
    var (w, ok) := RunWorld(s.world, e.outcome, c, argv);
    Res(s.(world := w), if ok then Pass else Fail(ProcessFailed))
  }

  /** The `isAvailable` getter: probes only when the field is null. */
  function AvailableSpec(e: Env, slot: Slot): (Slot, bool) {
    if slot == Null then
      var v := IsAvailable(e.opts, e.host);
      (Known(v), v)
    else (slot, slot == Known(true))
  }

  function VerifySpec(e: Env, s: Driver): Res {
    var (slot, ok) := AvailableSpec(e, s.slot);
    Res(s.(slot := slot), if ok then Pass else Fail(CMakeNotFound))
  }

  function ConfigureSpec(e: Env, s: Driver): Res {
    var v := VerifySpec(e, s);
    if v.out.Fail? then v
    else
      var init := InitializeSpec(e.tsOpts, e.host, e.which, v.s.ts, v.s.probes);
      var s1 := v.s.(ts := init.ts, probes := init.probes);
      if init.out.Fail? then Res(s1, init.out)
      else if !e.listsFile then Res(s1, Fail(ListsNotFound(e.layout.projectRoot)))
      else if !e.canEnterWorkDir then Res(s1, Fail(ChdirFailed))
      else
        var cmd := ConfigureCommand(e.layout, e.host, e.opts, init.ts, None, s1.extraArgs);
        var r := RunSpec(e, s1.(world := s1.world.(cwd := e.layout.workDir)), ConfigureRun, cmd);
        Res(r.s.(world := r.s.world.(cwd := s1.world.cwd)), r.out)
  }

  function EnsureConfiguredSpec(e: Env, s: Driver): Res {
    if s.world.cacheFile then Res(s, Pass) else ConfigureSpec(e, s)
  }

  function BuildSpec(e: Env, s: Driver): Res {
    var v := VerifySpec(e, s);
    if v.out.Fail? then v
    else
      var c := EnsureConfiguredSpec(e, v.s);
      if c.out.Fail? then c
      else RunSpec(e, c.s, BuildRun, BuildCommand(e.opts, e.layout, c.s.extraArgs))
  }

  function CleanSpec(e: Env, s: Driver): Res {
    var v := VerifySpec(e, s);
    if v.out.Fail? then v
    else RunSpec(e, v.s, CleanRun, CleanCommand(e.opts, e.layout, v.s.extraArgs))
  }

  function ReconfigureSpec(e: Env, s: Driver): Res {
    var c := CleanSpec(e, s.(extraArgs := []));
    if c.out.Fail? then c else ConfigureSpec(e, c.s)
  }

  function RebuildSpec(e: Env, s: Driver): Res {
    var c := CleanSpec(e, s.(extraArgs := []));
    if c.out.Fail? then c else BuildSpec(e, c.s)
  }

  function CompileSpec(e: Env, s: Driver): Res {
    var b := BuildSpec(e, s.(extraArgs := []));
    if b.out.Pass? then b else RebuildSpec(e, b.s)
  }

  // ---- properties ----

  function Count(t: seq<Invocation>, c: Command): nat {
    if |t| == 0 then 0 else Count(t[..|t| - 1], c) + (if t[|t| - 1].command == c then 1 else 0)
  }

  lemma {:induction false} CountAppend(a: seq<Invocation>, b: seq<Invocation>, c: Command)
    ensures Count(a + b, c) == Count(a, c) + Count(b, c)
    decreases |b|
  {
    if |b| > 0 {
      assert (a + b)[..|a + b| - 1] == a + b[..|b| - 1];
      CountAppend(a, b[..|b| - 1], c);
    } else {
      assert a + b == a;
    }
  }

  /** The `isAvailable` getter probes at most once: after the first call the
      answer is memoised and a second call changes nothing. */
  lemma AvailabilityMemoised(e: Env, s: Driver)
    ensures var v := VerifySpec(e, s);
      VerifySpec(e, v.s) == v
      && (s.slot == Null ==> (v.out.Pass? <==> IsAvailable(e.opts, e.host)))
      && v.s.(slot := s.slot) == s
  {
  }

  /** Configure checks availability first: when cmake is not found nothing
      else happens, not even the toolset's initialisation. */
  lemma ConfigureVerifiesFirst(e: Env, s: Driver)
    requires VerifySpec(e, s).out.Fail?
    ensures ConfigureSpec(e, s) == Res(s.(slot := VerifySpec(e, s).s.slot), Fail(CMakeNotFound))
    ensures BuildSpec(e, s) == ConfigureSpec(e, s) && CleanSpec(e, s) == ConfigureSpec(e, s)
  {
  }

  /** Configure runs at most one process: the configure command built from
      the initialised toolset, in the work directory, and only when the
      toolset initialised, CMakeLists.txt exists and the work directory could
      be entered; a missing CMakeLists.txt is reported with the project root.
      The working directory is the same afterwards, whether the run
      succeeded or failed, and a successful run leaves the cache file. */
  lemma ConfigureRunsOnce(e: Env, s: Driver)
    ensures var r := ConfigureSpec(e, s);
      var t := s.world.trace;
      var v := VerifySpec(e, s);
      var init := InitializeSpec(e.tsOpts, e.host, e.which, s.ts, s.probes);
      r.s.world.cwd == s.world.cwd
      && r.s.extraArgs == s.extraArgs
      && |t| <= |r.s.world.trace| <= |t| + 1
      && r.s.world.trace[..|t|] == t
      && (|r.s.world.trace| == |t| + 1 <==>
            v.out.Pass? && init.out.Pass? && e.listsFile && e.canEnterWorkDir)
      && (|r.s.world.trace| == |t| + 1 ==>
            r.s.world.trace[|t|] == Invocation(ConfigureRun,
                                               ConfigureCommand(e.layout, e.host, e.opts, init.ts, None, s.extraArgs),
                                               e.layout.workDir)
            && (r.out.Pass? <==> e.outcome(|t|)))
      && (v.out.Pass? && init.out.Pass? && !e.listsFile ==> r.out == Fail(ListsNotFound(e.layout.projectRoot)))
      && (r.out.Pass? ==> r.s.world.cacheFile)
  {
  }

  /** ensureConfigured configures only when the cache file is missing, and
      once it has succeeded a second call runs nothing. */
  lemma EnsureConfiguredOnce(e: Env, s: Driver)
    ensures s.world.cacheFile ==> EnsureConfiguredSpec(e, s) == Res(s, Pass)
    ensures var r := EnsureConfiguredSpec(e, s);
      r.out.Pass? ==> r.s.world.cacheFile && EnsureConfiguredSpec(e, r.s) == Res(r.s, Pass)
  {
    if !s.world.cacheFile {
      ConfigureRunsOnce(e, s);
    }
  }

  /** The trace only grows, by at most `k` runs of which at most `cleans` are
      cleans, and the extra arguments are untouched. */
  predicate Grows(s: Driver, s': Driver, k: nat, cleans: nat) {
    |s.world.trace| <= |s'.world.trace| <= |s.world.trace| + k
    && s'.world.trace[..|s.world.trace|] == s.world.trace
    && Count(s'.world.trace, CleanRun) <= Count(s.world.trace, CleanRun) + cleans
    && s'.extraArgs == s.extraArgs
  }

  lemma {:induction false} GrowsTrans(s1: Driver, s2: Driver, s3: Driver, k1: nat, c1: nat, k2: nat, c2: nat)
    requires Grows(s1, s2, k1, c1) && Grows(s2, s3, k2, c2)
    ensures Grows(s1, s3, k1 + k2, c1 + c2)
  {
    assert s3.world.trace[..|s1.world.trace|] == s2.world.trace[..|s2.world.trace|][..|s1.world.trace|];
  }

  lemma RunGrows(e: Env, s: Driver, c: Command, argv: seq<string>)
    ensures Grows(s, RunSpec(e, s, c, argv).s, 1, if c == CleanRun then 1 else 0)
  {
    var t := s.world.trace;
    var t' := RunSpec(e, s, c, argv).s.world.trace;
    assert t'[..|t'| - 1] == t;
    assert t'[..|t|] == t;
  }

  lemma ConfigureGrows(e: Env, s: Driver)
    ensures Grows(s, ConfigureSpec(e, s).s, 1, 0)
  {
    ConfigureRunsOnce(e, s);
    var r := ConfigureSpec(e, s);
    if |r.s.world.trace| == |s.world.trace| + 1 {
      assert r.s.world.trace == s.world.trace + [r.s.world.trace[|s.world.trace|]];
      CountAppend(s.world.trace, [r.s.world.trace[|s.world.trace|]], CleanRun);
    } else {
      assert r.s.world.trace == s.world.trace;
    }
  }

  /** A build runs at most a configure and then the build command, never a
      clean; the build command carries the current extra arguments. */
  lemma BuildGrows(e: Env, s: Driver)
    ensures Grows(s, BuildSpec(e, s).s, 2, 0)
  {
    var v := VerifySpec(e, s);
    if v.out.Pass? {
      var c := EnsureConfiguredSpec(e, v.s);
      if !v.s.world.cacheFile {
        ConfigureGrows(e, v.s);
      }
      assert Grows(s, c.s, 1, 0);
      if c.out.Pass? {
        RunGrows(e, c.s, BuildRun, BuildCommand(e.opts, e.layout, c.s.extraArgs));
        GrowsTrans(s, c.s, BuildSpec(e, s).s, 1, 0, 1, 0);
      }
    }
  }

  lemma CleanGrows(e: Env, s: Driver)
    ensures Grows(s, CleanSpec(e, s).s, 1, 1)
  {
    var v := VerifySpec(e, s);
    if v.out.Pass? {
      RunGrows(e, v.s, CleanRun, CleanCommand(e.opts, e.layout, v.s.extraArgs));
    }
  }

  /** reconfigure, rebuild and compile first reset the extra arguments, so
      every command they run carries none; reconfigure and rebuild stop at
      the first failure: a failed clean runs nothing further. */
  lemma ResetAndAbort(e: Env, s: Driver)
    ensures ReconfigureSpec(e, s).s.extraArgs == []
    ensures RebuildSpec(e, s).s.extraArgs == []
    ensures CompileSpec(e, s).s.extraArgs == []
    ensures var c := CleanSpec(e, s.(extraArgs := []));
      c.out.Fail? ==> ReconfigureSpec(e, s) == c && RebuildSpec(e, s) == c
  {
    var s0 := s.(extraArgs := []);
    CleanGrows(e, s0);
    var c := CleanSpec(e, s0);
    ConfigureGrows(e, c.s);
    BuildGrows(e, c.s);
    BuildGrows(e, s0);
    var b := BuildSpec(e, s0);
    CleanGrows(e, b.s);
    BuildGrows(e, CleanSpec(e, b.s).s);
  }

  /** compile has exactly one fallback: it cleans at most once, and runs at
      most five processes (configure and build, then clean, configure and
      build); when the build succeeds nothing else runs. */
  lemma CompileFallsBackOnce(e: Env, s: Driver)
    ensures Grows(s.(extraArgs := []), CompileSpec(e, s).s, 5, 1)
    ensures var b := BuildSpec(e, s.(extraArgs := []));
      b.out.Pass? ==> CompileSpec(e, s) == b
  {
    var s0 := s.(extraArgs := []);
    var b := BuildSpec(e, s0);
    BuildGrows(e, s0);
    if b.out.Fail? {
      var c := CleanSpec(e, b.s);
      CleanGrows(e, b.s);
      GrowsTrans(s0, b.s, c.s, 2, 0, 1, 1);
      if c.out.Pass? {
        BuildGrows(e, c.s);
        GrowsTrans(s0, c.s, BuildSpec(e, c.s).s, 3, 1, 2, 0);
      }
    }
  }

  /** A clean checks availability and then runs exactly the clean command, in
      the current directory; when cmake is not found nothing changes but the
      memoised answer. A successful clean removes the cache file. */
  lemma CleanRunsOnce(e: Env, s: Driver)
    ensures var c := CleanSpec(e, s);
      var v := VerifySpec(e, s);
      c.s.slot == v.s.slot && c.s.world.cwd == s.world.cwd && c.s.extraArgs == s.extraArgs
      && c.s.ts == s.ts && c.s.probes == s.probes
      && (v.out.Fail? ==> c == v && c.s.world == s.world)
      && (v.out.Pass? ==>
            c.s.world.trace == s.world.trace + [Invocation(CleanRun, CleanCommand(e.opts, e.layout, s.extraArgs), s.world.cwd)]
            && (c.out.Pass? <==> e.outcome(|s.world.trace|))
            && (c.out.Pass? ==> !c.s.world.cacheFile))
  {
  }

  lemma {:induction false} SuffixCount(a: seq<Invocation>, b: seq<Invocation>, c: Command)
    requires |a| <= |b| && b[..|a|] == a
    ensures Count(b, c) == Count(a, c) + Count(b[|a|..], c)
  {
    assert b == a + b[|a|..];
    CountAppend(a, b[|a|..], c);
  }

  /** A successful build ends with the build command, run in the current
      directory with the current extra arguments. Without a cache file the
      build configures first: its first run is the configure, and a
      successful build ran exactly the configure and the build. */
  lemma BuildConfiguresFirst(e: Env, s: Driver)
    ensures var b := BuildSpec(e, s);
      var t := s.world.trace;
      var bt := b.s.world.trace;
      b.s.slot == VerifySpec(e, s).s.slot && b.s.world.cwd == s.world.cwd
      && (b.out.Pass? ==>
            |bt| > |t|
            && bt[|bt| - 1] == Invocation(BuildRun, BuildCommand(e.opts, e.layout, s.extraArgs), s.world.cwd)
            && e.outcome(|bt| - 1))
      && (!s.world.cacheFile ==>
            |bt| <= |t| + 2
            && (|bt| > |t| ==> bt[|t|].command == ConfigureRun)
            && (b.out.Pass? ==> |bt| == |t| + 2))
  {
    var v := VerifySpec(e, s);
    BuildGrows(e, s);
    if v.out.Pass? {
      ConfigureRunsOnce(e, v.s);
      var c := EnsureConfiguredSpec(e, v.s);
      assert c.s.world.cwd == s.world.cwd && c.s.extraArgs == s.extraArgs;
      if c.out.Pass? {
        var n := |c.s.world.trace|;
        var bt := BuildSpec(e, s).s.world.trace;
        assert bt == c.s.world.trace + [Invocation(BuildRun, BuildCommand(e.opts, e.layout, s.extraArgs), s.world.cwd)];
        assert bt[..n] == c.s.world.trace;
      }
    }
  }

  /** After a successful clean, reconfigure's next and only run is the
      configure command, and rebuild's next run is the configure that the
      missing cache file calls for; a successful rebuild ran exactly that
      configure and then the build command, both without extra arguments. */
  lemma ResetThenRuns(e: Env, s: Driver)
    ensures var c := CleanSpec(e, s.(extraArgs := []));
      var ct := c.s.world.trace;
      var n := |ct|;
      c.out.Pass? ==>
        ct == s.world.trace + [Invocation(CleanRun, CleanCommand(e.opts, e.layout, []), s.world.cwd)]
        && ReconfigureSpec(e, s) == ConfigureSpec(e, c.s)
        && RebuildSpec(e, s) == BuildSpec(e, c.s)
        && (var r := ReconfigureSpec(e, s); var rt := r.s.world.trace;
            |rt| <= n + 1 && rt[..n] == ct
            && (r.out.Pass? ==> |rt| == n + 1)
            && (|rt| == n + 1 ==>
                  rt[n] == Invocation(ConfigureRun,
                                      ConfigureCommand(e.layout, e.host, e.opts,
                                                       InitializeSpec(e.tsOpts, e.host, e.which, s.ts, s.probes).ts, None, []),
                                      e.layout.workDir)))
        && (var r := RebuildSpec(e, s); var rt := r.s.world.trace;
            |rt| <= n + 2 && rt[..n] == ct
            && (|rt| > n ==> rt[n].command == ConfigureRun)
            && (r.out.Pass? ==>
                  |rt| == n + 2
                  && rt[n + 1] == Invocation(BuildRun, BuildCommand(e.opts, e.layout, []), s.world.cwd)))
  {
    var s0 := s.(extraArgs := []);
    CleanRunsOnce(e, s0);
    var c := CleanSpec(e, s0);
    if c.out.Pass? {
      ConfigureRunsOnce(e, c.s);
      ConfigureGrows(e, c.s);
      BuildConfiguresFirst(e, c.s);
      BuildGrows(e, c.s);
    }
  }

  /** A rebuild from a state where cmake is known to be available runs the
      clean command first and cleans exactly once; a successful rebuild ran
      the clean, a configure and the build command, in that order. */
  lemma RebuildCleansOnce(e: Env, s: Driver)
    requires VerifySpec(e, s).out.Pass? && s.extraArgs == []
    ensures var r := RebuildSpec(e, s);
      var t := s.world.trace;
      var rt := r.s.world.trace;
      |rt| > |t| && rt[..|t|] == t
      && rt[|t|] == Invocation(CleanRun, CleanCommand(e.opts, e.layout, []), s.world.cwd)
      && Count(rt[|t|..], CleanRun) == 1
      && (r.out.Pass? ==>
            |rt| == |t| + 3
            && rt[|t| + 1].command == ConfigureRun
            && rt[|t| + 2] == Invocation(BuildRun, BuildCommand(e.opts, e.layout, []), s.world.cwd)
            && e.outcome(|t| + 2))
  {
    assert s.(extraArgs := []) == s;
    CleanRunsOnce(e, s);
    var c := CleanSpec(e, s);
    var rt := RebuildSpec(e, s).s.world.trace;
    if c.out.Pass? {
      ResetThenRuns(e, s);
      BuildGrows(e, c.s);
    }
    OneClean(s.world.trace, Invocation(CleanRun, CleanCommand(e.opts, e.layout, []), s.world.cwd), rt);
  }

  lemma {:induction false} OneClean(t: seq<Invocation>, x: Invocation, rt: seq<Invocation>)
    requires x.command == CleanRun
    requires |t| < |rt| && rt[..|t| + 1] == t + [x]
    requires Count(rt, CleanRun) <= Count(t + [x], CleanRun)
    ensures rt[..|t|] == t && rt[|t|] == x && Count(rt[|t|..], CleanRun) == 1
  {
    assert rt[..|t|] == (t + [x])[..|t|];
    SuffixCount(t + [x], rt, CleanRun);
    CountAppend(t, [x], CleanRun);
    assert rt[|t|..] == [x] + rt[|t| + 1..];
    CountAppend([x], rt[|t| + 1..], CleanRun);
  }

  /** When compile's first build fails, compile's result is the rebuild's.
      If cmake was not found, nothing runs and compile fails the same way.
      Otherwise the first thing compile runs after the failed build is the
      clean command, the build ran no clean, and compile cleans exactly once;
      a successful compile ran the clean, a configure and the build command
      after the failed build, in that order. */
  lemma CompileCleansOnceAfterFailedBuild(e: Env, s: Driver)
    ensures var s0 := s.(extraArgs := []);
      var b := BuildSpec(e, s0);
      var r := CompileSpec(e, s);
      var t := b.s.world.trace;
      var rt := r.s.world.trace;
      b.out.Fail? ==>
        r == RebuildSpec(e, b.s)
        && (VerifySpec(e, s0).out.Fail? ==> r.s.world == s.world && r.out == Fail(CMakeNotFound))
        && (VerifySpec(e, s0).out.Pass? ==>
              |rt| > |t| && rt[..|t|] == t
              && rt[|t|] == Invocation(CleanRun, CleanCommand(e.opts, e.layout, []), s.world.cwd)
              && Count(rt[|t|..], CleanRun) == 1
              && Count(rt, CleanRun) == Count(s.world.trace, CleanRun) + 1
              && (r.out.Pass? ==>
                    |rt| == |t| + 3
                    && rt[|t| + 1].command == ConfigureRun
                    && rt[|t| + 2] == Invocation(BuildRun, BuildCommand(e.opts, e.layout, []), s.world.cwd)
                    && e.outcome(|t| + 2)))
  {
    var s0 := s.(extraArgs := []);
    var v := VerifySpec(e, s0);
    var b := BuildSpec(e, s0);
    if b.out.Fail? && v.out.Pass? {
      BuildGrows(e, s0);
      BuildConfiguresFirst(e, s0);
      assert VerifySpec(e, b.s).out.Pass?;
      RebuildCleansOnce(e, b.s);
      var t := b.s.world.trace;
      var rt := RebuildSpec(e, b.s).s.world.trace;
      SuffixCount(s.world.trace, t, CleanRun);
      SuffixCount(t, rt, CleanRun);
    }
  }

  /** The driver's `m_isAvailable` field is never assigned, so it reads
      undefined, which is not null: the getter never probes and answers
      falsy. Every command then fails with "CMake executable is not found",
      even when cmake is installed, and no process is ever run. */
  lemma UnassignedAvailabilityAlwaysFails(e: Env, s: Driver)
    requires s.slot == Undefined
    ensures VerifySpec(e, s) == Res(s, Fail(CMakeNotFound))
    ensures ConfigureSpec(e, s) == Res(s, Fail(CMakeNotFound))
    ensures BuildSpec(e, s) == Res(s, Fail(CMakeNotFound))
    ensures CleanSpec(e, s) == Res(s, Fail(CMakeNotFound))
    ensures ReconfigureSpec(e, s).s.world == s.world && RebuildSpec(e, s).s.world == s.world
    ensures CompileSpec(e, s).s.world == s.world && CompileSpec(e, s).out == Fail(CMakeNotFound)
  {
  }

  /** With the field initialised to null, as the getter expects, the first
      check probes and memoises, and it passes exactly when cmake is
      available. */
  lemma NullAvailabilityProbes(e: Env, s: Driver)
    requires s.slot == Null
    ensures VerifySpec(e, s).s.slot == Known(IsAvailable(e.opts, e.host))
    ensures VerifySpec(e, s).out.Pass? <==> IsAvailable(e.opts, e.host)
    ensures IsAvailable(e.opts, e.host) ==>
      CleanSpec(e, s).s.world.trace
        == s.world.trace + [Invocation(CleanRun, CleanCommand(e.opts, e.layout, s.extraArgs), s.world.cwd)]
  {
  }

  /** The filesystem and the process runner. */
  class World {
    var trace: seq<Invocation>
    var cacheFile: bool
    var cwd: string
    const listsFile: bool
    const canEnterWorkDir: bool
    const outcome: nat -> bool

    function State(): WorldState
      reads this
    {
      WorldState(trace, cacheFile, cwd)
    }

    constructor(cacheFile: bool, cwd: string, listsFile: bool, canEnterWorkDir: bool, outcome: nat -> bool)
      ensures State() == WorldState([], cacheFile, cwd)
      ensures this.listsFile == listsFile && this.canEnterWorkDir == canEnterWorkDir && this.outcome == outcome
    {
      trace := [];
      this.cacheFile := cacheFile;
      this.cwd := cwd;
      this.listsFile := listsFile;
      this.canEnterWorkDir := canEnterWorkDir;
      this.outcome := outcome;
    }

    /** `ProcessUtils.run`. */
    method Run(c: Command, argv: seq<string>) returns (ok: bool)
      modifies this
      ensures (State(), ok) == RunWorld(old(State()), outcome, c, argv)
    {
      ok := outcome(|trace|);
      trace := trace + [Invocation(c, argv, cwd)];
      if ok && c == ConfigureRun {
        cacheFile := true;
      } else if ok && c == CleanRun {
        cacheFile := false;
      }
    }

    /** `process.chdir(workDir)`, which throws when the directory cannot be
        entered. */
    method EnterWorkDir(dir: string) returns (ok: bool)
      modifies this
      ensures ok == canEnterWorkDir
      ensures State() == if ok then old(State()).(cwd := dir) else old(State())
    {
      ok := canEnterWorkDir;
      if ok {
        cwd := dir;
      }
    }

    /** `process.chdir` back to a directory the process was in. */
    method Chdir(dir: string)
      modifies this
      ensures State() == old(State()).(cwd := dir)
    {
      cwd := dir;
    }
  }

  class CMake {
    const opts: Options
    const layout: Layout
    const toolset: Toolset
    const probes: Probes
    const world: World
    var extraArgs: seq<string>
    var slot: Slot

    function Setting(): Env {
      Env(opts, toolset.opts, toolset.host, layout, probes.which, world.listsFile, world.canEnterWorkDir, world.outcome)
    }

    function State(): Driver
      reads this, toolset, probes, world
    {
      Driver(extraArgs, slot, toolset.State(), probes.State(), world.State())
    }

    /** The constructor keeps the options; the fields it leaves unbound in
        the original (layout, toolset, extra arguments) are supplied here.
        So is the availability field's first value: `Undefined` is the
        original as written, which never assigns it, and `Null` is the
        intended start, from which the getter probes. */
    constructor(opts: Options, layout: Layout, toolset: Toolset, probes: Probes, world: World,
                extraArgs: seq<string>, slot: Slot)
      ensures this.opts == opts && this.layout == layout
      ensures this.toolset == toolset && this.probes == probes && this.world == world
      ensures this.extraArgs == extraArgs && this.slot == slot
    {
      this.opts := opts;
      this.layout := layout;
      this.toolset := toolset;
      this.probes := probes;
      this.world := world;
      this.extraArgs := extraArgs;
      this.slot := slot;
    }

    /** The `path` getter. */
    function PathGetter(): string {
      Path(opts)
    }

    method IsAvailableGetter() returns (r: bool)
      modifies this
      ensures (slot, r) == AvailableSpec(Setting(), old(slot))
      ensures extraArgs == old(extraArgs)
    {
      if slot == Null {
        slot := Known(IsAvailable(opts, toolset.host));
      }
      r := slot == Known(true);
    }

    method VerifyIfAvailable() returns (r: Outcome<Error>)
      modifies this
      ensures Res(State(), r) == VerifySpec(Setting(), old(State()))
    {
      var available := IsAvailableGetter();
      if !available {
        return Fail(CMakeNotFound);
      }
      return Pass;
    }

    /** `run(command)`. */
    method Run(c: Command, argv: seq<string>) returns (r: Outcome<Error>)
      modifies world
      ensures Res(State(), r) == RunSpec(Setting(), old(State()), c, argv)
    {
      var ok := world.Run(c, argv);
      r := if ok then Pass else Fail(ProcessFailed);
    }

    /** `getConfigureCommand()`: initialises the toolset, then reads it. */
    method GetConfigureCommand() returns (r: Result<seq<string>, Error>)
      modifies toolset, probes
      ensures var init := InitializeSpec(toolset.opts, toolset.host, probes.which, old(toolset.State()), old(probes.State()));
        toolset.State() == init.ts && probes.State() == init.probes
        && r == if init.out.Fail? then Failure(init.out.error)
                else Success(ConfigureCommand(layout, toolset.host, opts, init.ts, None, extraArgs))
    {
      var init := toolset.Initialize(probes);
      if init.Fail? {
        return Failure(init.error);
      }
      // the Toolset class has no `toolset` getter: the `-T` pair is never added
      r := Success(ConfigureCommand(layout, toolset.host, opts, toolset.State(), None, extraArgs));
    }

    method Configure() returns (r: Outcome<Error>)
      modifies this, toolset, probes, world
      ensures Res(State(), r) == ConfigureSpec(Setting(), old(State()))
    {
      r := VerifyIfAvailable();
      if r.Fail? {
        return;
      }
      var command := GetConfigureCommand();
      if command.Failure? {
        return Fail(command.error);
      }
      if !world.listsFile {
        return Fail(ListsNotFound(layout.projectRoot));
      }
      // ensureDir(workDir): any error is ignored
      var cwd := world.cwd;
      var entered := world.EnterWorkDir(layout.workDir);
      if !entered {
        return Fail(ChdirFailed);
      }
      r := Run(ConfigureRun, command.value);
      world.Chdir(cwd);
    }

    method EnsureConfigured() returns (r: Outcome<Error>)
      modifies this, toolset, probes, world
      ensures Res(State(), r) == EnsureConfiguredSpec(Setting(), old(State()))
    {
      if world.cacheFile {
        return Pass;
      }
      r := Configure();
    }

    method Build() returns (r: Outcome<Error>)
      modifies this, toolset, probes, world
      ensures Res(State(), r) == BuildSpec(Setting(), old(State()))
    {
      r := VerifyIfAvailable();
      if r.Fail? {
        return;
      }
      r := EnsureConfigured();
      if r.Fail? {
        return;
      }
      r := Run(BuildRun, BuildCommand(opts, layout, extraArgs));
    }

    method Clean() returns (r: Outcome<Error>)
      modifies this, world
      ensures Res(State(), r) == CleanSpec(Setting(), old(State()))
    {
      r := VerifyIfAvailable();
      if r.Fail? {
        return;
      }
      r := Run(CleanRun, CleanCommand(opts, layout, extraArgs));
    }

    method Reconfigure() returns (r: Outcome<Error>)
      modifies this, toolset, probes, world
      ensures Res(State(), r) == ReconfigureSpec(Setting(), old(State()))
    {
      extraArgs := [];
      r := Clean();
      if r.Fail? {
        return;
      }
      r := Configure();
    }

    method Rebuild() returns (r: Outcome<Error>)
      modifies this, toolset, probes, world
      ensures Res(State(), r) == RebuildSpec(Setting(), old(State()))
    {
      extraArgs := [];
      r := Clean();
      if r.Fail? {
        return;
      }
      r := Build();
    }

    method Compile() returns (r: Outcome<Error>)
      modifies this, toolset, probes, world
      ensures Res(State(), r) == CompileSpec(Setting(), old(State()))
    {
      extraArgs := [];
      r := Build();
      if r.Fail? {
        // the build failed: one full rebuild
        r := Rebuild();
      }
    }
  }
}

=== FILE: cmake_commands.dfy ===
/** The argument vectors the CMake driver hands to the cmake executable for
    configure, build and clean. They depend only on their inputs, so they
    are functions returning sequences. */
module CMakeCommands {
  import opened Wrappers
  import opened Strings
  import opened OptionBag
  import opened Environment
  import TargetOptions
  import opened Toolset

  /** The driver's fields the constructor leaves unbound (`m_path`,
      `m_projectRoot`, `m_workDir`, `m_buildDir`, `m_config`), supplied from
      outside. */
  datatype Layout = Layout(mPath: string, projectRoot: string, workDir: string, buildDir: string, config: string)

  /** The cache variables the configure command defines. */
  datatype Key =
    | JsVersion | BuildType | RuntimeOutputDirectory | LibraryOutputDirectory
    | MsvcRuntimeLibrary | OsxArchitectures | CxxCompiler | CCompiler
    | CxxFlags | SharedLinkerFlags | MakeProgram

  function KeyName(k: Key): string {
    match k
    case JsVersion => "CMAKE_JS_VERSION"
    case BuildType => "CMAKE_BUILD_TYPE"
    case RuntimeOutputDirectory => "CMAKE_RUNTIME_OUTPUT_DIRECTORY"
    case LibraryOutputDirectory => "CMAKE_LIBRARY_OUTPUT_DIRECTORY"
    case MsvcRuntimeLibrary => "CMAKE_MSVC_RUNTIME_LIBRARY"
    case OsxArchitectures => "CMAKE_OSX_ARCHITECTURES"
    case CxxCompiler => "CMAKE_CXX_COMPILER"
    case CCompiler => "CMAKE_C_COMPILER"
    case CxxFlags => "CMAKE_CXX_FLAGS"
    case SharedLinkerFlags => "CMAKE_SHARED_LINKER_FLAGS"
    case MakeProgram => "CMAKE_MAKE_PROGRAM"
  }

  /** One `{KEY: value}` entry of the define list. */
  datatype Define = Define(key: Key, value: string)

  /** `"-D" + key + "=" + value`, without quoting. */
  function RenderDefine(d: Define): string {
    "-D" + KeyName(d.key) + "=" + d.value
  }

  /** Reads a `-DKEY=VALUE` argument back: the key runs up to the first "=". */
  function ParseDefine(arg: string): Option<(string, string)> {
    if StartsWith(arg, "-D") then
      var body := arg[2..];
      var k := IndexOf(body, "=");
      if k < 0 then None else Some((body[..k], body[k + 1..]))
    else None
  }

  /** `s` holds no "=". */
  predicate NoEquals(s: string) {
    forall i :: 0 <= i < |s| ==> s[i] != '='
  }

  /** No key name contains "=", shown for the keys of the fixed part and
      for the toolset keys in turn. */
  lemma KeyNameHasNoEquals(k: Key)
    ensures NoEquals(KeyName(k))
  {
    if ToolsetKey(k) {
      ToolsetKeyNames(k);
    } else {
      StaticKeyNames(k);
    }
  }

  lemma StaticKeyNames(k: Key)
    requires !ToolsetKey(k)
    ensures NoEquals(KeyName(k))
  {
    match k
    case JsVersion => assert NoEquals("CMAKE_JS_VERSION");
    case BuildType => assert NoEquals("CMAKE_BUILD_TYPE");
    case RuntimeOutputDirectory => assert NoEquals("CMAKE_RUNTIME_OUTPUT_DIRECTORY");
    case LibraryOutputDirectory => assert NoEquals("CMAKE_LIBRARY_OUTPUT_DIRECTORY");
    case MsvcRuntimeLibrary => assert NoEquals("CMAKE_MSVC_RUNTIME_LIBRARY");
    case OsxArchitectures => assert NoEquals("CMAKE_OSX_ARCHITECTURES");
    case CxxCompiler => assert false;
    case CCompiler => assert false;
    case CxxFlags => assert false;
    case SharedLinkerFlags => assert false;
    case MakeProgram => assert false;
  }

  lemma ToolsetKeyNames(k: Key)
    requires ToolsetKey(k)
    ensures NoEquals(KeyName(k))
  {
    match k
    case CxxCompiler => assert NoEquals("CMAKE_CXX_COMPILER");
    case CCompiler => assert NoEquals("CMAKE_C_COMPILER");
    case CxxFlags => assert NoEquals("CMAKE_CXX_FLAGS");
    case SharedLinkerFlags => assert NoEquals("CMAKE_SHARED_LINKER_FLAGS");
    case MakeProgram => assert NoEquals("CMAKE_MAKE_PROGRAM");
    case JsVersion => assert false;
    case BuildType => assert false;
    case RuntimeOutputDirectory => assert false;
    case LibraryOutputDirectory => assert false;
    case MsvcRuntimeLibrary => assert false;
    case OsxArchitectures => assert false;
  }

  /** A `-DNAME=VALUE` argument reads back as NAME and VALUE when NAME has
      no "=" (VALUE may). */
  lemma ParseRendered(name: string, value: string)
    requires NoEquals(name)
    ensures ParseDefine("-D" + name + "=" + value) == Some((name, value))
  {
    var arg := "-D" + name + "=" + value;
    assert arg[..2] == "-D";
    var body := arg[2..];
    assert body == name + "=" + value;
    assert MatchesAt(body, "=", |name|);
    forall i | 0 <= i < |name| ensures !MatchesAt(body, "=", i) {
      assert body[i] == name[i];
    }
    assert IndexOf(body, "=") == |name|;
    assert body[..|name|] == name;
    assert body[|name| + 1..] == value;
  }

  /** Rendering loses nothing: the key and the value are read back, because
      no key name contains "=" (values may). */
  lemma RenderParse(d: Define)
    ensures ParseDefine(RenderDefine(d)) == Some((KeyName(d.key), d.value))
  {
    KeyNameHasNoEquals(d.key);
    ParseRendered(KeyName(d.key), d.value);
  }

  predicate DistinctKeys(defs: seq<Define>) {
    forall i, j :: 0 <= i < j < |defs| ==> defs[i].key != defs[j].key
  }

  const MsvcRuntime: string := "MultiThreaded$<$<CONFIG:Debug>:Debug>"

  /** The one output-directory define. */
  function OutputDirDefine(platform: string, layout: Layout): Define {
    if IsWin(platform) then Define(RuntimeOutputDirectory, layout.workDir)
    else if EndsWith(layout.workDir, layout.config) then Define(LibraryOutputDirectory, layout.workDir)
    else Define(LibraryOutputDirectory, layout.buildDir)
  }

  /** The architecture name Xcode expects. */
  function XcodeArch(arch: string): (r: string)
    ensures arch == "x64" ==> r == "x86_64"
    ensures arch != "x64" ==> r == arch
  {
    if arch == "x64" then "x86_64" else arch
  }

  /** A define pushed only when `present`. */
  function Entry(present: bool, key: Key, value: string): (r: seq<Define>)
    ensures |r| <= 1
    ensures forall d :: d in r <==> present && d == Define(key, value)
  {
    if present then [Define(key, value)] else []
  }

  /** The defines pushed before the toolset is initialised. */
  function StaticDefines(host: Host, opts: Options, layout: Layout): seq<Define> {
    var arch := TargetOptions.Arch(opts, host.arch);
    [Define(JsVersion, host.version), Define(BuildType, layout.config),
     OutputDirDefine(host.platform, layout), Define(MsvcRuntimeLibrary, MsvcRuntime)]
    + Entry(IsOSX(host.platform) && arch != "", OsxArchitectures, XcodeArch(arch))
  }

  /** The defines read from the initialised toolset. */
  function ToolsetDefines(ts: ToolsetState): seq<Define> {
    Entry(Truthy(ts.cppCompilerPath), CxxCompiler, OrDefault(ts.cppCompilerPath, ""))
    + Entry(Truthy(ts.cCompilerPath), CCompiler, OrDefault(ts.cCompilerPath, ""))
    + Entry(|ts.compilerFlags| > 0, CxxFlags, Join(ts.compilerFlags, " "))
    + Entry(|ts.linkerFlags| > 0, SharedLinkerFlags, Join(ts.linkerFlags, " "))
    + Entry(Truthy(ts.makePath), MakeProgram, OrDefault(ts.makePath, ""))
  }

  function ConfigureDefines(host: Host, opts: Options, layout: Layout, ts: ToolsetState): seq<Define> {
    StaticDefines(host, opts, layout) + ToolsetDefines(ts)
  }

  /** `-G`, `-A` and `-T`, each with its value, each only when set. */
  function GeneratorArgs(ts: ToolsetState, toolsetName: Option<string>): seq<string> {
    (if Truthy(ts.generator) then ["-G", ts.generator.value] else [])
    + (if Truthy(ts.platform) then ["-A", ts.platform.value] else [])
    + (if Truthy(toolsetName) then ["-T", toolsetName.value] else [])
  }

  function RenderDefines(defs: seq<Define>): (r: seq<string>)
    ensures |r| == |defs|
  {
    seq(|defs|, i requires 0 <= i < |defs| => RenderDefine(defs[i]))
  }

  /** `getConfigureCommand`, once the toolset has been initialised. */
  function ConfigureCommand(layout: Layout, host: Host, opts: Options, ts: ToolsetState,
                            toolsetName: Option<string>, extra: seq<string>): seq<string> {
    [layout.mPath, layout.projectRoot, "--no-warn-unused-cli"]
    + GeneratorArgs(ts, toolsetName)
    + RenderDefines(ConfigureDefines(host, opts, layout, ts))
    + extra
  }

  /** The `path` getter. */
  function Path(opts: Options): (r: string)
    ensures Truthy(opts.cmakePath) ==> r == opts.cmakePath.value
    ensures !Truthy(opts.cmakePath) ==> r == "cmake"
  {
    OrDefault(opts.cmakePath, "cmake")
  }

  function BuildCommand(opts: Options, layout: Layout, extra: seq<string>): seq<string> {
    [Path(opts), "--build", layout.workDir, "--config", layout.config]
    + (if Truthy(opts.target) then ["--target", opts.target.value] else [])
    + (if Truthy(opts.parallel) then ["--parallel", opts.parallel.value] else [])
    + extra
  }

  function CleanCommand(opts: Options, layout: Layout, extra: seq<string>): seq<string> {
    [Path(opts), "-E", "remove_directory", layout.workDir] + extra
  }

  // ---- properties ----

  lemma DistinctKeysAppend(a: seq<Define>, b: seq<Define>)
    requires DistinctKeys(a) && DistinctKeys(b)
    requires forall x, y :: x in a && y in b ==> x.key != y.key
    ensures DistinctKeys(a + b)
  {
    forall i, j | 0 <= i < j < |a + b| ensures (a + b)[i].key != (a + b)[j].key {
      if i < |a| <= j {
        assert (a + b)[i] == a[i] && a[i] in a;
        assert (a + b)[j] == b[j - |a|] && b[j - |a|] in b;
      } else if |a| <= i {
        assert (a + b)[i] == b[i - |a|] && (a + b)[j] == b[j - |a|];
      }
    }
  }

  /** The keys the toolset part of the define list may carry. */
  predicate ToolsetKey(k: Key) {
    k.CxxCompiler? || k.CCompiler? || k.CxxFlags? || k.SharedLinkerFlags? || k.MakeProgram?
  }

  predicate OutputDirKey(k: Key) {
    k.RuntimeOutputDirectory? || k.LibraryOutputDirectory?
  }

  /** The version, build-type and MSVC-runtime defines are always present,
      with these values only. */
  lemma AlwaysPresentDefines(host: Host, opts: Options, layout: Layout)
    ensures var defs := StaticDefines(host, opts, layout);
      (forall v :: Define(JsVersion, v) in defs <==> v == host.version)
      && (forall v :: Define(BuildType, v) in defs <==> v == layout.config)
      && (forall v :: Define(MsvcRuntimeLibrary, v) in defs <==> v == MsvcRuntime)
  {
  }

  /** The runtime output directory is the work directory on Windows; the
      library output directory is used elsewhere, the work directory when its
      name ends with the configuration and the build directory otherwise. */
  lemma OutputDirectoryDefine(host: Host, opts: Options, layout: Layout)
    ensures var defs := StaticDefines(host, opts, layout);
      (forall v :: Define(RuntimeOutputDirectory, v) in defs <==> IsWin(host.platform) && v == layout.workDir)
      && (forall v :: Define(LibraryOutputDirectory, v) in defs <==>
            !IsWin(host.platform) && v == (if EndsWith(layout.workDir, layout.config) then layout.workDir else layout.buildDir))
  {
  }

  /** The macOS architecture only on macOS with a target arch, "x64" spelled
      "x86_64" and every other arch verbatim. */
  lemma OsxArchitecturesDefine(host: Host, opts: Options, layout: Layout)
    ensures var defs := StaticDefines(host, opts, layout);
      var arch := TargetOptions.Arch(opts, host.arch);
      forall v :: Define(OsxArchitectures, v) in defs <==> IsOSX(host.platform) && arch != "" && v == XcodeArch(arch)
  {
  }

  /** The fixed part names each key at most once, and no toolset key; its
      third entry, and no other, is an output-directory define. */
  lemma StaticKeys(host: Host, opts: Options, layout: Layout)
    ensures var s := StaticDefines(host, opts, layout);
      DistinctKeys(s) && (forall d :: d in s ==> !ToolsetKey(d.key))
      && |s| > 2 && OutputDirKey(s[2].key)
      && forall i :: 0 <= i < |s| && i != 2 ==> !OutputDirKey(s[i].key)
  {
    var arch := TargetOptions.Arch(opts, host.arch);
    StaticEntries(host.version, layout.config, OutputDirDefine(host.platform, layout), MsvcRuntime,
                  IsOSX(host.platform) && arch != "", XcodeArch(arch));
  }

  /** The fixed part, whatever its values. */
  lemma StaticEntries(version: string, config: string, out: Define, runtime: string, osx: bool, arch: string)
    requires OutputDirKey(out.key)
    ensures var s := [Define(JsVersion, version), Define(BuildType, config), out,
                      Define(MsvcRuntimeLibrary, runtime)] + Entry(osx, OsxArchitectures, arch);
      DistinctKeys(s) && (forall d :: d in s ==> !ToolsetKey(d.key))
      && |s| > 2 && OutputDirKey(s[2].key)
      && forall i :: 0 <= i < |s| && i != 2 ==> !OutputDirKey(s[i].key)
  {
    var f := [Define(JsVersion, version), Define(BuildType, config), out, Define(MsvcRuntimeLibrary, runtime)];
    if osx {
      assert f + Entry(osx, OsxArchitectures, arch) == f + [Define(OsxArchitectures, arch)];
    } else {
      assert f + Entry(osx, OsxArchitectures, arch) == f;
    }
  }

  /** The compiler defines appear exactly when the toolset's compiler paths
      are set, with those paths. */
  lemma CompilerDefines(ts: ToolsetState)
    ensures var defs := ToolsetDefines(ts);
      (forall v :: Define(CxxCompiler, v) in defs <==> Truthy(ts.cppCompilerPath) && v == ts.cppCompilerPath.value)
      && (forall v :: Define(CCompiler, v) in defs <==> Truthy(ts.cCompilerPath) && v == ts.cCompilerPath.value)
  {
  }

  /** The flag defines appear exactly when their lists are non-empty, joined
      by single spaces. */
  lemma FlagDefines(ts: ToolsetState)
    ensures var defs := ToolsetDefines(ts);
      (forall v :: Define(CxxFlags, v) in defs <==> |ts.compilerFlags| > 0 && v == Join(ts.compilerFlags, " "))
      && (forall v :: Define(SharedLinkerFlags, v) in defs <==> |ts.linkerFlags| > 0 && v == Join(ts.linkerFlags, " "))
  {
  }

  /** The make program define appears exactly when the make path is set. */
  lemma MakeProgramDefine(ts: ToolsetState)
    ensures forall v :: Define(MakeProgram, v) in ToolsetDefines(ts) <==> Truthy(ts.makePath) && v == ts.makePath.value
  {
  }

  /** The toolset part names only toolset keys, each at most once. */
  lemma ToolsetKeys(ts: ToolsetState)
    ensures DistinctKeys(ToolsetDefines(ts))
    ensures forall d :: d in ToolsetDefines(ts) ==> ToolsetKey(d.key)
  {
    ToolsetEntries(Truthy(ts.cppCompilerPath), OrDefault(ts.cppCompilerPath, ""),
                   Truthy(ts.cCompilerPath), OrDefault(ts.cCompilerPath, ""),
                   |ts.compilerFlags| > 0, Join(ts.compilerFlags, " "),
                   |ts.linkerFlags| > 0, Join(ts.linkerFlags, " "),
                   Truthy(ts.makePath), OrDefault(ts.makePath, ""));
  }

  /** The five optional toolset defines, whatever their values. */
  lemma ToolsetEntries(p1: bool, v1: string, p2: bool, v2: string, p3: bool, v3: string,
                       p4: bool, v4: string, p5: bool, v5: string)
    ensures var defs := Entry(p1, CxxCompiler, v1) + Entry(p2, CCompiler, v2) + Entry(p3, CxxFlags, v3)
                        + Entry(p4, SharedLinkerFlags, v4) + Entry(p5, MakeProgram, v5);
      DistinctKeys(defs) && forall d :: d in defs ==> ToolsetKey(d.key)
  {
    var a := Entry(p1, CxxCompiler, v1);
    var ab := a + Entry(p2, CCompiler, v2);
    var abc := ab + Entry(p3, CxxFlags, v3);
    var abcd := abc + Entry(p4, SharedLinkerFlags, v4);
    EntryAppend(a, p2, CCompiler, v2);
    assert forall d :: d in ab ==> d.key.CxxCompiler? || d.key.CCompiler?;
    EntryAppend(ab, p3, CxxFlags, v3);
    assert forall d :: d in abc ==> d.key.CxxCompiler? || d.key.CCompiler? || d.key.CxxFlags?;
    EntryAppend(abc, p4, SharedLinkerFlags, v4);
    assert forall d :: d in abcd ==> ToolsetKey(d.key) && !d.key.MakeProgram?;
    EntryAppend(abcd, p5, MakeProgram, v5);
  }

  /** Appending an optional define whose key the list does not hold yet. */
  lemma EntryAppend(a: seq<Define>, present: bool, key: Key, value: string)
    requires DistinctKeys(a)
    requires forall d :: d in a ==> d.key != key
    ensures DistinctKeys(a + Entry(present, key, value))
    ensures forall d :: d in a + Entry(present, key, value) ==> d in a || d == Define(key, value)
  {
    if present {
      var b := a + [Define(key, value)];
      forall i, j | 0 <= i < j < |b| ensures b[i].key != b[j].key {
        assert b[i] == a[i] && a[i] in a;
      }
    } else {
      assert a + Entry(present, key, value) == a;
    }
  }

  /** The whole define list names each key at most once, and carries
      exactly one output-directory define, the third entry. */
  lemma ConfigureDefinesTable(host: Host, opts: Options, layout: Layout, ts: ToolsetState)
    ensures var defs := ConfigureDefines(host, opts, layout, ts);
      DistinctKeys(defs)
      && |defs| > 2 && OutputDirKey(defs[2].key)
      && forall i :: 0 <= i < |defs| && i != 2 ==> !OutputDirKey(defs[i].key)
  {
    StaticKeys(host, opts, layout);
    ToolsetKeys(ts);
    DefinesJoin(StaticDefines(host, opts, layout), ToolsetDefines(ts));
  }

  /** A fixed part and a toolset part as the two lemmas above describe them
      join into a list with distinct keys and one output directory, third. */
  lemma DefinesJoin(s: seq<Define>, t: seq<Define>)
    requires DistinctKeys(s) && forall d :: d in s ==> !ToolsetKey(d.key)
    requires |s| > 2 && OutputDirKey(s[2].key)
    requires forall i :: 0 <= i < |s| && i != 2 ==> !OutputDirKey(s[i].key)
    requires DistinctKeys(t) && forall d :: d in t ==> ToolsetKey(d.key)
    ensures DistinctKeys(s + t)
    ensures OutputDirKey((s + t)[2].key)
    ensures forall i :: 0 <= i < |s + t| && i != 2 ==> !OutputDirKey((s + t)[i].key)
  {
    DistinctKeysAppend(s, t);
    var defs := s + t;
    forall i | 0 <= i < |defs| && i != 2 ensures !OutputDirKey(defs[i].key) {
      if i >= |s| {
        assert defs[i] == t[i - |s|] && t[i - |s|] in t;
      } else {
        assert defs[i] == s[i];
      }
    }
  }

  /** The configure argv: the configure path, the project root and
      "--no-warn-unused-cli"; then "-G", "-A" and "-T" pairs for the fields
      that are set, in that order; then every define, in list order, each
      reading back as its key and value; the extra arguments last. */
  lemma ConfigureArgvOrder(layout: Layout, host: Host, opts: Options, ts: ToolsetState,
                           toolsetName: Option<string>, extra: seq<string>)
    ensures var cmd := ConfigureCommand(layout, host, opts, ts, toolsetName, extra);
      var g := GeneratorArgs(ts, toolsetName);
      var defs := ConfigureDefines(host, opts, layout, ts);
      |cmd| == 3 + |g| + |defs| + |extra|
      && cmd[..3] == [layout.mPath, layout.projectRoot, "--no-warn-unused-cli"]
      && |g| == 2 * ((if Truthy(ts.generator) then 1 else 0) + (if Truthy(ts.platform) then 1 else 0)
                     + (if Truthy(toolsetName) then 1 else 0))
      && (Truthy(ts.generator) ==> cmd[3..5] == ["-G", ts.generator.value])
      && (var a := if Truthy(ts.generator) then 2 else 0;
          Truthy(ts.platform) ==> cmd[3 + a..5 + a] == ["-A", ts.platform.value])
      && (Truthy(toolsetName) ==> cmd[1 + |g|..3 + |g|] == ["-T", toolsetName.value])
      && (forall i :: 0 <= i < |defs| ==>
            ParseDefine(cmd[3 + |g| + i]) == Some((KeyName(defs[i].key), defs[i].value)))
      && cmd[|cmd| - |extra|..] == extra
  {
    GeneratorArgsShape(ts, toolsetName);
    ArgvLayout([layout.mPath, layout.projectRoot, "--no-warn-unused-cli"], GeneratorArgs(ts, toolsetName),
               ConfigureDefines(host, opts, layout, ts), extra);
  }

  /** "-G", "-A" and "-T" pairs, one per set field: "-G" first, "-A" right
      after it (or first when there is no generator), "-T" last. */
  lemma GeneratorArgsShape(ts: ToolsetState, toolsetName: Option<string>)
    ensures var g := GeneratorArgs(ts, toolsetName);
      |g| == 2 * ((if Truthy(ts.generator) then 1 else 0) + (if Truthy(ts.platform) then 1 else 0)
                  + (if Truthy(toolsetName) then 1 else 0))
      && (Truthy(ts.generator) ==> g[..2] == ["-G", ts.generator.value])
      && (var a := if Truthy(ts.generator) then 2 else 0;
          Truthy(ts.platform) ==> g[a..a + 2] == ["-A", ts.platform.value])
      && (Truthy(toolsetName) ==> g[|g| - 2..] == ["-T", toolsetName.value])
  {
  }

  /** A fixed head, the generator pairs, the rendered defines and the extra
      arguments, one after the other. */
  lemma ArgvLayout(p: seq<string>, g: seq<string>, defs: seq<Define>, extra: seq<string>)
    requires |p| == 3
    ensures var cmd := p + g + RenderDefines(defs) + extra;
      |cmd| == 3 + |g| + |defs| + |extra|
      && cmd[..3] == p
      && cmd[3..3 + |g|] == g
      && (forall i :: 0 <= i < |defs| ==>
            ParseDefine(cmd[3 + |g| + i]) == Some((KeyName(defs[i].key), defs[i].value)))
      && cmd[|cmd| - |extra|..] == extra
  {
    var cmd := p + g + RenderDefines(defs) + extra;
    assert cmd[..3] == p;
    assert cmd[3..3 + |g|] == g;
    DefinesParseAt(p + g, defs, extra);
    assert cmd[|cmd| - |extra|..] == extra;
  }

  /** Rendered defines placed after a head read back one by one. */
  lemma DefinesParseAt(h: seq<string>, defs: seq<Define>, extra: seq<string>)
    ensures var cmd := h + RenderDefines(defs) + extra;
      forall i :: 0 <= i < |defs| ==>
        ParseDefine(cmd[|h| + i]) == Some((KeyName(defs[i].key), defs[i].value))
  {
    var r := RenderDefines(defs);
    var cmd := h + r + extra;
    forall i | 0 <= i < |defs|
      ensures ParseDefine(cmd[|h| + i]) == Some((KeyName(defs[i].key), defs[i].value))
    {
      assert cmd[|h| + i] == r[i] == RenderDefine(defs[i]);
      RenderParse(defs[i]);
    }
  }

  /** The build argv: path, "--build", work directory, "--config",
      configuration; "--target" and "--parallel" pairs when those options are
      set, target first; the extra arguments last. */
  lemma BuildArgvOrder(opts: Options, layout: Layout, extra: seq<string>)
    ensures var cmd := BuildCommand(opts, layout, extra);
      var n := 5 + (if Truthy(opts.target) then 2 else 0) + (if Truthy(opts.parallel) then 2 else 0);
      |cmd| == n + |extra|
      && cmd[..5] == [Path(opts), "--build", layout.workDir, "--config", layout.config]
      && (Truthy(opts.target) ==> cmd[5..7] == ["--target", opts.target.value])
      && (Truthy(opts.parallel) ==> cmd[n - 2..n] == ["--parallel", opts.parallel.value])
      && (!Truthy(opts.target) && !Truthy(opts.parallel) ==> cmd == cmd[..5] + extra)
      && cmd[n..] == extra
  {
  }

  /** The clean argv removes the work directory, followed by the extra
      arguments; it never depends on the toolset. */
  lemma CleanArgv(opts: Options, layout: Layout, extra: seq<string>)
    ensures var cmd := CleanCommand(opts, layout, extra);
      |cmd| == 4 + |extra| && cmd[..4] == [Path(opts), "-E", "remove_directory", layout.workDir]
      && cmd[4..] == extra
  {
  }
}

=== FILE: environment.dfy ===
/** The host environment: platform and architecture predicates over the
    strings `os.platform()` and `os.arch()` return, the home directory
    variable, and the process-wide, memoised tool probes (ninja, g++, make,
    clang++). The facts the original reads from the operating system are
    collected in `Host`; the `which` lookup is an oracle. */
module Environment {
  import opened Wrappers

  /** What `fs.lstat` reports for a path: it throws for a missing path. */
  datatype PathStat = Missing | Directory | NotDirectory

  /** Facts about the machine the driver runs on. */
  datatype Host = Host(
    platform: string,            // os.platform()
    arch: string,                // os.arch()
    version: string,             // the package version stamped into the configure command
    cmakeStat: PathStat,         // lstat of options.cmakePath
    cmakeOnPath: bool,           // which.sync("cmake") succeeds
    capabilities: Option<seq<string>>, // generator names of `cmake -E capabilities`, None when that query fails
    helpText: Option<string>,    // stdout of `cmake --help`, None when it cannot be run
    vsMajor: nat,                // major version of the selected Visual Studio
    env: map<string, string>)    // process.env

  predicate IsWin(platform: string) { platform == "win32" }
  predicate IsLinux(platform: string) { platform == "linux" }
  predicate IsOSX(platform: string) { platform == "darwin" }
  predicate IsPosix(platform: string) { !IsWin(platform) }

  /** The three platform tests are equalities on one string: at most one holds. */
  lemma PlatformsExclusive(platform: string)
    ensures !(IsWin(platform) && IsLinux(platform))
    ensures !(IsWin(platform) && IsOSX(platform))
    ensures !(IsLinux(platform) && IsOSX(platform))
    ensures IsPosix(platform) <==> !IsWin(platform)
    ensures IsOSX(platform) || IsLinux(platform) ==> IsPosix(platform)
  {
  }

  predicate IsX86(arch: string) { arch == "ia32" || arch == "x86" }
  predicate IsX64(arch: string) { arch == "x64" }
  predicate IsArm(arch: string) { arch == "arm" }

  /** At most one architecture test holds, and "arm64" satisfies none. */
  lemma ArchesExclusive(arch: string)
    ensures !(IsX86(arch) && IsX64(arch)) && !(IsX86(arch) && IsArm(arch)) && !(IsX64(arch) && IsArm(arch))
    ensures arch == "arm64" ==> !IsX86(arch) && !IsX64(arch) && !IsArm(arch)
  {
  }

  /** The environment variable naming the user's home directory. */
  function HomeVariable(platform: string): (r: string)
    ensures IsWin(platform) <==> r == "USERPROFILE"
    ensures !IsWin(platform) <==> r == "HOME"
  {
    if IsWin(platform) then "USERPROFILE" else "HOME"
  }

  /** `Environment.home`: undefined when the variable is not set. */
  function Home(host: Host): (r: Option<string>)
    ensures r.Some? <==> HomeVariable(host.platform) in host.env
    ensures r.Some? ==> r.value == host.env[HomeVariable(host.platform)]
  {
    var key := HomeVariable(host.platform);
    if key in host.env then Some(host.env[key]) else None
  }

  // ---- tool probes ----

  datatype Tool = Ninja | Gpp | Make | Clang

  /** The executable name each probe looks up. */
  function ToolName(t: Tool): string {
    match t
    case Ninja => "ninja"
    case Gpp => "g++"
    case Make => "make"
    case Clang => "clang++"
  }

  /** `which.sync(name)` returns a path or throws. */
  datatype WhichResult = Resolved(path: string) | Throws

  /** The record a probe getter returns: `{value, writable}`. */
  datatype ProbeRecord = ProbeRecord(value: bool, writable: bool)

  /** JavaScript truthiness of what a probe getter returns. The getter returns
      a non-null object, so the test holds whatever `value` says. */
  predicate IsTruthy(r: ProbeRecord) {
    true
  }

  /** The four module-level caches, and the names handed to `which` so far. */
  datatype ProbeState = ProbeState(cache: map<Tool, ProbeRecord>, lookups: seq<string>)

  /** A lookup that throws or yields a falsy path leaves `value` false. */
  function LookupValue(w: WhichResult): bool {
    w.Resolved? && w.path != ""
  }

  /** One getter call: on the first call for a tool, run `which` and cache
      `{value, writable: true}`; afterwards return the cached record. */
  function Probe(ps: ProbeState, which: Tool -> WhichResult, t: Tool): (ProbeRecord, ProbeState) {
    if t in ps.cache then (ps.cache[t], ps)
    else
      var rec := ProbeRecord(LookupValue(which(t)), true);
      (rec, ProbeState(ps.cache[t := rec], ps.lookups + [ToolName(t)]))
  }

  /** Cache and lookup log agree: a tool is cached exactly when its name was
      looked up, no name was looked up twice, and every cached record is the
      writable record built from that tool's lookup. */
  predicate ProbesValid(ps: ProbeState, which: Tool -> WhichResult) {
    && (forall t :: t in ps.cache <==> ToolName(t) in ps.lookups)
    && (forall i, j :: 0 <= i < j < |ps.lookups| ==> ps.lookups[i] != ps.lookups[j])
    && (forall t :: t in ps.cache ==> ps.cache[t] == ProbeRecord(LookupValue(which(t)), true))
  }

  function ProbeAll(ps: ProbeState, which: Tool -> WhichResult, tools: seq<Tool>): ProbeState
    decreases |tools|
  {
    if |tools| == 0 then ps else ProbeAll(Probe(ps, which, tools[0]).1, which, tools[1..])
  }

  lemma ToolNameInjective(t: Tool, u: Tool)
    ensures ToolName(t) == ToolName(u) ==> t == u
  {
    if t != u {
      assert ToolName(t) != ToolName(u) by {
        match t
        case Ninja => assert ToolName(t)[0] == 'n';
        case Gpp => assert ToolName(t)[0] == 'g';
        case Make => assert ToolName(t)[0] == 'm';
        case Clang => assert ToolName(t)[0] == 'c';
      }
    }
  }

  /** A probe keeps the cache consistent, and its answer is the cached
      record built from that tool's one lookup, non-null and writable. */
  lemma ProbePreservesValid(ps: ProbeState, which: Tool -> WhichResult, t: Tool)
    requires ProbesValid(ps, which)
    ensures ProbesValid(Probe(ps, which, t).1, which)
    ensures Probe(ps, which, t).0 == ProbeRecord(LookupValue(which(t)), true)
    ensures t in Probe(ps, which, t).1.cache
  {
    if t !in ps.cache {
      var ps' := Probe(ps, which, t).1;
      forall u ensures u in ps'.cache <==> ToolName(u) in ps'.lookups {
        ToolNameInjective(u, t);
      }
      forall i, j | 0 <= i < j < |ps'.lookups| ensures ps'.lookups[i] != ps'.lookups[j] {
        if j == |ps'.lookups| - 1 {
          assert ps'.lookups[i] == ps.lookups[i] && ps.lookups[i] in ps.lookups;
          assert ps'.lookups[j] == ToolName(t);
        }
      }
    }
  }

  /** A second call for the same tool returns the same record and changes
      nothing. */
  lemma ProbeMemoised(ps: ProbeState, which: Tool -> WhichResult, t: Tool)
    ensures var (r1, ps1) := Probe(ps, which, t);
      Probe(ps1, which, t) == (r1, ps1)
  {
  }

  /** However many getter calls are made, each executable is looked up at
      most once per process. */
  lemma {:induction false} ProbesLookUpOnce(ps: ProbeState, which: Tool -> WhichResult, tools: seq<Tool>)
    requires ProbesValid(ps, which)
    ensures var ps' := ProbeAll(ps, which, tools);
      ProbesValid(ps', which)
      && (forall i, j :: 0 <= i < j < |ps'.lookups| ==> ps'.lookups[i] != ps'.lookups[j])
      && (forall k :: 0 <= k < |tools| ==> tools[k] in ps'.cache)
    decreases |tools|
  {
    if |tools| > 0 {
      ProbePreservesValid(ps, which, tools[0]);
      var ps1 := Probe(ps, which, tools[0]).1;
      ProbesLookUpOnce(ps1, which, tools[1..]);
      CacheGrows(ps1, which, tools[1..], tools[0]);
      forall k | 0 <= k < |tools| ensures tools[k] in ProbeAll(ps, which, tools).cache {
        if k > 0 { assert tools[k] == tools[1..][k - 1]; }
      }
    }
  }

  lemma {:induction false} CacheGrows(ps: ProbeState, which: Tool -> WhichResult, tools: seq<Tool>, t: Tool)
    requires t in ps.cache
    ensures t in ProbeAll(ps, which, tools).cache
    decreases |tools|
  {
    if |tools| > 0 {
      CacheGrows(Probe(ps, which, tools[0]).1, which, tools[1..], t);
    }
  }

  /** The module-level probe caches. */
  class Probes {
    var cache: map<Tool, ProbeRecord>
    var lookups: seq<string>
    const which: Tool -> WhichResult

    function State(): ProbeState
      reads this
    {
      ProbeState(cache, lookups)
    }

    ghost predicate Valid()
      reads this
    {
      ProbesValid(State(), which)
    }

    /** All four caches start out null. */
    constructor(which: Tool -> WhichResult)
      ensures this.which == which && State() == ProbeState(map[], [])
      ensures Valid()
    {
      this.which := which;
      cache := map[];
      lookups := [];
    }

    /** `Environment.isNinjaAvailable`, `isGPPAvailable`, `isMakeAvailable`,
        `isClangAvailable`. */
    method Get(t: Tool) returns (rec: ProbeRecord)
      modifies this
      ensures (rec, State()) == Probe(old(State()), which, t)
      ensures old(Valid()) ==> Valid() && rec == ProbeRecord(LookupValue(which(t)), true)
    {
      if t !in cache {
        var value := false;
        var found := which(t);
        if found.Resolved? && found.path != "" {
          value := true;
        }
        cache := cache[t := ProbeRecord(value, true)];
        lookups := lookups + [ToolName(t)];
      }
      rec := cache[t];
      if ProbesValid(old(State()), which) {
        ProbePreservesValid(old(State()), which, t);
      }
    }
  }
}

=== FILE: generators.dfy ===
/** The static side of the CMake driver: whether the cmake executable is
    available, and the list of generators it supports, read from the
    machine-readable capabilities or, failing that, parsed from the text of
    `cmake --help`. */
module Generators {
  import opened Wrappers
  import opened Strings
  import opened OptionBag
  import opened Errors
  import opened Environment

  /** `CMake.isAvailable(options)`: with `cmakePath` set, the path must exist
      and not be a directory; otherwise `which("cmake")` must succeed. Every
      exception reads as false. */
  function IsAvailable(opts: Options, host: Host): (r: bool)
    ensures Truthy(opts.cmakePath) ==> (r <==> host.cmakeStat == NotDirectory)
    ensures !Truthy(opts.cmakePath) ==> (r <==> host.cmakeOnPath)
  {
    if Truthy(opts.cmakePath) then
      match host.cmakeStat
      case Missing => false       // lstatSync throws; caught
      case Directory => false
      case NotDirectory => true
    else host.cmakeOnPath         // which.sync throws when not found; caught
  }

  const ArchSuffix: string := " [arch]"
  const GeneratorsHeader: string := "Generators"

  /** The help text cut into lines: on "\r\n" when it occurs anywhere in the
      text, on "\n" otherwise. */
  function HelpLines(stdout: string): seq<string> {
    if Contains(stdout, "\r\n") then Split(stdout, "\r\n") else Split(stdout, "\n")
  }

  predicate StartsWithEquals(t: string) {
    |t| > 0 && t[0] == '='
  }

  /** Line `i` names a generator: it splits on "=" into two parts with a
      non-empty head, or it has no "=" and the next line, trimmed, starts
      with "=". */
  predicate IsGeneratorLine(lines: seq<string>, i: nat)
    requires i < |lines|
  {
    var parts := Split(lines[i], "=");
    (|parts| == 2 && Trim(parts[0]) != "")
    || (|parts| == 1 && i != |lines| - 1 && StartsWithEquals(Trim(lines[i + 1])))
  }

  /** The trimmed text before the first "=", without one trailing " [arch]". */
  function GeneratorName(line: string): (r: string)
    ensures var g := Trim(Split(line, "=")[0]);
      if EndsWith(g, ArchSuffix) then g == r + ArchSuffix else r == g
  {
    var g := Trim(Split(line, "=")[0]);
    if EndsWith(g, ArchSuffix) then g[..|g| - |ArchSuffix|] else g
  }

  /** The first index at or after `from` of a line that trims to
      "Generators", or `|lines|` when there is none. */
  function HeaderFrom(lines: seq<string>, from: nat): (r: nat)
    requires from <= |lines|
    ensures from <= r <= |lines|
    decreases |lines| - from
  {
    if from == |lines| then |lines|
    else if Trim(lines[from]) == GeneratorsHeader then from
    else HeaderFrom(lines, from + 1)
  }

  /** The search finds the first header line: the line it stops at trims to
      "Generators", and no line it passes over does. */
  lemma {:induction false} HeaderFromFinds(lines: seq<string>, from: nat)
    requires from <= |lines|
    ensures var r := HeaderFrom(lines, from);
      (r < |lines| ==> Trim(lines[r]) == GeneratorsHeader)
      && (forall k :: from <= k < r ==> Trim(lines[k]) != GeneratorsHeader)
    decreases |lines| - from
  {
    if from < |lines| && Trim(lines[from]) != GeneratorsHeader {
      var r := HeaderFrom(lines, from + 1);
      assert HeaderFrom(lines, from) == r;
      HeaderFromFinds(lines, from + 1);
      forall k | from <= k < r
        ensures Trim(lines[k]) != GeneratorsHeader
      {
        if k == from {
        } else {
          assert from + 1 <= k < r;
        }
      }
    }
  }

  /** Scanning past a line that is not yet known to follow the header: the
      header is that line exactly when the line trims to "Generators". */
  lemma HeaderIndexStep(lines: seq<string>, i: nat)
    requires i < |lines| && i <= HeaderIndex(lines)
    ensures HeaderIndex(lines) == i <==> Trim(lines[i]) == GeneratorsHeader
  {
    HeaderFromFinds(lines, 0);
  }

  function HeaderIndex(lines: seq<string>): nat
    ensures HeaderIndex(lines) <= |lines|
  {
    HeaderFrom(lines, 0)
  }

  /** The generator names found among the first `n` lines: those of the
      qualifying lines strictly after the first header line, in line order. */
  function Collected(lines: seq<string>, n: nat): seq<string>
    requires n <= |lines|
  {
    if n == 0 then []
    else
      Collected(lines, n - 1)
      + (if Contributes(lines, n - 1) then [GeneratorName(lines[n - 1])] else [])
  }

  function HelpGenerators(stdout: string): seq<string> {
    var lines := HelpLines(stdout);
    Collected(lines, |lines|)
  }

  /** Without a "Generators" header line nothing is collected, and only lines
      after the header can contribute. */
  lemma {:induction false} NothingBeforeHeader(lines: seq<string>, n: nat)
    requires n <= |lines| && n <= HeaderIndex(lines) + 1
    ensures Collected(lines, n) == []
    decreases n
  {
    if n > 0 {
      NothingBeforeHeader(lines, n - 1);
    }
  }

  /** Line `i` contributes a name: it qualifies and follows the header. */
  predicate Contributes(lines: seq<string>, i: nat)
    requires i < |lines|
  {
    HeaderIndex(lines) < i && IsGeneratorLine(lines, i)
  }

  /** Every name collected comes from a qualifying line after the header. */
  lemma {:induction false} CollectedFromQualifyingLines(lines: seq<string>, n: nat, k: nat)
    requires n <= |lines| && k < |Collected(lines, n)|
    ensures exists i :: 0 <= i < n && Contributes(lines, i) && Collected(lines, n)[k] == GeneratorName(lines[i])
    decreases n
  {
    assert n > 0;
    var prev := Collected(lines, n - 1);
    var last := if Contributes(lines, n - 1) then [GeneratorName(lines[n - 1])] else [];
    assert Collected(lines, n) == prev + last;
    if k < |prev| {
      CollectedFromQualifyingLines(lines, n - 1, k);
      var i :| 0 <= i < n - 1 && Contributes(lines, i) && prev[k] == GeneratorName(lines[i]);
      assert (prev + last)[k] == prev[k];
    } else {
      assert Contributes(lines, n - 1);
      assert (prev + last)[k] == GeneratorName(lines[n - 1]);
    }
  }

  /** The forEach over the help lines: `on` flips after the header, and each
      qualifying line pushes its name. */
  method ParseHelpText(stdout: string) returns (gens: seq<string>)
    ensures gens == HelpGenerators(stdout)
    ensures HeaderIndex(HelpLines(stdout)) == |HelpLines(stdout)| ==> gens == []
  {
    var output := HelpLines(stdout);
    var on := false;
    gens := [];
    var i := 0;
    while i < |output|
      invariant 0 <= i <= |output|
      invariant on <==> HeaderIndex(output) < i
      invariant gens == Collected(output, i)
    {
      on, gens := ScanLine(output, i, on, gens);
      i := i + 1;
    }
    if HeaderIndex(output) == |output| {
      NothingBeforeHeader(output, |output|);
    }
  }

  /** The forEach callback on line `i`: while `on`, a qualifying line
      pushes its name; a header line switches `on` for the lines after it. */
  method ScanLine(output: seq<string>, i: nat, on: bool, gens: seq<string>) returns (on': bool, gens': seq<string>)
    requires i < |output| && (on <==> HeaderIndex(output) < i) && gens == Collected(output, i)
    ensures on' <==> HeaderIndex(output) < i + 1
    ensures gens' == Collected(output, i + 1)
  {
    var line := output[i];
    if !on {
      HeaderIndexStep(output, i);
    }
    gens' := gens;
    if on {
      var parts := Split(line, "=");
      if (|parts| == 2 && Trim(parts[0]) != "")
        || (|parts| == 1 && i != |output| - 1 && StartsWithEquals(Trim(output[i + 1])))
      {
        var gen := Trim(parts[0]);
        if EndsWith(gen, ArchSuffix) {
          gen := gen[..|gen| - |ArchSuffix|];
        }
        gens' := gens' + [gen];
      }
    }
    on' := on;
    if Trim(line) == GeneratorsHeader {
      on' := true;
    }
  }

  /** `CMake.getGenerators(options)` once the capability query's answer and
      the help text are known. */
  function GeneratorsSpec(opts: Options, host: Host): Result<seq<string>, Error> {
    if !IsAvailable(opts, host) then Failure(CMakeNotInstalled)
    else if host.capabilities.Some? then Success(host.capabilities.value)
    else if host.helpText.None? then Failure(HelpQueryFailed)
    else Success(HelpGenerators(host.helpText.value))
  }

  /** Fails with "CMake is not installed" exactly when cmake is unavailable;
      otherwise the capability list is returned as is, in order, and the help
      text is consulted only when that query failed. */
  method GetGenerators(opts: Options, host: Host) returns (r: Result<seq<string>, Error>)
    ensures r == GeneratorsSpec(opts, host)
    ensures !IsAvailable(opts, host) <==> r == Failure(CMakeNotInstalled)
    ensures IsAvailable(opts, host) && host.capabilities.Some? ==> r == Success(host.capabilities.value)
    ensures IsAvailable(opts, host) && host.capabilities.None? && host.helpText.Some? ==>
      r == Success(HelpGenerators(host.helpText.value))
  {
    if !IsAvailable(opts, host) {
      return Failure(CMakeNotInstalled);
    }
    if host.capabilities.Some? {
      return Success(host.capabilities.value);
    }
    // fall back to parsing the help text
    if host.helpText.None? {
      return Failure(HelpQueryFailed);
    }
    var gens := ParseHelpText(host.helpText.value);
    return Success(gens);
  }
}

=== FILE: options.dfy ===
/** The options bag shared by the CMake driver, the toolset and the target
    options, with JavaScript's truthiness of an optional string. */
module OptionBag {
  import opened Wrappers

  /** Every option the core reads. A missing option is `None`; JavaScript
      treats a missing option and an empty string alike (both falsy). */
  datatype Options = Options(
    cmakePath: Option<string>,
    target: Option<string>,
    parallel: Option<string>,
    arch: Option<string>,
    cCompilerPath: Option<string>,
    cppCompilerPath: Option<string>,
    makePath: Option<string>,
    compilerFlags: Option<seq<string>>,
    linkerFlags: Option<seq<string>>,
    preferClang: bool,
    preferGnu: bool,
    preferXcode: bool,
    preferMake: bool)

  /** JavaScript truthiness of an optional string: set and non-empty. */
  predicate Truthy(v: Option<string>) {
    v.Some? && v.value != ""
  }

  /** `v || d` for an optional string. */
  function OrDefault(v: Option<string>, d: string): (r: string)
    ensures Truthy(v) ==> r == v.value
    ensures !Truthy(v) ==> r == d
  {
    if Truthy(v) then v.value else d
  }
}

/** The errors the core raises. */
module Errors {
  datatype Error =
    | CMakeNotFound          // verifyIfAvailable: "CMake executable is not found. ..."
    | CMakeNotInstalled      // getGenerators: "CMake is not installed. Install CMake."
    | HelpQueryFailed        // `cmake --help` could not be run
    | NoVisualCpp            // initializeWin: "There is no Visual C++ compiler installed. ..."
    | CompilerNotAvailable(onMac: bool)  // initializePosix, with the macOS or the generic advice
    | ListsNotFound(projectRoot: string) // "'<root>/CMakeLists.txt' not found."
    | ChdirFailed            // process.chdir(workDir) threw
    | ProcessFailed          // the spawned process exited non-zero or failed to start
}

=== FILE: readfile.dfy ===
/** The pure parts of the file readers: the byte-order-mark strip of
    `readUtf8File`, the line split of `readLines`, and the three-way split of
    a file's lines around a marked section (`readLinesSection`). Reading the
    file itself is not modelled: each reader starts from the file's text. */
module ReadFile {
  import opened Strings
  import TransformFile

  const Bom: char := '\U{FEFF}'

  /** `readUtf8File(path, stripBom)` once the text is read: with `stripBom`,
      one leading U+FEFF is removed, and only one. */
  function StripBom(src: string, stripBom: bool): (r: string)
    ensures |src| - 1 <= |r| <= |src| && r == src[|src| - |r|..]
    ensures |r| < |src| <==> stripBom && |src| > 0 && src[0] == Bom
  {
    if stripBom && |src| > 0 && src[0] == Bom then src[1..] else src
  }

  /** A second mark right after the first one survives the strip. */
  lemma StripBomOnce(rest: string)
    ensures StripBom([Bom, Bom] + rest, true) == [Bom] + rest
    ensures StripBom(rest, false) == rest
  {
  }

  /** One line of `readLines`: at most one trailing "\r" is removed. */
  function DropCr(line: string): (r: string)
    ensures |line| - 1 <= |r| <= |line| && r == line[..|r|]
    ensures |r| < |line| <==> EndsWith(line, "\r")
  {
    if |line| > 0 && line[|line| - 1] == '\r' then line[..|line| - 1] else line
  }

  /** `readLines(path)` once the text is read. */
  function ReadLinesSpec(content: string): (r: seq<string>)
    ensures |r| == |Split(content, "\n")|
    ensures forall i :: 0 <= i < |r| ==> r[i] == DropCr(Split(content, "\n")[i])
  {
    var parts := Split(content, "\n");
    seq(|parts|, i requires 0 <= i < |parts| => DropCr(parts[i]))
  }

  /** Split the text on "\n", then rewrite each element in place without its
      trailing "\r". */
  method ReadLines(content: string) returns (lines: array<string>)
    ensures fresh(lines)
    ensures lines[..] == ReadLinesSpec(content)
  {
    var parts := Split(content, "\n");
    lines := new string[|parts|](i requires 0 <= i < |parts| => parts[i]);
    var i := 0;
    while i < lines.Length
      invariant 0 <= i <= lines.Length == |parts|
      invariant forall k :: 0 <= k < i ==> lines[k] == DropCr(parts[k])
      invariant forall k :: i <= k < lines.Length ==> lines[k] == parts[k]
    {
      var line := lines[i];
      if |line| > 0 && line[|line| - 1] == '\r' {
        lines[i] := line[..|line| - 1];
      }
      i := i + 1;
    }
  }

  lemma ReadLinesCons(a: string, rest: string)
    requires '\n' !in a
    ensures ReadLinesSpec(a + "\n" + rest) == [DropCr(a)] + ReadLinesSpec(rest)
  {
    SplitAfterLine(a, '\n', rest);
    var parts := Split(a + "\n" + rest, "\n");
    assert parts == [a] + Split(rest, "\n");
    var l := ReadLinesSpec(a + "\n" + rest);
    var r := [DropCr(a)] + ReadLinesSpec(rest);
    assert |l| == |r|;
    forall i | 0 <= i < |l|
      ensures l[i] == r[i]
    {
      if i > 0 {
        assert parts[i] == Split(rest, "\n")[i - 1];
      }
    }
  }

  /** Text written with "\r\n" line ends reads back as its lines, provided
      none of them holds "\n" or ends in "\r". */
  lemma {:induction false} ReadLinesCrlf(lines: seq<string>)
    requires |lines| >= 1
    requires forall i :: 0 <= i < |lines| ==> '\n' !in lines[i] && !EndsWith(lines[i], "\r")
    ensures ReadLinesSpec(Join(lines, "\r\n")) == lines
    decreases |lines|
  {
    if |lines| == 1 {
      SplitNoSeparator(lines[0], '\n');
      assert !EndsWith(lines[0], "\r");
    } else {
      var tail := lines[1..];
      forall i | 0 <= i < |tail|
        ensures '\n' !in tail[i] && !EndsWith(tail[i], "\r")
      {
        assert tail[i] == lines[i + 1];
      }
      ReadLinesCrlf(tail);
      var rest := Join(tail, "\r\n");
      CrLine(lines[0]);
      SplitPair(lines[0], '\r', '\n', rest);
      ReadLinesCons(lines[0] + "\r", rest);
      assert [lines[0]] + tail == lines;
    }
  }

  /** A line closed by "\r" still holds no "\n", and loses just that "\r". */
  lemma CrLine(a: string)
    requires '\n' !in a && !EndsWith(a, "\r")
    ensures '\n' !in a + "\r" && DropCr(a + "\r") == a
  {
    assert (a + "\r")[..|a|] == a;
  }

  lemma SplitPair<X>(a: seq<X>, x: X, y: X, c: seq<X>)
    ensures a + [x, y] + c == a + [x] + [y] + c
  {
  }

  /** For such text `readLines` agrees with the "\n"-or-"\r\n" split of the
      transformation utilities. */
  lemma ReadLinesAgreesWithSplitFileLines(lines: seq<string>)
    requires |lines| >= 1
    requires forall i :: 0 <= i < |lines| ==> '\n' !in lines[i] && !EndsWith(lines[i], "\r")
    ensures ReadLinesSpec(Join(lines, "\r\n")) == TransformFile.SplitFileLines(Join(lines, "\r\n"))
  {
    ReadLinesCrlf(lines);
    TransformFile.SplitFileLinesJoin(lines, "\r\n");
  }

  /** The first index at or after `from` whose line trims to `marker`, or
      `|lines|` when there is none. */
  function FirstTrimmed(lines: seq<string>, from: nat, marker: string): (r: nat)
    requires from <= |lines|
    ensures from <= r <= |lines|
    decreases |lines| - from
  {
    if from == |lines| then |lines|
    else if Trim(lines[from]) == marker then from
    else FirstTrimmed(lines, from + 1, marker)
  }

  /** The search finds the first line that trims to the marker: the line it
      stops at does, and no line it passes over does. */
  lemma {:induction false} FirstTrimmedFinds(lines: seq<string>, from: nat, marker: string)
    requires from <= |lines|
    ensures var r := FirstTrimmed(lines, from, marker);
      (r < |lines| ==> Trim(lines[r]) == marker)
      && (forall k :: from <= k < r ==> Trim(lines[k]) != marker)
    decreases |lines| - from
  {
    if from < |lines| && Trim(lines[from]) != marker {
      var r := FirstTrimmed(lines, from + 1, marker);
      assert FirstTrimmed(lines, from, marker) == r;
      FirstTrimmedFinds(lines, from + 1, marker);
      forall k | from <= k < r
        ensures Trim(lines[k]) != marker
      {
        if k == from {
        } else {
          assert from + 1 <= k < r;
        }
      }
    }
  }

  /** Both marker searches of a section, stated once. */
  lemma MarkersFound(lines: seq<string>, startLine: string, endLine: string)
    ensures var s := StartIndex(lines, startLine);
      var e := EndIndex(lines, startLine, endLine);
      (s < |lines| ==> Trim(lines[s]) == Trim(startLine))
      && (forall k :: 0 <= k < s ==> Trim(lines[k]) != Trim(startLine))
      && (s < e < |lines| ==> Trim(lines[e]) == Trim(endLine))
      && (forall k :: s < k < e ==> Trim(lines[k]) != Trim(endLine))
  {
    FirstTrimmedFinds(lines, 0, Trim(startLine));
    var s := StartIndex(lines, startLine);
    if s < |lines| {
      FirstTrimmedFinds(lines, s + 1, Trim(endLine));
    }
  }

  /** The start line's index, or `|lines|`. */
  function StartIndex(lines: seq<string>, startLine: string): nat
    ensures StartIndex(lines, startLine) <= |lines|
  {
    FirstTrimmed(lines, 0, Trim(startLine))
  }

  /** The index of the first end line after the start line, or `|lines|`. */
  function EndIndex(lines: seq<string>, startLine: string, endLine: string): (e: nat)
    ensures StartIndex(lines, startLine) <= e <= |lines|
    ensures StartIndex(lines, startLine) == |lines| ==> e == |lines|
    ensures StartIndex(lines, startLine) < |lines| ==> StartIndex(lines, startLine) < e
  {
    var s := StartIndex(lines, startLine);
    if s == |lines| then |lines| else FirstTrimmed(lines, s + 1, Trim(endLine))
  }

  /** Where the section begins: at the start line when the marker lines
      belong to the section, right after it otherwise. */
  function SectionBegin(lines: seq<string>, startLine: string, inclusive: bool): (b: nat)
    ensures b <= |lines|
  {
    var s := StartIndex(lines, startLine);
    if s == |lines| || inclusive then s else s + 1
  }

  /** Where the after part begins: right after the end line when the marker
      lines belong to the section, at the end line otherwise. */
  function SectionEnd(lines: seq<string>, startLine: string, endLine: string, inclusive: bool): (e: nat)
    ensures SectionBegin(lines, startLine, inclusive) <= e <= |lines|
  {
    var e := EndIndex(lines, startLine, endLine);
    if e == |lines| || !inclusive then e else e + 1
  }

  lemma CutThree<X>(s: seq<X>, b: nat, e: nat)
    requires b <= e <= |s|
    ensures s[..b] + s[b..e] + s[e..] == s
  {
  }

  datatype Split3 = Split3(beforeLines: seq<string>, sectionLines: seq<string>, afterLines: seq<string>)

  /** The three parts, cut at the two positions above. */
  function Sections(lines: seq<string>, startLine: string, endLine: string, inclusive: bool): (r: Split3)
    ensures r.beforeLines + r.sectionLines + r.afterLines == lines
  {
    var b := SectionBegin(lines, startLine, inclusive);
    var e := SectionEnd(lines, startLine, endLine, inclusive);
    CutThree(lines, b, e);
    Split3(lines[..b], lines[b..e], lines[e..])
  }

  datatype Phase = BeforeSection | InSection | AfterSection

  /** `readLinesSection(lines, sectionStartLine, sectionEndLine,
      includeStartEndLinesInSection)`: a loop over a three-valued state that
      pushes each line onto one of three lists. */
  method ReadLinesSection(lines: seq<string>, sectionStartLine: string, sectionEndLine: string, inclusive: bool)
    returns (r: Split3)
    ensures r == Sections(lines, sectionStartLine, sectionEndLine, inclusive)
  {
    var endTrimmed := Trim(sectionEndLine);
    var startTrimmed := Trim(sectionStartLine);
    var beforeLines: seq<string> := [];
    var sectionLines: seq<string> := [];
    var afterLines: seq<string> := [];
    var state := BeforeSection;
    ghost var b := SectionBegin(lines, sectionStartLine, inclusive);
    ghost var f := SectionEnd(lines, sectionStartLine, sectionEndLine, inclusive);
    var i := 0;
    while i < |lines|
      invariant 0 <= i <= |lines|
      invariant InPhase(lines, sectionStartLine, sectionEndLine, i, state)
      invariant (beforeLines, sectionLines, afterLines) == Deal(lines, b, f, i)
    {
      state, beforeLines, sectionLines, afterLines :=
        PushLine(lines, sectionStartLine, sectionEndLine, inclusive, startTrimmed, endTrimmed,
                 i, state, beforeLines, sectionLines, afterLines);
      i := i + 1;
    }
    DealAll(lines, b, f);
    r := Split3(beforeLines, sectionLines, afterLines);
  }

  /** The loop is in the phase that line `i`'s position calls for. */
  ghost predicate InPhase(lines: seq<string>, startLine: string, endLine: string, i: nat, state: Phase) {
    (state == BeforeSection <==> i <= StartIndex(lines, startLine))
    && (state == AfterSection <==> EndIndex(lines, startLine, endLine) < i)
  }

  /** One round of the loop: line `i` moves the state on and is pushed onto
      one of the three lists. */
  method PushLine(lines: seq<string>, sectionStartLine: string, sectionEndLine: string, inclusive: bool,
                  startTrimmed: string, endTrimmed: string, i: nat, state: Phase,
                  beforeLines: seq<string>, sectionLines: seq<string>, afterLines: seq<string>)
    returns (state': Phase, beforeLines': seq<string>, sectionLines': seq<string>, afterLines': seq<string>)
    requires i < |lines| && startTrimmed == Trim(sectionStartLine) && endTrimmed == Trim(sectionEndLine)
    requires InPhase(lines, sectionStartLine, sectionEndLine, i, state)
    requires (beforeLines, sectionLines, afterLines)
      == Deal(lines, SectionBegin(lines, sectionStartLine, inclusive), SectionEnd(lines, sectionStartLine, sectionEndLine, inclusive), i)
    ensures InPhase(lines, sectionStartLine, sectionEndLine, i + 1, state')
    ensures (beforeLines', sectionLines', afterLines')
      == Deal(lines, SectionBegin(lines, sectionStartLine, inclusive), SectionEnd(lines, sectionStartLine, sectionEndLine, inclusive), i + 1)
  {
    var line := lines[i];
    Place(lines, sectionStartLine, sectionEndLine, inclusive, i, state);
    state', beforeLines', sectionLines', afterLines' := state, beforeLines, sectionLines, afterLines;
    if state == AfterSection {
      afterLines' := afterLines + [line];
    } else if state == InSection {
      if Trim(line) == endTrimmed {
        state' := AfterSection;
        if inclusive {
          sectionLines' := sectionLines + [line];
        } else {
          afterLines' := afterLines + [line];
        }
      } else {
        sectionLines' := sectionLines + [line];
      }
    } else {
      if Trim(line) == startTrimmed {
        state' := InSection;
        if inclusive {
          sectionLines' := sectionLines + [line];
        } else {
          beforeLines' := beforeLines + [line];
        }
      } else {
        beforeLines' := beforeLines + [line];
      }
    }
  }

  /** The first `i` lines dealt onto three lists: a line before position
      `b` onto the first, one from `b` up to `f` onto the second, any later
      one onto the third. */
  function Deal<X>(lines: seq<X>, b: nat, f: nat, i: nat): (seq<X>, seq<X>, seq<X>)
    requires i <= |lines|
  {
    if i == 0 then ([], [], [])
    else
      var (before, section, after) := Deal(lines, b, f, i - 1);
      if i - 1 < b then (before + [lines[i - 1]], section, after)
      else if i - 1 < f then (before, section + [lines[i - 1]], after)
      else (before, section, after + [lines[i - 1]])
  }

  /** All lines dealt: the three lists are the lines cut at `b` and `f`. */
  lemma DealAll<X>(lines: seq<X>, b: nat, f: nat)
    requires b <= f <= |lines|
    ensures Deal(lines, b, f, |lines|) == (lines[..b], lines[b..f], lines[f..])
  {
    DealSlices(lines, b, f, |lines|);
    assert lines[f..|lines|] == lines[f..];
  }

  lemma SliceSnoc<X>(s: seq<X>, a: nat, j: nat)
    requires a <= j < |s|
    ensures s[a..j + 1] == s[a..j] + [s[j]] && s[..j + 1] == s[..j] + [s[j]]
  {
  }

  /** Dealing keeps the order: the three lists are the first `i` lines cut
      at `b` and `f`. */
  lemma {:induction false} DealSlices<X>(lines: seq<X>, b: nat, f: nat, i: nat)
    requires b <= f && i <= |lines|
    ensures Deal(lines, b, f, i) == (lines[..Min(i, b)], lines[Min(i, b)..Min(i, f)], lines[Min(i, f)..i])
    decreases i
  {
    if i > 0 {
      DealSlices(lines, b, f, i - 1);
      var j := i - 1;
      var (p, q, r) := Deal(lines, b, f, j);
      assert p == lines[..Min(j, b)] && q == lines[Min(j, b)..Min(j, f)] && r == lines[Min(j, f)..j];
      if j < b {
        assert Deal(lines, b, f, i) == (p + [lines[j]], q, r);
        SliceSnoc(lines, 0, j);
        assert Min(i, b) == i && Min(i, f) == i && Min(j, b) == j && Min(j, f) == j;
        assert q == [] == lines[i..i] && r == [];
      } else if j < f {
        assert Deal(lines, b, f, i) == (p, q + [lines[j]], r);
        SliceSnoc(lines, b, j);
        assert Min(i, b) == b == Min(j, b) && Min(i, f) == i && Min(j, f) == j;
        assert r == [] == lines[i..i];
      } else {
        assert Deal(lines, b, f, i) == (p, q, r + [lines[j]]);
        SliceSnoc(lines, f, j);
        assert Min(i, b) == b == Min(j, b) && Min(i, f) == f == Min(j, f);
      }
    }
  }

  /** Where line `i` stands relative to the two marker lines, given the
      phase the loop is in when it reaches it. */
  lemma Boundaries(lines: seq<string>, startLine: string, endLine: string, i: nat, state: Phase)
    requires i < |lines|
    requires state == BeforeSection <==> i <= StartIndex(lines, startLine)
    requires state == AfterSection <==> EndIndex(lines, startLine, endLine) < i
    ensures var s := StartIndex(lines, startLine);
      var e := EndIndex(lines, startLine, endLine);
      (state == BeforeSection ==> (Trim(lines[i]) == Trim(startLine) <==> i == s) && i <= s)
      && (state == InSection ==> (Trim(lines[i]) == Trim(endLine) <==> i == e) && s < i <= e)
  {
    MarkersFound(lines, startLine, endLine);
  }

  /** The phase after line `i` and the list line `i` goes to, as decided by
      the branches of the loop, agree with the cut positions: the start line
      is the first that trims to the start marker, the end line the first
      after it that trims to the end marker. */
  lemma Place(lines: seq<string>, startLine: string, endLine: string, inclusive: bool, i: nat, state: Phase)
    requires i < |lines|
    requires state == BeforeSection <==> i <= StartIndex(lines, startLine)
    requires state == AfterSection <==> EndIndex(lines, startLine, endLine) < i
    ensures var s := StartIndex(lines, startLine);
      var e := EndIndex(lines, startLine, endLine);
      var b := SectionBegin(lines, startLine, inclusive);
      var f := SectionEnd(lines, startLine, endLine, inclusive);
      var isStart := Trim(lines[i]) == Trim(startLine);
      var isEnd := Trim(lines[i]) == Trim(endLine);
      var next := if state == BeforeSection then (if isStart then InSection else BeforeSection)
                  else if state == InSection then (if isEnd then AfterSection else InSection)
                  else AfterSection;
      (next == BeforeSection <==> i + 1 <= s)
      && (next == AfterSection <==> e < i + 1)
      && (state == AfterSection ==> f <= i)
      && (state == InSection && isEnd ==> if inclusive then b <= i < f else f <= i)
      && (state == InSection && !isEnd ==> b <= i < f)
      && (state == BeforeSection && isStart ==> if inclusive then b <= i < f else i < b)
      && (state == BeforeSection && !isStart ==> i < b)
  {
    Boundaries(lines, startLine, endLine, i, state);
    var s := StartIndex(lines, startLine);
    var e := EndIndex(lines, startLine, endLine);
    assert SectionBegin(lines, startLine, inclusive) == if s == |lines| || inclusive then s else s + 1;
    assert SectionEnd(lines, startLine, endLine, inclusive) == if e == |lines| || !inclusive then e else e + 1;
  }

  function Min(x: nat, y: nat): nat {
    if x <= y then x else y
  }

  /** The section opens at the first line that trims to the trimmed start
      marker: no earlier line does. Without such a line everything is before
      the section. */
  lemma SectionStart(lines: seq<string>, startLine: string, endLine: string, inclusive: bool)
    ensures var r := Sections(lines, startLine, endLine, inclusive);
      var s := StartIndex(lines, startLine);
      (forall k :: 0 <= k < s ==> Trim(lines[k]) != Trim(startLine))
      && (s == |lines| ==> r == Split3(lines, [], []))
      && (s < |lines| ==> Trim(lines[s]) == Trim(startLine))
      && (s < |lines| && inclusive ==> r.beforeLines == lines[..s] && r.sectionLines[0] == lines[s])
      && (s < |lines| && !inclusive ==> r.beforeLines == lines[..s + 1])
  {
    MarkersFound(lines, startLine, endLine);
  }

  /** The section closes at the first line after the start line that trims
      to the trimmed end marker; no line strictly inside the section does.
      When no such line follows, the after part is empty. */
  lemma SectionClose(lines: seq<string>, startLine: string, endLine: string, inclusive: bool)
    ensures var r := Sections(lines, startLine, endLine, inclusive);
      var s := StartIndex(lines, startLine);
      var e := EndIndex(lines, startLine, endLine);
      (forall k :: s < k < e ==> Trim(lines[k]) != Trim(endLine))
      && (e == |lines| ==> r.afterLines == [])
      && (s < e < |lines| ==> Trim(lines[e]) == Trim(endLine))
      && (s < e < |lines| && inclusive ==>
            r.sectionLines == lines[s..e + 1] && r.afterLines == lines[e + 1..])
      && (s < e < |lines| && !inclusive ==>
            r.sectionLines == lines[s + 1..e] && r.afterLines == lines[e..] && r.afterLines[0] == lines[e])
  {
    MarkersFound(lines, startLine, endLine);
  }
}

=== FILE: strings.dfy ===
/** The JavaScript string operations the core relies on, over `seq<char>`:
    trim, startsWith/endsWith, indexOf, the first-occurrence replace,
    split on a string separator, join, the global replace of one character,
    and the decimal rendering of a natural number. */
module Strings {

  /** The code points JavaScript's `trim` removes: WhiteSpace and LineTerminator. */
  predicate IsJsWhitespace(c: char) {
    c == ' ' || c == '\t' || c == '\n' || c == '\r' || c == '\U{000B}' || c == '\U{000C}'
    || c == '\U{00A0}' || c == '\U{1680}' || ('\U{2000}' <= c <= '\U{200A}')
    || c == '\U{2028}' || c == '\U{2029}' || c == '\U{202F}' || c == '\U{205F}'
    || c == '\U{3000}' || c == '\U{FEFF}'
  }

  /** `s.trimStart()`: drops the leading whitespace, all of it
      (`TrimStartDrops`). */
  function TrimStart(s: string): (r: string)
    ensures |r| <= |s| && r == s[|s| - |r|..]
    ensures |r| > 0 ==> !IsJsWhitespace(r[0])
  {
    if |s| > 0 && IsJsWhitespace(s[0]) then TrimStart(s[1..]) else s
  }

  /** `s.trimEnd()`: drops the trailing whitespace, all of it
      (`TrimEndDrops`). */
  function TrimEnd(s: string): (r: string)
    ensures |r| <= |s| && r == s[..|r|]
    ensures |r| > 0 ==> !IsJsWhitespace(r[|r| - 1])
  {
    if |s| > 0 && IsJsWhitespace(s[|s| - 1]) then TrimEnd(s[..|s| - 1]) else s
  }

  /** `s.trim()`: what is left between the leading and the trailing
      whitespace (`TrimSlice`, `TrimSurroundings`). */
  function Trim(s: string): (r: string)
    ensures |r| <= |s|
  {
    TrimEnd(TrimStart(s))
  }

  /** What trimStart drops is whitespace, every character of it. */
  lemma {:induction false} TrimStartDrops(s: string)
    ensures forall i :: 0 <= i < |s| - |TrimStart(s)| ==> IsJsWhitespace(s[i])
    decreases |s|
  {
    if |s| > 0 && IsJsWhitespace(s[0]) {
      TrimStartDrops(s[1..]);
      forall i | 1 <= i < |s| - |TrimStart(s)| ensures IsJsWhitespace(s[i]) {
        assert s[i] == s[1..][i - 1];
      }
    }
  }

  /** What trimEnd drops is whitespace, every character of it. */
  lemma {:induction false} TrimEndDrops(s: string)
    ensures forall i :: |TrimEnd(s)| <= i < |s| ==> IsJsWhitespace(s[i])
    decreases |s|
  {
    if |s| > 0 && IsJsWhitespace(s[|s| - 1]) {
      TrimEndDrops(s[..|s| - 1]);
      forall i | |TrimEnd(s)| <= i < |s| - 1 ensures IsJsWhitespace(s[i]) {
        assert s[i] == s[..|s| - 1][i];
      }
    }
  }

  /** Trim keeps one slice of its input, and that slice neither starts nor
      ends with whitespace. */
  lemma TrimSlice(s: string)
    ensures var r := Trim(s);
      var a := |s| - |TrimStart(s)|;
      a + |r| <= |s| && r == s[a..a + |r|]
      && (|r| > 0 ==> !IsJsWhitespace(r[0]) && !IsJsWhitespace(r[|r| - 1]))
  {
    var t := TrimStart(s);
    var a := |s| - |t|;
    var r := TrimEnd(t);
    assert Trim(s) == r;
    assert r == s[a..a + |r|] by {
      assert t == s[a..] && r == t[..|r|];
    }
    if |r| > 0 {
      assert r[0] == t[0];
    }
  }

  /** Only whitespace lies around the slice trim keeps. */
  lemma TrimSurroundings(s: string)
    ensures forall i :: 0 <= i < |s| - |TrimStart(s)| ==> IsJsWhitespace(s[i])
    ensures forall i :: |s| - |TrimStart(s)| + |Trim(s)| <= i < |s| ==> IsJsWhitespace(s[i])
  {
    var t := TrimStart(s);
    var a := |s| - |t|;
    var r := TrimEnd(t);
    assert Trim(s) == r;
    TrimStartDrops(s);
    TrimEndDrops(t);
    forall i | a + |r| <= i < |s| ensures IsJsWhitespace(s[i]) {
      assert s[i] == t[i - a];
    }
  }

  predicate StartsWith(s: string, prefix: string) {
    |prefix| <= |s| && s[..|prefix|] == prefix
  }

  predicate EndsWith(s: string, suffix: string) {
    |suffix| <= |s| && s[|s| - |suffix|..] == suffix
  }

  /** `p` occurs in `s` starting at index `i`. */
  predicate MatchesAt(s: string, p: string, i: nat) {
    i + |p| <= |s| && s[i..i + |p|] == p
  }

  function IndexOfFrom(s: string, p: string, from: nat): (r: int)
    requires from <= |s|
    ensures r == -1 || (from <= r <= |s| && MatchesAt(s, p, r))
    ensures r == -1 ==> forall i :: from <= i <= |s| ==> !MatchesAt(s, p, i)
    ensures r != -1 ==> forall i :: from <= i < r ==> !MatchesAt(s, p, i)
    decreases |s| - from
  {
    if MatchesAt(s, p, from) then from
    else if from == |s| then -1
    else IndexOfFrom(s, p, from + 1)
  }

  /** `s.indexOf(p)`: the first index where `p` occurs, or -1. */
  function IndexOf(s: string, p: string): (r: int)
    ensures r == -1 || (0 <= r <= |s| && MatchesAt(s, p, r))
    ensures r == -1 <==> forall i :: 0 <= i <= |s| ==> !MatchesAt(s, p, i)
    ensures r != -1 ==> forall i :: 0 <= i < r ==> !MatchesAt(s, p, i)
  {
    IndexOfFrom(s, p, 0)
  }

  /** `s.indexOf(p) > -1` */
  predicate Contains(s: string, p: string) {
    IndexOf(s, p) >= 0
  }

  /** `s.replace(p, rep)` with a string pattern: only the first occurrence is
      replaced, and `rep` is taken literally. */
  function ReplaceFirst(s: string, p: string, rep: string): (r: string)
    ensures !Contains(s, p) ==> r == s
    ensures Contains(s, p) ==>
      var i := IndexOf(s, p);
      s == s[..i] + p + s[i + |p|..] && r == s[..i] + rep + s[i + |p|..]
  {
    var i := IndexOf(s, p);
    if i < 0 then s else s[..i] + rep + s[i + |p|..]
  }

  /** `s.split(sep)` for a non-empty separator string. */
  function Split(s: string, sep: string): (r: seq<string>)
    requires |sep| > 0
    ensures |r| >= 1
    decreases |s|
  {
    if |s| < |sep| then [s]
    else if s[..|sep|] == sep then [""] + Split(s[|sep|..], sep)
    else
      var rest := Split(s[1..], sep);
      [[s[0]] + rest[0]] + rest[1..]
  }

  /** `lines.join(sep)` */
  function Join(lines: seq<string>, sep: string): string {
    if |lines| == 0 then ""
    else if |lines| == 1 then lines[0]
    else lines[0] + sep + Join(lines[1..], sep)
  }

  /** `s.replace(/c/g, rep)`: every occurrence of the character `c` becomes `rep`. */
  function ReplaceChar(s: string, c: char, rep: string): string {
    if |s| == 0 then ""
    else (if s[0] == c then rep else [s[0]]) + ReplaceChar(s[1..], c, rep)
  }

  function DigitChar(d: nat): char
    requires d < 10
  {
    "0123456789"[d]
  }

  /** `String(n)` for a natural number. */
  function NatToString(n: nat): string
    decreases n
  {
    if n < 10 then [DigitChar(n)] else NatToString(n / 10) + [DigitChar(n % 10)]
  }

  // ---- properties of split and join used by the file utilities ----

  lemma {:induction false} SplitNoSeparator(s: string, c: char)
    requires c !in s
    ensures Split(s, [c]) == [s]
    decreases |s|
  {
    if |s| >= 1 {
      assert s[..1] != [c] by { assert s[..1][0] == s[0]; }
      SplitNoSeparator(s[1..], c);
      assert [s[0]] + s[1..] == s;
    }
  }

  lemma {:induction false} SplitAfterLine(a: string, c: char, b: string)
    requires c !in a
    ensures Split(a + [c] + b, [c]) == [a] + Split(b, [c])
    decreases |a|
  {
    var s := a + [c] + b;
    if |a| == 0 {
      assert s[..1] == [c];
      assert s[1..] == b;
    } else {
      assert s[..1] != [c] by { assert s[..1][0] == a[0]; }
      assert s[1..] == a[1..] + [c] + b;
      SplitAfterLine(a[1..], c, b);
      assert [s[0]] + a[1..] == a;
    }
  }

  /** Splitting text joined on a one-character separator gives the lines back,
      provided no line contains that character. */
  lemma {:induction false} SplitJoinChar(lines: seq<string>, c: char)
    requires |lines| >= 1
    requires forall i :: 0 <= i < |lines| ==> c !in lines[i]
    ensures Split(Join(lines, [c]), [c]) == lines
    decreases |lines|
  {
    if |lines| == 1 {
      SplitNoSeparator(lines[0], c);
    } else {
      SplitJoinChar(lines[1..], c);
      SplitAfterLine(lines[0], c, Join(lines[1..], [c]));
      assert [lines[0]] + lines[1..] == lines;
    }
  }

  /** `split` then `join` on the same non-empty separator gives the text back. */
  lemma {:induction false} SplitJoin(s: string, sep: string)
    requires |sep| > 0
    ensures Join(Split(s, sep), sep) == s
    decreases |s|
  {
    if |s| < |sep| {
    } else if s[..|sep|] == sep {
      SplitJoin(s[|sep|..], sep);
      JoinAfterEmpty(Split(s[|sep|..], sep), sep);
      assert s == sep + s[|sep|..];
    } else {
      SplitJoin(s[1..], sep);
      JoinAfterChar(s[0], Split(s[1..], sep), sep);
      assert s == [s[0]] + s[1..];
    }
  }

  lemma JoinAfterEmpty(lines: seq<string>, sep: string)
    requires |lines| >= 1
    ensures Join([""] + lines, sep) == sep + Join(lines, sep)
  {
    assert ([""] + lines)[1..] == lines;
  }

  lemma JoinAfterChar(c: char, lines: seq<string>, sep: string)
    requires |lines| >= 1
    ensures Join([[c] + lines[0]] + lines[1..], sep) == [c] + Join(lines, sep)
  {
    var r := [[c] + lines[0]] + lines[1..];
    assert r[1..] == lines[1..];
    JoinHead(r, sep);
    JoinHead(lines, sep);
  }

  /** No piece of `split` contains the separator. */
  lemma {:induction false} SplitPiecesFree(s: string, sep: string)
    requires |sep| > 0
    ensures forall k :: 0 <= k < |Split(s, sep)| ==> !Contains(Split(s, sep)[k], sep)
    decreases |s|
  {
    var r := Split(s, sep);
    if |s| < |sep| {
      assert r == [s];
    } else if s[..|sep|] == sep {
      var rest := Split(s[|sep|..], sep);
      SplitPiecesFree(s[|sep|..], sep);
      assert r == [""] + rest;
      forall k | 0 <= k < |r| ensures !Contains(r[k], sep) {
        if k > 0 {
          assert r[k] == rest[k - 1];
        }
      }
    } else {
      var rest := Split(s[1..], sep);
      SplitPiecesFree(s[1..], sep);
      SplitJoin(s[1..], sep);
      JoinHead(rest, sep);
      assert r == [[s[0]] + rest[0]] + rest[1..];
      FirstPieceFree(s, sep, rest[0]);
      forall k | 0 <= k < |r| ensures !Contains(r[k], sep) {
        if k > 0 {
          assert r[k] == rest[k];
        }
      }
    }
  }

  /** A piece that does not start with the separator, followed by a piece
      free of it, is free of it too, when it is how the text begins. */
  lemma FirstPieceFree(s: string, sep: string, q: string)
    requires |sep| > 0 && |sep| <= |s| && s[..|sep|] != sep
    requires 1 + |q| <= |s| && s[1..1 + |q|] == q && !Contains(q, sep)
    ensures !Contains([s[0]] + q, sep)
  {
    var p := [s[0]] + q;
    assert s[..|p|] == p;
    forall i | 0 <= i <= |p| ensures !MatchesAt(p, sep, i) {
      if i > 0 && MatchesAt(p, sep, i) {
        assert p[i..i + |sep|] == q[i - 1..i - 1 + |sep|];
        assert MatchesAt(q, sep, i - 1);
      }
    }
  }

  /** A joined text starts with its first line, and what follows is the
      separator and the rest joined, if there is a rest. */
  lemma JoinHead(lines: seq<string>, sep: string)
    requires |lines| >= 1
    ensures Join(lines, sep) == lines[0] + (if |lines| == 1 then "" else sep + Join(lines[1..], sep))
  {
  }

  lemma {:induction false} ReplaceCharAppend(a: string, b: string, c: char, rep: string)
    ensures ReplaceChar(a + b, c, rep) == ReplaceChar(a, c, rep) + ReplaceChar(b, c, rep)
    decreases |a|
  {
    if |a| > 0 {
      assert (a + b)[1..] == a[1..] + b;
      ReplaceCharAppend(a[1..], b, c, rep);
    } else {
      assert a + b == b;
    }
  }

  lemma {:induction false} ReplaceCharAbsent(s: string, c: char, rep: string)
    requires c !in s
    ensures ReplaceChar(s, c, rep) == s
    decreases |s|
  {
    if |s| > 0 {
      ReplaceCharAbsent(s[1..], c, rep);
      assert [s[0]] + s[1..] == s;
    }
  }

  lemma {:induction false} ReplaceCharRemoves(s: string, c: char, rep: string)
    requires c !in rep
    ensures c !in ReplaceChar(s, c, rep)
    decreases |s|
  {
    if |s| > 0 {
      ReplaceCharRemoves(s[1..], c, rep);
    }
  }

  lemma {:induction false} ReplaceCharKeeps(s: string, c: char, rep: string, d: char)
    requires d !in s && d !in rep
    ensures d !in ReplaceChar(s, c, rep)
    decreases |s|
  {
    if |s| > 0 {
      ReplaceCharKeeps(s[1..], c, rep, d);
    }
  }
}

=== FILE: target_options.dfy ===
/** The target architecture: the `arch` option when it is set, the host's
    otherwise, and the architecture tests applied to it. */
module TargetOptions {
  import opened Wrappers
  import opened OptionBag
  import Environment

  /** `TargetOptions.arch`: `options.arch || Environment.arch`. */
  function Arch(opts: Options, hostArch: string): (r: string)
    ensures Truthy(opts.arch) ==> r == opts.arch.value
    ensures !Truthy(opts.arch) ==> r == hostArch
  {
    OrDefault(opts.arch, hostArch)
  }

  predicate IsX86(opts: Options, hostArch: string) { Environment.IsX86(Arch(opts, hostArch)) }
  predicate IsX64(opts: Options, hostArch: string) { Environment.IsX64(Arch(opts, hostArch)) }
  predicate IsArm(opts: Options, hostArch: string) { Environment.IsArm(Arch(opts, hostArch)) }

  /** The target tests are decided by the override when it is set: "ia32" or
      "x86" is x86, "x64" is x64, "arm" is arm; at most one holds, and
      "arm64" satisfies none of them. */
  lemma TargetArchTests(opts: Options, hostArch: string)
    ensures Truthy(opts.arch) ==>
      (IsX86(opts, hostArch) <==> opts.arch.value in {"ia32", "x86"})
      && (IsX64(opts, hostArch) <==> opts.arch.value == "x64")
      && (IsArm(opts, hostArch) <==> opts.arch.value == "arm")
    ensures !(IsX86(opts, hostArch) && IsX64(opts, hostArch))
    ensures !(IsX86(opts, hostArch) && IsArm(opts, hostArch))
    ensures !(IsX64(opts, hostArch) && IsArm(opts, hostArch))
    ensures Arch(opts, hostArch) == "arm64" ==>
      !IsX86(opts, hostArch) && !IsX64(opts, hostArch) && !IsArm(opts, hostArch)
  {
    Environment.ArchesExclusive(Arch(opts, hostArch));
  }
}

=== FILE: toolset.dfy ===
/** The toolset resolver: picks the compilers, the generator, the Visual
    Studio platform and the compiler and linker flags, once per Toolset
    object. The decision procedure is stated by the functions below over
    a value `ToolsetState`; the class `Toolset` updates its fields in place
    and is proved to follow them. */
module Toolset {
  import opened Wrappers
  import opened Strings
  import opened OptionBag
  import opened Errors
  import opened Environment
  import opened Generators
  import TargetOptions

  datatype ToolsetState = ToolsetState(
    generator: Option<string>,
    platform: Option<string>,
    cCompilerPath: Option<string>,
    cppCompilerPath: Option<string>,
    makePath: Option<string>,
    compilerFlags: seq<string>,
    linkerFlags: seq<string>,
    initialized: bool)

  /** The toolset and the probe caches after a step, and whether it threw. */
  datatype Step = Step(ts: ToolsetState, probes: ProbeState, out: Outcome<Error>)

  const MacCompilerFlags: seq<string> := ["-D_DARWIN_USE_64_BIT_INODE=1", "-D_LARGEFILE_SOURCE", "-D_FILE_OFFSET_BITS=64"]
  const MacLinkerFlag: string := "-undefined dynamic_lookup"
  const NodeExtensionFlag: string := "-DBUILDING_NODE_EXTENSION"
  const DelayLoadFlag: string := "/DELAYLOAD:NODE.EXE"
  const SafeSehFlag: string := "/SAFESEH:NO"

  /** The state the constructor leaves: generator and platform null whatever
      the options say; compiler paths and make path copied; flag lists
      copied or empty. */
  function Fresh(opts: Options): ToolsetState {
    ToolsetState(None, None, opts.cCompilerPath, opts.cppCompilerPath, opts.makePath,
                 opts.compilerFlags.GetOr([]), opts.linkerFlags.GetOr([]), false)
  }

  // ---- POSIX ----

  function GnuPreference(opts: Options, which: Tool -> WhichResult, ts: ToolsetState, ps: ProbeState): Step {
    if opts.preferGnu then
      var gpp := Probe(ps, which, Gpp);
      if IsTruthy(gpp.0) then
        Step(ts.(cppCompilerPath := Some(OrDefault(ts.cppCompilerPath, "g++")),
                 cCompilerPath := Some(OrDefault(ts.cCompilerPath, "gcc"))), gpp.1, Pass)
      else Step(ts, gpp.1, Pass)
    else Step(ts, ps, Pass)
  }

  function PreferredCompiler(opts: Options, which: Tool -> WhichResult, ts: ToolsetState, ps: ProbeState): Step {
    if opts.preferClang then
      var clang := Probe(ps, which, Clang);
      if IsTruthy(clang.0) then
        Step(ts.(cppCompilerPath := Some(OrDefault(ts.cppCompilerPath, "clang++")),
                 cCompilerPath := Some(OrDefault(ts.cCompilerPath, "clang"))), clang.1, Pass)
      else GnuPreference(opts, which, ts, clang.1)
    else GnuPreference(opts, which, ts, ps)
  }

  /** Step 1 of initializePosix: only when a compiler path is unset. */
  function CompilerStep(opts: Options, host: Host, which: Tool -> WhichResult, ts: ToolsetState, ps: ProbeState): Step {
    if Truthy(ts.cCompilerPath) && Truthy(ts.cppCompilerPath) then Step(ts, ps, Pass)
    else
      var gpp := Probe(ps, which, Gpp);
      if !IsTruthy(gpp.0) then
        var clang := Probe(gpp.1, which, Clang);
        if !IsTruthy(clang.0) then Step(ts, clang.1, Fail(CompilerNotAvailable(IsOSX(host.platform))))
        else PreferredCompiler(opts, which, ts, clang.1)
      else PreferredCompiler(opts, which, ts, gpp.1)
  }

  function MakeOrNinja(opts: Options, which: Tool -> WhichResult, ts: ToolsetState, ps: ProbeState): Step {
    var make := Probe(ps, which, Make);
    if opts.preferMake && IsTruthy(make.0) then Step(ts.(generator := Some("Unix Makefiles")), make.1, Pass)
    else
      var ps1 := if opts.preferMake then make.1 else ps;
      var ninja := Probe(ps1, which, Ninja);
      if IsTruthy(ninja.0) then Step(ts.(generator := Some("Ninja")), ninja.1, Pass)
      else Step(ts.(generator := Some("Unix Makefiles")), ninja.1, Pass)
  }

  /** Step 2 of initializePosix: the generator. */
  function GeneratorStep(opts: Options, host: Host, which: Tool -> WhichResult, ts: ToolsetState, ps: ProbeState): Step {
    if Truthy(ts.generator) then Step(ts, ps, Pass)
    else if IsOSX(host.platform) && opts.preferXcode then Step(ts.(generator := Some("Xcode")), ps, Pass)
    else MakeOrNinja(opts, which, ts, ps)
  }

  /** Step 3 of initializePosix: the flags. */
  function PosixFlags(host: Host, ts: ToolsetState): ToolsetState {
    ts.(compilerFlags := ts.compilerFlags + (if IsOSX(host.platform) then MacCompilerFlags else []) + [NodeExtensionFlag],
        linkerFlags := ts.linkerFlags + (if IsOSX(host.platform) then [MacLinkerFlag] else []))
  }

  function InitializePosixSpec(opts: Options, host: Host, which: Tool -> WhichResult, ts: ToolsetState, ps: ProbeState): Step {
    var c := CompilerStep(opts, host, which, ts, ps);
    if c.out.Fail? then c
    else
      var g := GeneratorStep(opts, host, which, c.ts, c.probes);
      Step(PosixFlags(host, g.ts), g.probes, Pass)
  }

  // ---- Windows ----

  function VsPrefix(vsMajor: nat): string {
    "Visual Studio " + NatToString(vsMajor)
  }

  /** A generator is accepted for the selected Visual Studio: its name starts
      with "Visual Studio N", and below version 16 its "Win64" suffix agrees
      with an x86 or x64 target. */
  predicate VsMatch(gen: string, vsMajor: nat, arch: string) {
    StartsWith(gen, VsPrefix(vsMajor))
    && (vsMajor >= 16 || !((IsX86(arch) && EndsWith(gen, "Win64")) || (IsX64(arch) && !EndsWith(gen, "Win64"))))
  }

  /** The first accepted generator at or after `from`, in list order. */
  function FirstVsFrom(list: seq<string>, from: nat, vsMajor: nat, arch: string): (r: Option<string>)
    requires from <= |list|
    ensures r.Some? ==> exists i :: from <= i < |list| && list[i] == r.value && VsMatch(list[i], vsMajor, arch)
                                    && forall j :: from <= j < i ==> !VsMatch(list[j], vsMajor, arch)
    ensures r.None? ==> forall j :: from <= j < |list| ==> !VsMatch(list[j], vsMajor, arch)
    decreases |list| - from
  {
    if from == |list| then None
    else if VsMatch(list[from], vsMajor, arch) then Some(list[from])
    else FirstVsFrom(list, from + 1, vsMajor, arch)
  }

  function TopVsSpec(opts: Options, host: Host): Result<Option<string>, Error> {
    var gens := GeneratorsSpec(opts, host);
    if gens.Failure? then Failure(gens.error)
    else Success(FirstVsFrom(gens.value, 0, host.vsMajor, TargetOptions.Arch(opts, host.arch)))
  }

  /** The generator platform for Visual Studio 16 and later. */
  function VsPlatform(arch: string): (r: Option<string>)
    ensures IsX86(arch) ==> r == Some("Win32")
    ensures arch == "x64" ==> r == Some("x64")
    ensures arch == "arm" ==> r == Some("ARM")
    ensures arch == "arm64" ==> r == Some("ARM64")
    ensures r.None? <==> arch !in {"ia32", "x86", "x64", "arm", "arm64"}
  {
    if arch == "ia32" || arch == "x86" then Some("Win32")
    else if arch == "x64" then Some("x64")
    else if arch == "arm" then Some("ARM")
    else if arch == "arm64" then Some("ARM64")
    else None
  }

  function WinFlags(opts: Options, host: Host, ts: ToolsetState): ToolsetState {
    ts.(linkerFlags := ts.linkerFlags + [DelayLoadFlag]
                       + (if TargetOptions.IsX86(opts, host.arch) then [SafeSehFlag] else []))
  }

  function InitializeWinSpec(opts: Options, host: Host, ts: ToolsetState, ps: ProbeState): Step {
    if !Truthy(ts.generator) then
      var found := TopVsSpec(opts, host);
      if found.Failure? then Step(ts, ps, Fail(found.error))
      else if found.value.None? then Step(ts, ps, Fail(NoVisualCpp))
      else
        var ts1 := ts.(generator := found.value);
        var mapped := VsPlatform(TargetOptions.Arch(opts, host.arch));
        var ts2 := if !Truthy(ts1.platform) && host.vsMajor >= 16 && mapped.Some?
                   then ts1.(platform := mapped) else ts1;
        Step(WinFlags(opts, host, ts2), ps, Pass)
    else Step(WinFlags(opts, host, ts), ps, Pass)
  }

  /** `initialize()`: the platform's procedure, once. A Windows failure
      propagates and leaves the toolset uninitialised; the POSIX procedure is
      not awaited, so its outcome is not observed. */
  function InitializeSpec(opts: Options, host: Host, which: Tool -> WhichResult, ts: ToolsetState, ps: ProbeState): Step {
    if ts.initialized then Step(ts, ps, Pass)
    else if IsWin(host.platform) then
      var w := InitializeWinSpec(opts, host, ts, ps);
      if w.out.Fail? then w else Step(w.ts.(initialized := true), w.probes, Pass)
    else
      var p := InitializePosixSpec(opts, host, which, ts, ps);
      Step(p.ts.(initialized := true), p.probes, Pass)
  }

  // ---- properties ----

  /** After a successful first call the toolset is initialised and every
      later call changes nothing; in particular flags are never appended
      twice. A failing call leaves the toolset uninitialised. */
  lemma InitializeIdempotent(opts: Options, host: Host, which: Tool -> WhichResult, ts: ToolsetState, ps: ProbeState)
    ensures ts.initialized ==> InitializeSpec(opts, host, which, ts, ps) == Step(ts, ps, Pass)
    ensures var s1 := InitializeSpec(opts, host, which, ts, ps);
      (s1.out.Pass? ==> s1.ts.initialized && InitializeSpec(opts, host, which, s1.ts, s1.probes) == Step(s1.ts, s1.probes, Pass))
      && (s1.out.Fail? ==> !s1.ts.initialized)
  {
  }

  /** The POSIX "compiler toolset is not available" error cannot be raised:
      the availability getters return records, which are always truthy. */
  lemma PosixNeverFails(opts: Options, host: Host, which: Tool -> WhichResult, ts: ToolsetState, ps: ProbeState)
    ensures InitializePosixSpec(opts, host, which, ts, ps).out == Pass
    ensures !IsWin(host.platform) ==> InitializeSpec(opts, host, which, ts, ps).out == Pass
  {
  }

  /** The generator the POSIX procedure picks for a toolset without one. */
  function ExpectedPosixGenerator(opts: Options, platform: string): string {
    if IsOSX(platform) && opts.preferXcode then "Xcode"
    else if opts.preferMake then "Unix Makefiles"
    else "Ninja"
  }

  /** POSIX generator choice: macOS takes Xcode when preferred, then Unix
      Makefiles when make is preferred, then Ninja; other POSIX systems the
      same without Xcode. The last-resort Unix Makefiles is never reached. A
      generator already set is kept. */
  lemma PosixGenerator(opts: Options, host: Host, which: Tool -> WhichResult, ts: ToolsetState, ps: ProbeState)
    requires !IsWin(host.platform) && !ts.initialized
    ensures var g := InitializeSpec(opts, host, which, ts, ps).ts.generator;
      (Truthy(ts.generator) ==> g == ts.generator)
      && (!Truthy(ts.generator) ==> g == Some(ExpectedPosixGenerator(opts, host.platform)))
  {
  }

  /** POSIX compiler choice: nothing happens when both paths are set;
      otherwise preferClang fills only the unset paths with clang++/clang,
      else preferGnu with g++/gcc, else the paths stay as they are. A set
      path is never overwritten. */
  lemma PosixCompilers(opts: Options, host: Host, which: Tool -> WhichResult, ts: ToolsetState, ps: ProbeState)
    requires !IsWin(host.platform) && !ts.initialized
    ensures var r := InitializeSpec(opts, host, which, ts, ps).ts;
      var both := Truthy(ts.cCompilerPath) && Truthy(ts.cppCompilerPath);
      (Truthy(ts.cppCompilerPath) ==> r.cppCompilerPath == ts.cppCompilerPath)
      && (Truthy(ts.cCompilerPath) ==> r.cCompilerPath == ts.cCompilerPath)
      && (!both && opts.preferClang ==>
            r.cppCompilerPath == Some(OrDefault(ts.cppCompilerPath, "clang++"))
            && r.cCompilerPath == Some(OrDefault(ts.cCompilerPath, "clang")))
      && (!both && !opts.preferClang && opts.preferGnu ==>
            r.cppCompilerPath == Some(OrDefault(ts.cppCompilerPath, "g++"))
            && r.cCompilerPath == Some(OrDefault(ts.cCompilerPath, "gcc")))
      && (both || (!opts.preferClang && !opts.preferGnu) ==>
            r.cppCompilerPath == ts.cppCompilerPath && r.cCompilerPath == ts.cCompilerPath)
  {
  }

  /** POSIX flags: on macOS the three compatibility compiler flags and the
      dynamic-lookup linker flag are appended; the node-extension define is
      appended last on every POSIX target, after the user's flags. */
  lemma PosixFlagsAppended(opts: Options, host: Host, which: Tool -> WhichResult, ts: ToolsetState, ps: ProbeState)
    requires !IsWin(host.platform) && !ts.initialized
    ensures var r := InitializeSpec(opts, host, which, ts, ps).ts;
      r.compilerFlags == ts.compilerFlags + (if IsOSX(host.platform) then MacCompilerFlags else []) + [NodeExtensionFlag]
      && r.linkerFlags == ts.linkerFlags + (if IsOSX(host.platform) then [MacLinkerFlag] else [])
      && r.compilerFlags[|r.compilerFlags| - 1] == NodeExtensionFlag
      && r.compilerFlags[..|ts.compilerFlags|] == ts.compilerFlags
  {
    var c := CompilerStep(opts, host, which, ts, ps);
    StepsKeepFlags(opts, host, which, ts, ps);
    var g := GeneratorStep(opts, host, which, c.ts, c.probes);
    StepsKeepFlags(opts, host, which, c.ts, c.probes);
    var r := InitializeSpec(opts, host, which, ts, ps).ts;
    assert r == PosixFlags(host, g.ts).(initialized := true);
    assert r.compilerFlags[..|ts.compilerFlags|] == ts.compilerFlags;
  }

  /** The compiler and generator steps pass and leave both flag lists alone. */
  lemma StepsKeepFlags(opts: Options, host: Host, which: Tool -> WhichResult, ts: ToolsetState, ps: ProbeState)
    ensures var c := CompilerStep(opts, host, which, ts, ps);
      c.out == Pass && c.ts.compilerFlags == ts.compilerFlags && c.ts.linkerFlags == ts.linkerFlags
    ensures var g := GeneratorStep(opts, host, which, ts, ps);
      g.ts.compilerFlags == ts.compilerFlags && g.ts.linkerFlags == ts.linkerFlags
  {
  }

  /** Windows: a toolset without a generator takes the first accepted Visual
      Studio generator; from version 16 on, an unset platform is mapped from
      the target arch (unknown arches leave it unset). The delay-load flag is
      always appended, SAFESEH:NO after it exactly for x86 targets. When no
      generator is accepted the call fails with "no Visual C++" and changes
      nothing. */
  lemma WindowsChoice(opts: Options, host: Host, which: Tool -> WhichResult, ps: ProbeState)
    requires IsWin(host.platform)
    ensures var ts := Fresh(opts);
      var arch := TargetOptions.Arch(opts, host.arch);
      var s := InitializeSpec(opts, host, which, ts, ps);
      match TopVsSpec(opts, host)
      case Failure(e) => s == Step(ts, ps, Fail(e))
      case Success(None) => s == Step(ts, ps, Fail(NoVisualCpp))
      case Success(Some(g)) =>
        s.out == Pass && s.ts.generator == Some(g)
        && s.ts.platform == (if host.vsMajor >= 16 then VsPlatform(arch) else None)
        && s.ts.linkerFlags == opts.linkerFlags.GetOr([]) + [DelayLoadFlag]
                               + (if IsX86(arch) then [SafeSehFlag] else [])
  {
  }

  /** On every platform a successful initialisation of a fresh toolset
      leaves exactly one generator selected. */
  lemma InitializedHasGenerator(opts: Options, host: Host, which: Tool -> WhichResult, ps: ProbeState)
    ensures var s := InitializeSpec(opts, host, which, Fresh(opts), ps);
      s.out.Pass? ==> s.ts.generator.Some? && s.ts.initialized
  {
  }

  class Toolset {
    const opts: Options
    const host: Host
    var generator: Option<string>
    var platform: Option<string>
    var cCompilerPath: Option<string>
    var cppCompilerPath: Option<string>
    var makePath: Option<string>
    var compilerFlags: seq<string>
    var linkerFlags: seq<string>
    var initialized: bool

    function State(): ToolsetState
      reads this
    {
      ToolsetState(generator, platform, cCompilerPath, cppCompilerPath, makePath, compilerFlags, linkerFlags, initialized)
    }

    constructor(opts: Options, host: Host)
      ensures this.opts == opts && this.host == host
      ensures State() == Fresh(opts)
    {
      this.opts := opts;
      this.host := host;
      initialized := false;
      cCompilerPath := opts.cCompilerPath;
      cppCompilerPath := opts.cppCompilerPath;
      makePath := opts.makePath;
      compilerFlags := opts.compilerFlags.GetOr([]);
      linkerFlags := opts.linkerFlags.GetOr([]);
      platform := None;
      generator := None;
    }

    method Initialize(probes: Probes) returns (r: Outcome<Error>)
      modifies this, probes
      ensures Step(State(), probes.State(), r) == InitializeSpec(opts, host, probes.which, old(State()), old(probes.State()))
    {
      r := Pass;
      if !initialized {
        if IsWin(host.platform) {
          r := InitializeWin(probes);
          if r.Fail? {
            return;
          }
        } else {
          // not awaited: whatever it returns is not observed
          var _ := InitializePosix(probes);
        }
        initialized := true;
      }
    }

    method InitializePosix(probes: Probes) returns (r: Outcome<Error>)
      modifies this, probes
      ensures Step(State(), probes.State(), r) == InitializePosixSpec(opts, host, probes.which, old(State()), old(probes.State()))
    {
      // 1: compiler
      ghost var c := CompilerStep(opts, host, probes.which, State(), probes.State());
      SelectCompiler(probes);
      assert c == Step(State(), probes.State(), Pass);
      // 2: generator
      ghost var g := GeneratorStep(opts, host, probes.which, c.ts, c.probes);
      SelectGenerator(probes);
      assert g == Step(State(), probes.State(), Pass);
      // 3: flags
      if IsOSX(host.platform) {
        compilerFlags := compilerFlags + MacCompilerFlags;
        linkerFlags := linkerFlags + [MacLinkerFlag];
      }
      compilerFlags := compilerFlags + [NodeExtensionFlag];
      assert State() == PosixFlags(host, g.ts);
      r := Pass;
    }

    /** Step 1 of `initializePosix`, which never fails. */
    method SelectCompiler(probes: Probes)
      modifies this, probes
      ensures Step(State(), probes.State(), Pass) == CompilerStep(opts, host, probes.which, old(State()), old(probes.State()))
    {
      if !Truthy(cCompilerPath) || !Truthy(cppCompilerPath) {
        // `!isGPPAvailable && !isClangAvailable` tests a record, which is
        // truthy: the first test is false and the not-installed error is
        // never raised.
        var gpp := probes.Get(Gpp);
        if opts.preferClang {
          // `isClangAvailable` is a truthy record as well
          var clang := probes.Get(Clang);
          cppCompilerPath := Some(OrDefault(cppCompilerPath, "clang++"));
          cCompilerPath := Some(OrDefault(cCompilerPath, "clang"));
        } else if opts.preferGnu {
          var gpp2 := probes.Get(Gpp);
          cppCompilerPath := Some(OrDefault(cppCompilerPath, "g++"));
          cCompilerPath := Some(OrDefault(cCompilerPath, "gcc"));
        }
      }
    }

    /** Step 2 of `initializePosix`; the final "Unix Makefiles" fallbacks
        follow a truthy `isNinjaAvailable` test and are never reached. */
    method SelectGenerator(probes: Probes)
      modifies this, probes
      ensures Step(State(), probes.State(), Pass) == GeneratorStep(opts, host, probes.which, old(State()), old(probes.State()))
    {
      if Truthy(generator) {
      } else if IsOSX(host.platform) && opts.preferXcode {
        generator := Some("Xcode");
      } else if opts.preferMake {
        var make := probes.Get(Make);
        generator := Some("Unix Makefiles");
      } else {
        var ninja := probes.Get(Ninja);
        generator := Some("Ninja");
      }
    }

    method InitializeWin(probes: Probes) returns (r: Outcome<Error>)
      modifies this
      ensures Step(State(), probes.State(), r) == InitializeWinSpec(opts, host, old(State()), probes.State())
    {
      var noGenerator := !Truthy(generator);
      if noGenerator {
        var foundVs := TopSupportedVisualStudioGenerator();
        if foundVs.Failure? {
          return Fail(foundVs.error);
        }
        if foundVs.value.None? {
          return Fail(NoVisualCpp);
        }
        generator := foundVs.value;
        var isAboveVS16 := host.vsMajor >= 16;
        if !Truthy(platform) && isAboveVS16 {
          var arch := TargetOptions.Arch(opts, host.arch);
          if arch == "ia32" || arch == "x86" {
            platform := Some("Win32");
          } else if arch == "x64" {
            platform := Some("x64");
          } else if arch == "arm" {
            platform := Some("ARM");
          } else if arch == "arm64" {
            platform := Some("ARM64");
          }
          // any other arch: only a warning
        }
      }
      linkerFlags := linkerFlags + [DelayLoadFlag];
      if TargetOptions.IsX86(opts, host.arch) {
        linkerFlags := linkerFlags + [SafeSehFlag];
      }
      r := Pass;
    }

    /** The first generator of the list, in list order, accepted for the
        selected Visual Studio; None when nothing matches; the list query's
        error when it fails. */
    method TopSupportedVisualStudioGenerator() returns (r: Result<Option<string>, Error>)
      ensures r == TopVsSpec(opts, host)
      ensures GeneratorsSpec(opts, host).Failure? ==> r == Failure(GeneratorsSpec(opts, host).error)
      ensures GeneratorsSpec(opts, host).Success? ==>
        var list := GeneratorsSpec(opts, host).value;
        var arch := TargetOptions.Arch(opts, host.arch);
        r.Success?
        && (r.value.Some? ==> exists i :: 0 <= i < |list| && list[i] == r.value.value
                                   && VsMatch(list[i], host.vsMajor, arch)
                                   && forall j :: 0 <= j < i ==> !VsMatch(list[j], host.vsMajor, arch))
        && (r.value.None? ==> forall j :: 0 <= j < |list| ==> !VsMatch(list[j], host.vsMajor, arch))
    {
      var gens := GetGenerators(opts, host);
      if gens.Failure? {
        return Failure(gens.error);
      }
      var list := gens.value;
      var arch := TargetOptions.Arch(opts, host.arch);
      var i := 0;
      while i < |list|
        invariant 0 <= i <= |list|
        invariant FirstVsFrom(list, i, host.vsMajor, arch) == FirstVsFrom(list, 0, host.vsMajor, arch)
      {
        var gen := list[i];
        var found := StartsWith(gen, VsPrefix(host.vsMajor));
        if !found {
          i := i + 1;
          continue;
        }
        // unlike earlier versions, "Visual Studio 16 2019" and later carry no arch suffix
        var isAboveVS16 := host.vsMajor >= 16;
        if !isAboveVS16 {
          var is64Bit := EndsWith(gen, "Win64");
          if (IsX86(arch) && is64Bit) || (IsX64(arch) && !is64Bit) {
            i := i + 1;
            continue;
          }
        }
        return Success(Some(gen));
      }
      return Success(None);
    }
  }
}

=== FILE: transformfile.dfy ===
/** Marker-based line transformation: each variable name, wrapped in a start
    and an end marker, selects the lines that contain it, and its match
    operation decides what those lines become. The transformations run one
    after another in key order, each over the previous one's output. */
module TransformFile {
  import opened Wrappers
  import opened Strings
  import opened WriteFile

  datatype MatchOperation =
    | ReplaceLines
    | ReplaceMatchingPortion
    | DeleteLines
    | DeleteMatchingPortion
    | ReturnMatchingLines
    | ReturnMatchingPortions
    | PrintLines
    | UnknownOp  // any other value: the switch's default branch

  /** A string or an array of strings. */
  datatype OpParam = Text(text: string) | Lines(lines: seq<string>)

  datatype ReplaceVar = ReplaceVar(op: MatchOperation, opParam: OpParam)

  /** A value of the variables dictionary: a string, an array of strings, or
      a full replace variable. */
  datatype VarValue = PlainText(text: string) | PlainLines(lines: seq<string>) | Full(rv: ReplaceVar)

  /** A dictionary as its entries in key order. */
  type Vars = seq<(string, VarValue)>
  type Transformations = seq<(string, ReplaceVar)>

  /** `splitFileLines(content)`: split on "\n" or "\r\n", whichever matches
      first at each position. */
  function SplitFileLines(s: string): (r: seq<string>)
    ensures |r| >= 1
    ensures forall i :: 0 <= i < |r| ==> '\n' !in r[i]
    decreases |s|
  {
    if |s| == 0 then [""]
    else if s[0] == '\n' then [""] + SplitFileLines(s[1..])
    else if |s| >= 2 && s[0] == '\r' && s[1] == '\n' then [""] + SplitFileLines(s[2..])
    else
      var rest := SplitFileLines(s[1..]);
      [[s[0]] + rest[0]] + rest[1..]
  }

  lemma {:induction false} SplitFileLinesSingle(a: string)
    requires '\n' !in a
    ensures SplitFileLines(a) == [a]
    decreases |a|
  {
    if |a| > 0 {
      SplitFileLinesSingle(a[1..]);
      assert [a[0]] + a[1..] == a;
    }
  }

  lemma {:induction false} SplitFileLinesAfter(a: string, sep: string, b: string)
    requires '\n' !in a && (sep == "\n" || sep == "\r\n")
    requires sep == "\n" ==> |a| == 0 || a[|a| - 1] != '\r'
    ensures SplitFileLines(a + sep + b) == [a] + SplitFileLines(b)
    decreases |a|
  {
    var s := a + sep + b;
    if |a| == 0 {
      assert s == sep + b;
      assert s[|sep|..] == b;
    } else {
      assert s[0] == a[0];
      assert s[1..] == a[1..] + sep + b;
      if |a| == 1 && a[0] == '\r' {
        assert sep == "\r\n";
        assert s[1] == '\r';
      }
      SplitFileLinesAfter(a[1..], sep, b);
      assert [s[0]] + a[1..] == a;
    }
  }

  /** Splitting undoes joining on "\r\n" for lines without "\n", and joining
      on "\n" for lines that also do not end in "\r". */
  lemma {:induction false} SplitFileLinesJoin(lines: seq<string>, sep: string)
    requires |lines| >= 1 && (sep == "\n" || sep == "\r\n")
    requires forall i :: 0 <= i < |lines| ==> '\n' !in lines[i]
    requires sep == "\n" ==> forall i :: 0 <= i < |lines| ==> !EndsWith(lines[i], "\r")
    ensures SplitFileLines(Join(lines, sep)) == lines
    decreases |lines|
  {
    if |lines| == 1 {
      SplitFileLinesSingle(lines[0]);
    } else {
      SplitFileLinesJoin(lines[1..], sep);
      if sep == "\n" && |lines[0]| > 0 {
        assert lines[0][|lines[0]| - 1..] == [lines[0][|lines[0]| - 1]];
      }
      SplitFileLinesAfter(lines[0], sep, Join(lines[1..], sep));
      assert [lines[0]] + lines[1..] == lines;
    }
  }

  /** Text without "\r" splits exactly as on "\n". */
  lemma {:induction false} SplitFileLinesUnix(s: string)
    requires '\r' !in s
    ensures SplitFileLines(s) == Split(s, "\n")
    decreases |s|
  {
    if |s| > 0 {
      SplitFileLinesUnix(s[1..]);
      if s[0] == '\n' {
        assert s[..1] == "\n";
      } else {
        assert s[..1] != "\n" by { assert s[..1][0] == s[0]; }
      }
    }
  }

  /** `mapVarsToOps(op, vars)`: a string or an array becomes a replace
      variable with the default operation; a replace variable is kept. */
  function MapVarsToOps(op: MatchOperation, vars: Vars): (r: Transformations)
    ensures |r| == |vars|
    ensures forall i :: 0 <= i < |vars| ==> r[i].0 == vars[i].0
    ensures forall i :: 0 <= i < |vars| ==>
      match vars[i].1
      case PlainText(t) => r[i].1 == ReplaceVar(op, Text(t))
      case PlainLines(ls) => r[i].1 == ReplaceVar(op, Lines(ls))
      case Full(rv) => r[i].1 == rv
  {
    seq(|vars|, i requires 0 <= i < |vars| =>
      (vars[i].0, match vars[i].1
                  case PlainText(t) => ReplaceVar(op, Text(t))
                  case PlainLines(ls) => ReplaceVar(op, Lines(ls))
                  case Full(rv) => rv))
  }

  function MarkerOrEmpty(m: Option<string>): string {
    if m.Some? then m.value else ""
  }

  predicate IsReturnOp(op: MatchOperation) {
    op == ReturnMatchingLines || op == ReturnMatchingPortions
  }

  /** Non-matching lines are kept unless some transformation returns
      matching lines or portions. */
  predicate KeepsNonMatching(ts: Transformations) {
    forall k :: 0 <= k < |ts| ==> !IsReturnOp(ts[k].1.op)
  }

  /** What a matching line becomes. A missing first element of an array
      parameter is `undefined`, which the replace renders as "undefined".
      The portion-returning operation falls through to the line-returning
      one. */
  function MatchingLineOutput(rv: ReplaceVar, fullName: string, line: string): seq<string> {
    match rv.op
    case DeleteLines => []
    case PrintLines => []
    case ReplaceLines => (match rv.opParam case Text(t) => [t] case Lines(ls) => ls)
    case DeleteMatchingPortion => [ReplaceFirst(line, fullName, "")]
    case ReplaceMatchingPortion =>
      (match rv.opParam
       case Text(t) => [ReplaceFirst(line, fullName, t)]
       case Lines(ls) =>
         var first := if |ls| == 0 then "undefined" else ls[0];
         [ReplaceFirst(line, fullName, first)] + (if |ls| > 1 then ls[1..] else []))
    case ReturnMatchingPortions => [line]
    case ReturnMatchingLines => [line]
    case UnknownOp => [line]
  }

  /** What line `line` becomes under one transformation. */
  function LineOutput(rv: ReplaceVar, fullName: string, keep: bool, line: string): seq<string> {
    if Contains(line, fullName) then MatchingLineOutput(rv, fullName, line)
    else if keep then [line] else []
  }

  /** One transformation over the first `n` lines. */
  function Pass(lines: seq<string>, n: nat, rv: ReplaceVar, fullName: string, keep: bool): seq<string>
    requires n <= |lines|
  {
    if n == 0 then []
    else Pass(lines, n - 1, rv, fullName, keep) + LineOutput(rv, fullName, keep, lines[n - 1])
  }

  /** The first `k` transformations, in order, each over the output of the
      one before. */
  function ApplyAll(lines: seq<string>, ts: Transformations, k: nat, start: string, end: string, keep: bool): seq<string>
    requires k <= |ts|
  {
    if k == 0 then lines
    else
      var prev := ApplyAll(lines, ts, k - 1, start, end, keep);
      Pass(prev, |prev|, ts[k - 1].1, start + ts[k - 1].0 + end, keep)
  }

  /** `transformLines(fileName, lines, startMarker, endMarker, transformations)`;
      a null marker counts as "". */
  function TransformLinesSpec(lines: seq<string>, startMarker: Option<string>, endMarker: Option<string>, ts: Transformations): seq<string> {
    ApplyAll(lines, ts, |ts|, MarkerOrEmpty(startMarker), MarkerOrEmpty(endMarker), KeepsNonMatching(ts))
  }

  /** The nested loops of `transformLines`: transformation by transformation,
      line by line, pushing onto a fresh `newLines` and then carrying it
      over as the next round's input. The "Matching lines in" log line and
      the per-line log of the printing operation are not modelled. */
  method TransformLines(lines: seq<string>, startMarker: Option<string>, endMarker: Option<string>, ts: Transformations)
    returns (newLines: seq<string>)
    ensures newLines == TransformLinesSpec(lines, startMarker, endMarker, ts)
  {
    var start := MarkerOrEmpty(startMarker);
    var end := MarkerOrEmpty(endMarker);
    // the filter over the operations: no `RETURN_*` operation among them
    var returnNonMatching := KeepsNonMatching(ts);
    var current := lines;
    newLines := lines;
    var ii := 0;
    while ii < |ts|
      invariant 0 <= ii <= |ts|
      invariant newLines == current == ApplyAll(lines, ts, ii, start, end, returnNonMatching)
    {
      newLines := TransformPass(current, ts[ii].1, start + ts[ii].0 + end, returnNonMatching);
      current := newLines;
      ii := ii + 1;
    }
  }

  /** One round of the outer loop: line by line onto a fresh list. */
  method TransformPass(current: seq<string>, rv: ReplaceVar, fullName: string, returnNonMatching: bool)
    returns (newLines: seq<string>)
    ensures newLines == Pass(current, |current|, rv, fullName, returnNonMatching)
  {
    newLines := [];
    var i := 0;
    while i < |current|
      invariant 0 <= i <= |current|
      invariant newLines == Pass(current, i, rv, fullName, returnNonMatching)
    {
      var out := TransformLine(rv, fullName, returnNonMatching, current[i]);
      newLines := newLines + out;
      i := i + 1;
    }
  }

  /** The body of the inner loop: the switch on the operation for a line
      that contains the marked name, or the line itself when non-matching
      lines are kept. */
  method TransformLine(rv: ReplaceVar, fullName: string, returnNonMatching: bool, line: string) returns (out: seq<string>)
    ensures out == LineOutput(rv, fullName, returnNonMatching, line)
    ensures !Contains(line, fullName) ==> out == (if returnNonMatching then [line] else [])
  {
    out := [];
    if IndexOf(line, fullName) > -1 {
      match rv.op {
        case DeleteLines =>
        case PrintLines =>
        case ReplaceLines =>
          match rv.opParam {
            case Lines(ls) => out := ls;
            case Text(t) => out := [t];
          }
        case DeleteMatchingPortion =>
          out := [ReplaceFirst(line, fullName, "")];
        case ReplaceMatchingPortion =>
          match rv.opParam {
            case Lines(ls) =>
              var first := if |ls| == 0 then "undefined" else ls[0];
              out := [ReplaceFirst(line, fullName, first)];
              if |ls| > 1 {
                out := out + ls[1..];
              }
            case Text(t) =>
              out := [ReplaceFirst(line, fullName, t)];
          }
        case ReturnMatchingPortions =>
          out := [line];  // falls through to the next case
        case ReturnMatchingLines =>
          out := [line];
        case UnknownOp =>
          out := [line];
      }
    } else if returnNonMatching {
      out := [line];
    }
  }

  // ---- properties ----

  /** `Pass` over the first `n` lines only looks at those lines. */
  lemma {:induction false} PassSame(x: seq<string>, y: seq<string>, n: nat, rv: ReplaceVar, fullName: string, keep: bool)
    requires n <= |x| && n <= |y| && x[..n] == y[..n]
    ensures Pass(x, n, rv, fullName, keep) == Pass(y, n, rv, fullName, keep)
    decreases n
  {
    if n > 0 {
      assert x[..n - 1] == y[..n - 1];
      assert x[n - 1] == x[..n][n - 1] == y[..n][n - 1] == y[n - 1];
      PassSame(x, y, n - 1, rv, fullName, keep);
    }
  }

  lemma {:induction false} PassAppendUpTo(a: seq<string>, b: seq<string>, j: nat, rv: ReplaceVar, fullName: string, keep: bool)
    requires j <= |b|
    ensures Pass(a + b, |a| + j, rv, fullName, keep) == Pass(a, |a|, rv, fullName, keep) + Pass(b, j, rv, fullName, keep)
    decreases j
  {
    if j == 0 {
      assert (a + b)[..|a|] == a[..|a|];
      PassSame(a + b, a, |a|, rv, fullName, keep);
    } else {
      PassAppendUpTo(a, b, j - 1, rv, fullName, keep);
      assert (a + b)[|a| + j - 1] == b[j - 1];
    }
  }

  lemma PassAppend(a: seq<string>, b: seq<string>, rv: ReplaceVar, fullName: string, keep: bool)
    ensures Pass(a + b, |a + b|, rv, fullName, keep)
      == Pass(a, |a|, rv, fullName, keep) + Pass(b, |b|, rv, fullName, keep)
  {
    PassAppendUpTo(a, b, |b|, rv, fullName, keep);
  }

  /** One transformation works line by line: the output for a list of lines
      is the outputs of its lines, concatenated in order; a line that does
      not contain the marked name survives exactly when non-matching lines
      are kept. */
  lemma TransformIsLineByLine(a: seq<string>, b: seq<string>, line: string, rv: ReplaceVar, fullName: string, keep: bool)
    ensures Pass(a + b, |a + b|, rv, fullName, keep)
      == Pass(a, |a|, rv, fullName, keep) + Pass(b, |b|, rv, fullName, keep)
    ensures Pass([line], 1, rv, fullName, keep) == LineOutput(rv, fullName, keep, line)
    ensures !Contains(line, fullName) ==>
      Pass([line], 1, rv, fullName, keep) == (if keep then [line] else [])
  {
    PassAppend(a, b, rv, fullName, keep);
  }

  /** What each operation does to a line that contains the marked name `m`
      first at index `i`: the deleting and printing operations drop it, the
      line replacement emits the parameter's line or lines, the portion
      deletion cuts the first occurrence out, the portion replacement puts
      the parameter (or the array's first element, or "undefined" for an
      empty array) there and emits the array's other elements after it, and
      the returning operations and an unknown one keep the whole line. */
  lemma MatchingLineOutputs(rv: ReplaceVar, m: string, line: string)
    requires Contains(line, m)
    ensures var i := IndexOf(line, m);
      var out := LineOutput(rv, m, true, line);
      out == LineOutput(rv, m, false, line)
      && (rv.op == DeleteLines || rv.op == PrintLines ==> out == [])
      && (rv.op == ReplaceLines ==> out == (if rv.opParam.Text? then [rv.opParam.text] else rv.opParam.lines))
      && (rv.op == DeleteMatchingPortion ==> out == [line[..i] + line[i + |m|..]])
      && (rv.op == ReplaceMatchingPortion && rv.opParam.Text? ==>
            out == [line[..i] + rv.opParam.text + line[i + |m|..]])
      && (rv.op == ReplaceMatchingPortion && rv.opParam.Lines? && |rv.opParam.lines| > 0 ==>
            out == [line[..i] + rv.opParam.lines[0] + line[i + |m|..]] + rv.opParam.lines[1..])
      && (rv.op == ReplaceMatchingPortion && rv.opParam == Lines([]) ==>
            out == [line[..i] + "undefined" + line[i + |m|..]])
      && (IsReturnOp(rv.op) || rv.op == UnknownOp ==> out == [line])
  {
    var i := IndexOf(line, m);
    match rv.op {
      case DeleteMatchingPortion =>
        assert line[..i] + "" + line[i + |m|..] == line[..i] + line[i + |m|..];
      case ReplaceMatchingPortion =>
        if rv.opParam.Lines? && |rv.opParam.lines| == 1 {
          assert rv.opParam.lines[1..] == [];
        }
      case _ =>
    }
  }

  lemma {:induction false} ApplyAllAppend(lines: seq<string>, ts1: Transformations, ts2: Transformations, start: string, end: string, keep: bool, k: nat)
    requires k <= |ts2|
    ensures ApplyAll(lines, ts1 + ts2, |ts1| + k, start, end, keep)
      == ApplyAll(ApplyAll(lines, ts1, |ts1|, start, end, keep), ts2, k, start, end, keep)
    decreases k
  {
    if k == 0 {
      ApplyAllPrefix(lines, ts1 + ts2, ts1, |ts1|, start, end, keep);
    } else {
      ApplyAllAppend(lines, ts1, ts2, start, end, keep, k - 1);
      var t := ts2[k - 1];
      assert (ts1 + ts2)[|ts1| + k - 1] == t;
      var prev := ApplyAll(lines, ts1 + ts2, |ts1| + k - 1, start, end, keep);
      assert ApplyAll(lines, ts1 + ts2, |ts1| + k, start, end, keep)
        == Pass(prev, |prev|, t.1, start + t.0 + end, keep);
    }
  }

  lemma {:induction false} ApplyAllPrefix(lines: seq<string>, ts: Transformations, ts': Transformations, k: nat, start: string, end: string, keep: bool)
    requires k <= |ts| && k <= |ts'| && ts[..k] == ts'[..k]
    ensures ApplyAll(lines, ts, k, start, end, keep) == ApplyAll(lines, ts', k, start, end, keep)
    decreases k
  {
    if k > 0 {
      assert ts[..k - 1] == ts'[..k - 1];
      assert ts[k - 1] == ts[..k][k - 1];
      assert ts'[k - 1] == ts'[..k][k - 1];
      ApplyAllPrefix(lines, ts, ts', k - 1, start, end, keep);
    }
  }

  /** With no transformation the lines come back as they are; otherwise the
      transformations run in key order, each over the previous output: the
      first `|ts1|` entries act first, the rest act on their result. */
  lemma TransformSequential(lines: seq<string>, ts1: Transformations, ts2: Transformations, start: string, end: string, keep: bool)
    ensures ApplyAll(lines, [], 0, start, end, keep) == lines
    ensures ApplyAll(lines, ts1 + ts2, |ts1 + ts2|, start, end, keep)
      == ApplyAll(ApplyAll(lines, ts1, |ts1|, start, end, keep), ts2, |ts2|, start, end, keep)
  {
    ApplyAllAppend(lines, ts1, ts2, start, end, keep, |ts2|);
  }

  lemma PassSingle(line: string, rv: ReplaceVar, m: string, keep: bool)
    ensures Pass([line], 1, rv, m, keep) == LineOutput(rv, m, keep, line)
  {
    assert Pass([line], 1, rv, m, keep) == [] + LineOutput(rv, m, keep, line);
  }

  /** A lone line that contains none of the marked names passes through a
      list of transformations untouched when non-matching lines are kept. */
  lemma {:induction false} UnmarkedLineKept(line: string, ts: Transformations, k: nat, start: string, end: string)
    requires k <= |ts|
    requires forall j :: 0 <= j < |ts| ==> !Contains(line, start + ts[j].0 + end)
    ensures ApplyAll([line], ts, k, start, end, true) == [line]
    decreases k
  {
    if k > 0 {
      UnmarkedLineKept(line, ts, k - 1, start, end);
      var m := start + ts[k - 1].0 + end;
      var prev := ApplyAll([line], ts, k - 1, start, end, true);
      assert ApplyAll([line], ts, k, start, end, true) == Pass(prev, |prev|, ts[k - 1].1, m, true);
      PassSingle(line, ts[k - 1].1, m, true);
    }
  }

  /** `convertTemplateFile`: the portion replacement with "$" on both sides
      of each name. */
  function ConvertTemplateLines(lines: seq<string>, vars: Vars): seq<string> {
    TransformLinesSpec(lines, Some("$"), Some("$"), MapVarsToOps(ReplaceMatchingPortion, vars))
  }

  /** In a template whose variables are all strings or arrays, a line that
      mentions no `$name$` comes out unchanged, and a line holding `$name$`
      for a one-variable template has its first occurrence replaced. */
  lemma TemplateLines(line: string, vars: Vars, name: string, value: string)
    requires forall j :: 0 <= j < |vars| ==> !vars[j].1.Full?
    ensures (forall j :: 0 <= j < |vars| ==> !Contains(line, "$" + vars[j].0 + "$")) ==>
      ConvertTemplateLines([line], vars) == [line]
    ensures Contains(line, "$" + name + "$") ==>
      var i := IndexOf(line, "$" + name + "$");
      ConvertTemplateLines([line], [(name, PlainText(value))])
        == [line[..i] + value + line[i + |"$" + name + "$"|..]]
  {
    if forall j :: 0 <= j < |vars| ==> !Contains(line, "$" + vars[j].0 + "$") {
      TemplateLineUnmarked(line, vars);
    }
    if Contains(line, "$" + name + "$") {
      TemplateLineReplaced(line, name, value);
    }
  }

  lemma TemplateLineUnmarked(line: string, vars: Vars)
    requires forall j :: 0 <= j < |vars| ==> !vars[j].1.Full?
    requires forall j :: 0 <= j < |vars| ==> !Contains(line, "$" + vars[j].0 + "$")
    ensures ConvertTemplateLines([line], vars) == [line]
  {
    var ts := MapVarsToOps(ReplaceMatchingPortion, vars);
    assert KeepsNonMatching(ts);
    UnmarkedLineKept(line, ts, |ts|, "$", "$");
  }

  lemma TemplateLineReplaced(line: string, name: string, value: string)
    requires Contains(line, "$" + name + "$")
    ensures var i := IndexOf(line, "$" + name + "$");
      ConvertTemplateLines([line], [(name, PlainText(value))])
        == [line[..i] + value + line[i + |"$" + name + "$"|..]]
  {
    var one := MapVarsToOps(ReplaceMatchingPortion, [(name, PlainText(value))]);
    var m := "$" + name + "$";
    var rv := ReplaceVar(ReplaceMatchingPortion, Text(value));
    assert one == [(name, rv)];
    assert KeepsNonMatching(one);
    assert MarkerOrEmpty(Some("$")) == "$";
    assert ConvertTemplateLines([line], [(name, PlainText(value))]) == ApplyAll([line], one, 1, "$", "$", true);
    assert ApplyAll([line], one, 1, "$", "$", true) == Pass([line], 1, rv, m, true);
    PassSingle(line, rv, m, true);
  }

  /** `transformFileToLines` once the file's text is read: the source lines
      and the transformed lines. */
  function TransformFileToLines(op: MatchOperation, content: string, start: string, end: string, vars: Vars): (seq<string>, seq<string>) {
    var srcLines := SplitFileLines(content);
    (srcLines, TransformLinesSpec(srcLines, Some(start), Some(end), MapVarsToOps(op, vars)))
  }

  /** `transformFileToFile` (and its asynchronous form): the lines, and the
      text written to the destination file. */
  function TransformFileToFile(op: MatchOperation, content: string, start: string, end: string, vars: Vars): (seq<string>, seq<string>, string) {
    var (src, out) := TransformFileToLines(op, content, start, end, vars);
    (src, out, WriteFileLinesContent(out))
  }

  /** The written file reads back as the transformed lines when none of them
      holds a line break or a tab; with no variables it reads back as the
      source lines. */
  lemma TransformedFileReadsBack(op: MatchOperation, content: string, start: string, end: string, vars: Vars)
    ensures var (src, out, text) := TransformFileToFile(op, content, start, end, vars);
      (|vars| == 0 ==> out == src)
      && (|out| > 0 && (forall i :: 0 <= i < |out| ==> '\n' !in out[i] && '\t' !in out[i]) ==>
            SplitFileLines(text) == out)
  {
    var (src, out, text) := TransformFileToFile(op, content, start, end, vars);
    if |out| > 0 && forall i :: 0 <= i < |out| ==> '\n' !in out[i] && '\t' !in out[i] {
      WriteFileLinesCrlf(out);
      SplitFileLinesJoin(out, "\r\n");
    }
  }
}

=== FILE: wrappers.dfy ===
/** Option, Result and Outcome: the absent value, the value-or-error and the
    success-or-error that the model uses in place of JavaScript's undefined,
    null and thrown exceptions. */
module Wrappers {

  datatype Option<+T> = None | Some(value: T) {
    function GetOr(default: T): T {
      match this
      case Some(v) => v
      case None => default
    }
  }

  datatype Result<+R, +E> = Success(value: R) | Failure(error: E)

  datatype Outcome<+E> = Pass | Fail(error: E)
}

=== FILE: writefile.dfy ===
/** What the file writers put on disk: the lines joined by the platform's
    end-of-line marker (`writeFile`, `appendFile`), the lines joined by "\n"
    and normalised to "\r\n" line ends with tabs expanded (`writeFileLines`,
    `appendFileLines` and their asynchronous forms), and the sections of a
    file flattened in key order (`writeFileSections`, `appendFileSections`).
    The file system calls themselves are not modelled: each writer is the
    text it writes, and appending writes the same text at the end. */
module WriteFile {
  import opened Strings

  const TabSpaces: string := "    "

  /** `joinLinesForFile(text)`: every "\n" becomes "\r\n", then every tab
      becomes four spaces. */
  function JoinLinesForFile(text: string): (r: string)
    ensures '\t' !in r
    ensures '\n' !in text && '\t' !in text ==> r == text
  {
    var crlf := ReplaceChar(text, '\n', "\r\n");
    ReplaceCharRemoves(crlf, '\t', TabSpaces);
    if '\n' !in text && '\t' !in text then
      ReplaceCharAbsent(text, '\n', "\r\n");
      ReplaceCharAbsent(crlf, '\t', TabSpaces);
      ReplaceChar(crlf, '\t', TabSpaces)
    else
      ReplaceChar(crlf, '\t', TabSpaces)
  }

  /** The normalisation works character by character: it distributes over
      concatenation, turns "\n" into "\r\n" and a tab into four spaces, and
      leaves every other character as it is. */
  lemma JoinLinesForFileByCharacter(a: string, b: string, c: char)
    ensures JoinLinesForFile(a + b) == JoinLinesForFile(a) + JoinLinesForFile(b)
    ensures JoinLinesForFile("\n") == "\r\n"
    ensures JoinLinesForFile("\t") == TabSpaces
    ensures c != '\n' && c != '\t' ==> JoinLinesForFile([c]) == [c]
  {
    ReplaceCharAppend(a, b, '\n', "\r\n");
    ReplaceCharAppend(ReplaceChar(a, '\n', "\r\n"), ReplaceChar(b, '\n', "\r\n"), '\t', TabSpaces);
    assert ReplaceChar("\r\n", '\t', TabSpaces) == "\r" + ReplaceChar("\n", '\t', TabSpaces);
  }

  /** The text `writeFile` and `appendFile` write: the lines joined by the
      platform's end-of-line marker, with no terminator after the last line. */
  function WriteFileContent(lines: seq<string>, eol: string): string {
    Join(lines, eol)
  }

  lemma {:induction false} JoinAppend(lines: seq<string>, line: string, sep: string)
    requires |lines| > 0
    ensures Join(lines + [line], sep) == Join(lines, sep) + sep + line
    decreases |lines|
  {
    if |lines| == 1 {
      assert lines + [line] == [lines[0], line];
    } else {
      assert (lines + [line])[1..] == lines[1..] + [line];
      JoinAppend(lines[1..], line, sep);
    }
  }

  /** The written text ends with the last line and not with a terminator:
      adding a line adds one separator and that line; on a POSIX host,
      splitting the text on "\n" gives back lines that hold no "\n". */
  lemma WriteFileContentShape(lines: seq<string>, line: string, eol: string)
    ensures WriteFileContent([], eol) == ""
    ensures WriteFileContent([line], eol) == line
    ensures |lines| > 0 ==>
      WriteFileContent(lines + [line], eol) == WriteFileContent(lines, eol) + eol + line
    ensures |lines| > 0 && eol == "\n" && (forall i :: 0 <= i < |lines| ==> '\n' !in lines[i]) ==>
      Split(WriteFileContent(lines, eol), eol) == lines
  {
    if |lines| > 0 {
      JoinAppend(lines, line, eol);
      if eol == "\n" && forall i :: 0 <= i < |lines| ==> '\n' !in lines[i] {
        SplitJoinChar(lines, '\n');
      }
    }
  }

  /** The text `writeFileLines`, `appendFileLines` and the asynchronous
      writers write. */
  function WriteFileLinesContent(lines: seq<string>): (r: string)
    ensures '\t' !in r
  {
    JoinLinesForFile(Join(lines, "\n"))
  }

  /** Lines that hold neither "\n" nor a tab are written joined by "\r\n". */
  lemma {:induction false} WriteFileLinesCrlf(lines: seq<string>)
    requires forall i :: 0 <= i < |lines| ==> '\n' !in lines[i] && '\t' !in lines[i]
    ensures WriteFileLinesContent(lines) == Join(lines, "\r\n")
    decreases |lines|
  {
    if |lines| > 1 {
      WriteFileLinesCrlf(lines[1..]);
      JoinLinesForFileByCharacter(lines[0], "\n", 'x');
      JoinLinesForFileByCharacter(lines[0] + "\n", Join(lines[1..], "\n"), 'x');
      assert Join(lines, "\n") == lines[0] + "\n" + Join(lines[1..], "\n");
    }
  }

  /** The sections of a file in key order, each with its lines. */
  type Sections = seq<(string, seq<string>)>

  /** All lines of the sections, section after section. */
  function Flatten(sections: Sections): seq<string> {
    if |sections| == 0 then [] else Flatten(sections[..|sections| - 1]) + sections[|sections| - 1].1
  }

  lemma {:induction false} FlattenAppend(a: Sections, b: Sections)
    ensures Flatten(a + b) == Flatten(a) + Flatten(b)
    decreases |b|
  {
    if |b| == 0 {
      assert a + b == a;
    } else {
      assert (a + b)[..|a + b| - 1] == a + b[..|b| - 1];
      FlattenAppend(a, b[..|b| - 1]);
    }
  }

  /** Flattening drops and reorders nothing: the lines of section `k` sit,
      in order, right after the lines of the sections before it. */
  lemma FlattenKeepsSections(sections: Sections, k: nat)
    requires k < |sections|
    ensures Flatten(sections) == Flatten(sections[..k]) + sections[k].1 + Flatten(sections[k + 1..])
    ensures |Flatten(sections)| == |Flatten(sections[..k])| + |sections[k].1| + |Flatten(sections[k + 1..])|
  {
    assert sections == sections[..k] + [sections[k]] + sections[k + 1..];
    FlattenAppend(sections[..k] + [sections[k]], sections[k + 1..]);
    FlattenAppend(sections[..k], [sections[k]]);
    assert Flatten([sections[k]]) == sections[k].1 by {
      assert [sections[k]][..0] == [];
    }
  }

  /** The loop of `writeFileSections` and `appendFileSections`, which pushes
      every section's lines onto `allLines`. */
  method FlattenSections(sections: Sections) returns (allLines: seq<string>)
    ensures allLines == Flatten(sections)
    ensures forall k :: 0 <= k < |sections| ==> |sections[k].1| <= |allLines|
  {
    allLines := [];
    var i := 0;
    while i < |sections|
      invariant 0 <= i <= |sections|
      invariant allLines == Flatten(sections[..i])
    {
      assert sections[..i + 1][..i] == sections[..i];
      allLines := allLines + sections[i].1;
      i := i + 1;
    }
    assert sections[..i] == sections;
    forall k | 0 <= k < |sections|
      ensures |sections[k].1| <= |allLines|
    {
      FlattenKeepsSections(sections, k);
    }
  }

  /** The text `writeFileSections` and `appendFileSections` write. */
  method WriteFileSectionsContent(sections: Sections, eol: string) returns (text: string)
    ensures text == WriteFileContent(Flatten(sections), eol)
  {
    var allLines := FlattenSections(sections);
    text := Join(allLines, eol);
  }
}
